=== FILE: README.md ===
# NIC.NET data layer — a Dafny model

This project models the query-processing core of the NIC.NET data access library:

- **The object-storage query translator** (`DalcStorageQueryTranslator`). It rewrites a query written against logical classes, properties and relationships into physical queries. The physical queries run over the object table, the per-data-type value tables (entity–attribute–value storage) and the relationship (edge) table.
- **Ontology linking** in `OntologyDalcPersister.GetOntology`. Property-to-class rows become class-property links. Relationship rows become forward/reverse relationship pairs, which the translator's reverse-direction lookup relies on.
- **The relational-expression parser** (`RelExQueryParser`). It covers:
  - the cursor-based lexer;
  - the operator and group tables;
  - quoted and typed constants;
  - right-nested condition groups;
  - the `null` rewrite;
  - field lists and record ranges.
- **The permission condition composer** (`DalcConditionComposer.Compose`).
- **The SQL command generator** (`DbCommandGenerator`). It builds SELECT, INSERT, UPDATE and DELETE text around a SQL builder and views, which are given as functions.
- **The field formatter** (`QueryFieldValueFormatter.Format`).

Module layout:

| file | module | models |
|---|---|---|
| wrappers.dfy | `Wrappers` | `Option`, `Result` (exceptions become `Err`) |
| strings.dfy | `Strings` | `String.Join`, `String.Split(char)` and their round trips |
| query_model.dfy | `QueryModel` | the query AST: `Query`, `QueryNode`, `QField`, constants, condition flags |
| data_schema.dfy | `DataSchema` | classes, properties, locations, relationships, schema lookups |
| query_translator.dfy | `QueryTranslator` | `DalcStorageQueryTranslator` |
| ontology_persister.dfy | `OntologyPersister` | the linking loops of `GetOntology` over an `Ontology` object |
| relex_lexer.dfy | `RelExLexer` | `GetLexemType`, `GetLexem` (both overloads), `GetAllDelimiters` |
| relex_parser.dfy | `RelExParser` | the recursive-descent parser |
| condition_composer.dfy | `ConditionComposer` | `DalcConditionComposer` |
| command_generator.dfy | `CommandGenerator` | `DbCommandGenerator` |
| field_formatter.dfy | `FieldFormatter` | `QueryFieldValueFormatter` |

How source constructs become Dafny:

- A C# exception becomes an `Err` of an error datatype.
- A null `QueryNode` becomes `None`.
- A null `IQueryValue` becomes `NoValue`.
- The `Conditions` flag enumeration becomes a set of flags.
- Loops that update variables or objects are methods with loop invariants. Each is proved equal to a specification function, and the properties are proved about that function:
  - `GetLexemType`;
  - `GetAllDelimiters`;
  - the field-list do-while;
  - `SplitArrayValues`;
  - the linking loops;
  - `Compose`;
  - the generator's column loops;
  - `Format`.
- Recursive rewrites and the recursive-descent parser are functions.

Where the documented behaviour and the code differ, the model follows the code:

- A special name character (`.`, `-`, `_`) outside a lexeme is described as a syntax error. In `GetLexemType` (RelExQueryParser.cs:138-143) it starts a constant instead, so the throw there can never be reached. `RelExLexer.SpecialCharNeverFails` states this.
- `GetAllDelimiters` (RelExQueryParser.cs:191) reads `s[endIdx]` before checking the bound. A delimiter that ends the input therefore raises an index-out-of-range error, which the model keeps as `IndexOutOfRange`. After every group head, `ParseConditionGroup` looks for a group operator, so any condition group whose closing `)` is the last character of the input fails this way: `t(a=1)` is rejected (`RelExParser.ClosingParenthesisAtEnd`, in general `RelExParser.GroupClosedAtEndFails`).

## Model

| member | source | states |
|---|---|---|
| QueryTranslator.TranslateSubQuery | src/NI.Data.Storage/DalcStorageQueryTranslator.cs:33-70 | A table naming neither a class nor a relationship leaves the query unchanged. A class maps to its own table (separate-table location) or to the object table, keeps the alias and the fields, and gets the condition `compact_class_id == CompactID` AND the translated condition. It succeeds only when the fields are non-empty and all are the primary key. A relationship maps to the edge table with an And group whose first child is the predicate filter and whose second is the condition translated against the predicate class. Fields default to the aliased `subject_id`, `object_id`; given fields must be non-empty and only those two. |
| QueryTranslator.CheckFieldsConstraint | src/NI.Data.Storage/DalcStorageQueryTranslator.cs:72-79 | Succeeds iff the field list is present, non-empty and every name is allowed. A missing or empty list is the "explicit list of fields" error. |
| QueryTranslator.FirstDisallowed | src/NI.Data.Storage/DalcStorageQueryTranslator.cs:75-78 | Finds a field whose name is not allowed, or returns none exactly when all names are allowed. |
| QueryTranslator.PrimaryKeyID | src/NI.Data.Storage/DalcStorageQueryTranslator.cs:47 | Yields the class's primary-key property ID, failing exactly when the class has none. |
| QueryTranslator.TranslateQueryNode | src/NI.Data.Storage/DalcStorageQueryTranslator.cs:82-92 | A null node stays null. A group becomes a group of the same kind and child count, and child i is the translation of child i. |
| QueryTranslator.TranslateGroupNode | src/NI.Data.Storage/DalcStorageQueryTranslator.cs:94-100 | Succeeds iff every child translates; the result keeps the length and holds child i's translation at i. |
| QueryTranslator.TranslateConditionNode | src/NI.Data.Storage/DalcStorageQueryTranslator.cs:232-284 | Fields on both sides are rejected. A left field reached through a relationship gives the related-property composition, and a left property of the class gives the property composition. A right field does the same with GreaterThan and LessThan swapped, when the left is no field. The other operand is translated first, and its error is the result. When neither side names a schema property or relationship, the result is `Cond(TranslateQueryValue(lhs), cnd, TranslateQueryValue(rhs))`: it succeeds iff both operands translate, and otherwise fails with the left operand's error first, then the right one's. |
| QueryTranslator.RightPropertyMirrorsLeft | src/NI.Data.Storage/DalcStorageQueryTranslator.cs:256-276 | A property written on the right, with the left no field, translates as the same property written on the left with GreaterThan and LessThan swapped. |
| QueryTranslator.TranslateQueryValue | src/NI.Data.Storage/DalcStorageQueryTranslator.cs:286-290 | A sub-query gives what `TranslateSubQuery` gives: the translated query, or its error. Every other value is returned as it is. |
| QueryTranslator.SwapDirection | src/NI.Data.Storage/DalcStorageQueryTranslator.cs:259-264 | Turns GreaterThan into LessThan (and LessThan alone into GreaterThan), leaving every other flag as it was. |
| QueryTranslator.SwapDirectionInvolution | src/NI.Data.Storage/DalcStorageQueryTranslator.cs:259-264 | Swapping twice gives back any flag set without both GreaterThan and LessThan. |
| QueryTranslator.RightPrefixIsNotInferred | src/NI.Data.Storage/DalcStorageQueryTranslator.cs:266-271 | A right-hand prefix that is not a relationship ID is not inferred: the condition passes through with the original flags. |
| QueryTranslator.LeftPrefixIsInferred | src/NI.Data.Storage/DalcStorageQueryTranslator.cs:240-246 | A left-hand prefix that is not a relationship ID is resolved by inference, and the related-property composition is used. |
| QueryTranslator.UnwrapDerived | src/NI.Data.Storage/DalcStorageQueryTranslator.cs:183-195 | A non-derived location is kept, with no field. A derived location without a resolver is "not supported". Over a column, the resolver is asked for the column name; over a value table, for `value`. Its answer, possibly null (`None`), is passed on with the base location. Derived from anything else is an error. The result is never derived. |
| QueryTranslator.NullFlip | src/NI.Data.Storage/DalcStorageQueryTranslator.cs:213-218 | Exactly `Null` becomes an outer In-and-Not with an inner Not-and-Null; any other flags give an outer `In` and are kept inside. |
| QueryTranslator.ComposeValueTableCondition | src/NI.Data.Storage/DalcStorageQueryTranslator.cs:211-230 | Yields `pk In (select object_id from <data-type table> where property_compact_id == CompactID and (field cnd val))`. Exactly `Null` becomes an outer In-and-Not with an inner Not-and-Null. It fails, with the missing-table error, exactly when the data type has no table. |
| QueryTranslator.ComposePropertyCondition | src/NI.Data.Storage/DalcStorageQueryTranslator.cs:179-209 | After unwrapping a derived location: a column yields `(fld ?? column, cnd, val)`; a value table yields `ComposeValueTableCondition` over the class's primary key and `fld ?? value`, failing without a primary key; any other location fails. A derived location whose resolver gives null falls back to the plain column or `value`. A missing location or resolver fails. |
| QueryTranslator.ResolveDirection | src/NI.Data.Storage/DalcStorageQueryTranslator.cs:103-112 | A non-inferred relationship whose object is the class is replaced by its reverse, and succeeds iff that reverse exists. Otherwise the relationship is kept and must have the class as subject. |
| QueryTranslator.InnerPropertyQuery | src/NI.Data.Storage/DalcStorageQueryTranslator.cs:144-159 | A value table gives `select object_id from <data-type table> where property_compact_id == CompactID and (pFld ?? value, cnd, val)`, failing exactly when the data type has no table. A column gives `select id from <object table> where (pFld ?? column, cnd, val)`. With no field from the resolver, the plain `value` or column is tested. Any other location leaves no query and raises no error. |
| QueryTranslator.ComposeRelatedPropertyCondition | src/NI.Data.Storage/DalcStorageQueryTranslator.cs:102-177 | The result is the primary key In (In-and-Not for a null test) the nested edge queries. Decoding them level by level gives one hop per relationship in the chain, with its predicate and direction, and then exactly the inner property query over the related class, with the null-flipped condition and the resolver's field (the plain `value` or column when it gives null). It succeeds iff the direction resolves, the related property and its location exist, the inner query builds and the class has a primary key. |
| QueryTranslator.RelatedValueTableQueryIsDirect | src/NI.Data.Storage/DalcStorageQueryTranslator.cs:144-152 | For a value table, the inner query of a related-property condition is the sub-query that `ComposeValueTableCondition` builds for the same property, and each builds iff the other does. |
| QueryTranslator.Hops | src/NI.Data.Storage/DalcStorageQueryTranslator.cs:161 | The hops of a chain, one per relationship, in chain order. |
| QueryTranslator.DecodeEdgeQuery | src/NI.Data.Storage/DalcStorageQueryTranslator.cs:164-173 | One edge-table level records its predicate and direction and wraps the inner query unchanged. |
| QueryTranslator.DecodeNested | src/NI.Data.Storage/DalcStorageQueryTranslator.cs:161-174 | Nesting a chain of edge levels and decoding it gives back the chain's hops and the innermost query. |
| QueryTranslator.FoldSnoc | src/NI.Data.Storage/DalcStorageQueryTranslator.cs:163-174 | Folding one more relationship wraps the previous fold in one more edge level. |
| QueryTranslator.FoldIsNesting | src/NI.Data.Storage/DalcStorageQueryTranslator.cs:161-174 | The `foreach` over the reversed chain builds the nesting whose outermost level is the chain's first relationship. |
| QueryTranslator.Reverse | src/NI.Data.Storage/DalcStorageQueryTranslator.cs:161 | `Reverse()` keeps the length and puts element i at position length-1-i. |
| DataSchema.FindRelationship | src/NI.Data.Storage/DalcStorageQueryTranslator.cs:105 | Finds a relationship with that subject, predicate, object and direction, or returns none exactly when there is none. |
| DataSchema.FindClassByID | src/NI.Data.Storage/DalcStorageQueryTranslator.cs:35 | Finds a class with that ID, or returns none exactly when there is none. |
| DataSchema.FindPropertyByID | src/NI.Data.Storage/DalcStorageQueryTranslator.cs:250 | Finds a property of the class with that ID, or returns none exactly when there is none. |
| DataSchema.FindPrimaryKeyProperty | src/NI.Data.Storage/DalcStorageQueryTranslator.cs:176 | Finds a primary-key property of the class, or returns none exactly when there is none. |
| OntologyPersister.GetOntology | src/NI.Data.Storage/OntologyDalcPersister.cs:102-133 | The loops leave the fresh ontology with the given classes and properties, the linked properties, then the linked relationships in row order. |
| OntologyPersister.LinkProperties | src/NI.Data.Storage/OntologyDalcPersister.cs:104-109 | The property-to-class loop appends the links of the rows, in row order, and changes nothing else. |
| OntologyPersister.LinkRelationships | src/NI.Data.Storage/OntologyDalcPersister.cs:111-131 | The relationship loop appends the pairs of the rows, in row order, and changes nothing else. |
| OntologyPersister.LinkRelationshipRow | src/NI.Data.Storage/OntologyDalcPersister.cs:113-130 | One row adds its forward relationship then its reverse when subject, object and predicate resolve, and nothing otherwise. |
| OntologyPersister.Ontology.AddClassProperty | src/NI.Data.Storage/OntologyDalcPersister.cs:108 | Appends one class-property link and changes nothing else. |
| OntologyPersister.Ontology.AddRelationship | src/NI.Data.Storage/OntologyDalcPersister.cs:116-129 | Appends one relationship and changes nothing else. |
| OntologyPersister.PropertyLink | src/NI.Data.Storage/OntologyDalcPersister.cs:104-109 | A row gives a link iff both its class ID and its property ID resolve; otherwise it contributes nothing. |
| OntologyPersister.LinkedPropertiesResolve | src/NI.Data.Storage/OntologyDalcPersister.cs:104-109 | Every link joins a loaded class and a loaded property named together by some row. |
| OntologyPersister.RelationshipPair | src/NI.Data.Storage/OntologyDalcPersister.cs:111-131 | A row gives exactly two relationships iff subject, object and predicate all resolve, otherwise none. The first is forward (object multiplicity, not reversed); the second swaps subject and object, keeps the predicate, and takes the subject multiplicity, reversed. |
| OntologyPersister.FirstPropertyWithID | src/NI.Data.Storage/OntologyDalcPersister.cs:106 | Finds a property with that ID, or returns none exactly when there is none. |
| OntologyPersister.LinkedRelationshipsPaired | src/NI.Data.Storage/OntologyDalcPersister.cs:111-131 | The relationship list is forward/reverse pairs (even positions forward, the next one its reverse), two per resolved row. |
| OntologyPersister.LinkedRelationshipsPairUp | src/NI.Data.Storage/OntologyDalcPersister.cs:111-131 | The linked relationships are forward/reverse pairs. |
| OntologyPersister.LinkedRelationshipsCount | src/NI.Data.Storage/OntologyDalcPersister.cs:111-131 | There are two linked relationships per resolved row. |
| OntologyPersister.AppendPair | src/NI.Data.Storage/OntologyDalcPersister.cs:116-129 | Appending a pair keeps the list paired. |
| OntologyPersister.RowGivesPair | src/NI.Data.Storage/OntologyDalcPersister.cs:115-130 | What one row adds is empty or a forward/reverse pair. |
| OntologyPersister.ReverseIsLinked | src/NI.Data.Storage/OntologyDalcPersister.cs:123-129 | Every forward relationship has its reverse in the list. |
| OntologyPersister.ReverseDirectionResolves | src/NI.Data.Storage/OntologyDalcPersister.cs:123-129 | Over a linked ontology, the translator's reverse-direction substitution always succeeds for a forward relationship used from its object class, and yields the reversed relationship with swapped ends. |
| RelExLexer.ToLower | src/NI.Data.RelationalExpressions/RelExQueryParser.cs:196 | Keeps the length and lower-cases exactly the ASCII capitals. |
| RelExLexer.Step | src/NI.Data.RelationalExpressions/RelExQueryParser.cs:122-164 | One character of the scan: it advances within bounds, stops at most one past the character, and a delimiter before any lexeme is a one-character Delimiter. |
| RelExLexer.Scan | src/NI.Data.RelationalExpressions/RelExQueryParser.cs:121-171 | The end index stays between the cursor and the input's length. An unstarted scan returns Stop only at the end. A started lexeme keeps its kind. Errors are only "invalid syntax" or "unterminated constant" at the start position. |
| RelExLexer.GetLexemType | src/NI.Data.RelationalExpressions/RelExQueryParser.cs:118-172 | The while loop returns what the scan specifies. |
| RelExLexer.Lex | src/NI.Data.RelationalExpressions/RelExQueryParser.cs:118-172 | From a start inside the input or at its end, the end index lies between the start and the input's length; every non-Stop lexeme consumes input; Stop ends at the input's end. |
| RelExLexer.StopOnlyWhenBlank | src/NI.Data.RelationalExpressions/RelExQueryParser.cs:164-167 | Stop is returned iff no character from the cursor on starts a lexeme. |
| RelExLexer.DelimiterStandsAlone | src/NI.Data.RelationalExpressions/RelExQueryParser.cs:122-126 | A delimiter at the start of a lexeme yields Delimiter ending just after it. |
| RelExLexer.SingleCharLexem | src/NI.Data.RelationalExpressions/RelExQueryParser.cs:184-186 | A one-character lexeme that is not white space is that character. |
| RelExLexer.LexemIsTrimmed | src/NI.Data.RelationalExpressions/RelExQueryParser.cs:184-186 | `GetLexem` is the trimmed slice: no longer than it, empty iff all white space, with non-white ends, the slice itself when its ends are not white, and unchanged by trimming again. |
| RelExLexer.WordEnd | src/NI.Data.RelationalExpressions/RelExQueryParser.cs:127-141 | Gives the first character that ends a name or number, or the end of input. |
| RelExLexer.WordRunsToEnd | src/NI.Data.RelationalExpressions/RelExQueryParser.cs:127-171 | A name or number ends at the first ending character; a number that reaches the end of input is "unterminated constant". |
| RelExLexer.LexWord | src/NI.Data.RelationalExpressions/RelExQueryParser.cs:127-171 | A letter or digit starts a Name or Constant that ends at the first ending character; a number that reaches the end of input is "unterminated constant". |
| RelExLexer.LexName | src/NI.Data.RelationalExpressions/RelExQueryParser.cs:127-141 | A letter followed by a word that ends inside the input lexes as a Name ending there. |
| RelExLexer.LexConstant | src/NI.Data.RelationalExpressions/RelExQueryParser.cs:127-141 | A digit followed by a word that ends inside the input lexes as a Constant ending there. |
| RelExLexer.UnterminatedConstantAtEnd | src/NI.Data.RelationalExpressions/RelExQueryParser.cs:135-170 | A number running to the end of input is rejected as unterminated. |
| RelExLexer.SpecialCharNeverFails | src/NI.Data.RelationalExpressions/RelExQueryParser.cs:138-143 | From the start of a lexeme or inside a name, number or quoted constant, the scan never raises the "invalid syntax" error, so the special-name-character throw is unreachable. |
| RelExLexer.LeadingWhiteSpace | src/NI.Data.RelationalExpressions/RelExQueryParser.cs:185 | The length of the longest white-space prefix: all of it is white space and the next character is not. |
| RelExLexer.TrailingWhiteSpace | src/NI.Data.RelationalExpressions/RelExQueryParser.cs:185 | The length of the longest white-space suffix: all of it is white space and the character before it is not. |
| RelExLexer.Trim | src/NI.Data.RelationalExpressions/RelExQueryParser.cs:184-186 | `String.Trim`: it is empty iff all white space, has non-white ends, and is the identity on text with non-white ends. |
| RelExLexer.CollapseQuotes | src/NI.Data.RelationalExpressions/RelExQueryParser.cs:181 | The `""`→`"` replacement never lengthens the text. |
| RelExLexer.Unquote | src/NI.Data.RelationalExpressions/RelExQueryParser.cs:179-181 | Stripping the outer characters fails exactly for lexemes shorter than two. |
| RelExLexer.GetLexemOf | src/NI.Data.RelationalExpressions/RelExQueryParser.cs:174-182 | The typed `GetLexem` is the plain lexeme, or the unquoted one for a quoted constant. |
| RelExLexer.Escape | src/NI.Data.RelationalExpressions/RelExQueryParser.cs:144-159 | Doubling quotes never shortens the text. |
| RelExLexer.CollapseEscape | src/NI.Data.RelationalExpressions/RelExQueryParser.cs:181 | Collapsing doubled quotes undoes doubling them. |
| RelExLexer.StepInsideQuotes | src/NI.Data.RelationalExpressions/RelExQueryParser.cs:121-164 | Inside a quoted constant, a non-quote character is skipped. |
| RelExLexer.StepQuotePair | src/NI.Data.RelationalExpressions/RelExQueryParser.cs:152-156 | Inside a quoted constant, `""` is skipped as one escaped quote. |
| RelExLexer.StepClosingQuote | src/NI.Data.RelationalExpressions/RelExQueryParser.cs:152-154 | A quote not followed by another closes the constant. |
| RelExLexer.ScanEscaped | src/NI.Data.RelationalExpressions/RelExQueryParser.cs:144-159 | The scan passes over an escaped text and stops after its closing quote. |
| RelExLexer.StepEscaped | src/NI.Data.RelationalExpressions/RelExQueryParser.cs:144-159 | Inside a quoted constant, the scan passes over one escaped character (a doubled quote or a plain character) and the rest of the escaped text follows. |
| RelExLexer.LexQuoted | src/NI.Data.RelationalExpressions/RelExQueryParser.cs:121-164 | A quote, an escaped text and a closing quote not followed by another quote lex as one quoted constant ending after the closing quote. |
| RelExLexer.QuotedRoundTrip | src/NI.Data.RelationalExpressions/RelExQueryParser.cs:144-182 | A text written with doubled quotes between quotes lexes as one quoted constant and reads back as the text. |
| RelExLexer.QuotedLexemText | src/NI.Data.RelationalExpressions/RelExQueryParser.cs:174-182 | The typed lexeme of a quoted escaped text is the text. |
| RelExLexer.UnquoteEscaped | src/NI.Data.RelationalExpressions/RelExQueryParser.cs:176-181 | The quoted escaped text is already trimmed, and unquoting it gives the text back. |
| RelExLexer.DelimiterRunEnd | src/NI.Data.RelationalExpressions/RelExQueryParser.cs:189-193 | Every character before the end is a delimiter; the end is the last character or a non-delimiter. |
| RelExLexer.GetAllDelimiters | src/NI.Data.RelationalExpressions/RelExQueryParser.cs:189-193 | Starting at the input's end is the index-out-of-range error; otherwise the loop ends where the delimiter run ends. |
| RelExLexer.AllDelimiters | src/NI.Data.RelationalExpressions/RelExQueryParser.cs:189-193 | Succeeds iff the start is inside the input, ending inside it. |
| RelExParser.DelimiterCondition | src/NI.Data.RelationalExpressions/RelExQueryParser.cs:33-48 | An operator has conditions iff it is one of the eight table spellings. |
| RelExParser.OperatorTableRoundTrip | src/NI.Data.RelationalExpressions/RelExQueryParser.cs:33-48 | Every table entry has a canonical spelling that reads back as the same conditions. |
| RelExParser.NameCondition | src/NI.Data.RelationalExpressions/RelExQueryParser.cs:38-52 | Only `in` and `like` are word operators. |
| RelExParser.NameGroup | src/NI.Data.RelationalExpressions/RelExQueryParser.cs:29-31 | `and` is And and `or` is Or, and nothing else is a group word. |
| RelExParser.DelimiterGroup | src/NI.Data.RelationalExpressions/RelExQueryParser.cs:30-31 | `&&` is And and the double bar is Or. |
| RelExParser.GetGroupType | src/NI.Data.RelationalExpressions/RelExQueryParser.cs:195-214 | A name is looked up lower-cased. A delimiter is extended over the following delimiters and then looked up; at the input's end it is the index-out-of-range error. Other lexemes are no group. A found operator never moves the cursor back. |
| RelExParser.GetCondition | src/NI.Data.RelationalExpressions/RelExQueryParser.cs:216-250 | A name is looked up lower-cased among `in`/`like`. A delimiter is extended over the following delimiters: a table operator is found; `!` adds Not to the operator after it; anything else is none; at the input's end it is the index-out-of-range error. Other lexemes are no condition. |
| RelExParser.NegationAddsNot | src/NI.Data.RelationalExpressions/RelExQueryParser.cs:233-243 | `!` followed by a condition gives that condition with Not added, ending where it ends. |
| RelExParser.FirstPresent | src/NI.Data.RelationalExpressions/RelExQueryParser.cs:300-301 | Finds a separator that occurs in the text, or returns none iff no separator occurs. |
| RelExParser.SplitArrayValues | src/NI.Data.RelationalExpressions/RelExQueryParser.cs:299-304 | The loop returns what the array-items function specifies. |
| RelExParser.ArrayValuesRoundTrip | src/NI.Data.RelationalExpressions/RelExQueryParser.cs:299-304 | Joining the items with the separator used gives the text back. No separator earlier in the order `\0 ; , \t` occurs in any item, and text with none is one item. |
| RelExParser.IndexOfChar | src/NI.Data.RelationalExpressions/RelExQueryParser.cs:300 | The position of the first occurrence. |
| RelExParser.FirstPresentSkips | src/NI.Data.RelationalExpressions/RelExQueryParser.cs:300-302 | The separator chosen is the first of the order that occurs. |
| RelExParser.SplitPiecesAvoid | src/NI.Data.RelationalExpressions/RelExQueryParser.cs:302 | A character absent from the text is absent from every piece. |
| RelExParser.ParseTypedConstant | src/NI.Data.RelationalExpressions/RelExQueryParser.cs:264-297 | `sql` in any case gives a raw constant holding the unconverted text. A `TypeCode` name gives a typed constant, and `name[]` gives the array items. Any other type name is an error. |
| RelExParser.NullNameIsNullValue | src/NI.Data.RelationalExpressions/RelExQueryParser.cs:563-565 | `null` in any letter case, converted to a field, is a null value. |
| RelExParser.IsNullValue | src/NI.Data.RelationalExpressions/RelExQueryParser.cs:563-565 | True iff the value is a field whose name is `null` in some mix of letter case. |
| RelExParser.NullSpelling | src/NI.Data.RelationalExpressions/RelExQueryParser.cs:563-565 | Lower-casing gives `null` iff each letter is that of `null` in lower or upper case. |
| RelExParser.NullRewrite | src/NI.Data.RelationalExpressions/RelExQueryParser.cs:550-560 | Against `null`, flags with Equal become the flags with Equal replaced by Null, with no right value, and flags without Equal are an error. Any other right value is kept with the flags. |
| RelExParser.NullComparisons | src/NI.Data.RelationalExpressions/RelExQueryParser.cs:551-556 | `= null` is `Null`, `!= null` is Null and Not, and `> null` is an error. |
| RelExParser.ParseInt32 | src/NI.Data.RelationalExpressions/RelExQueryParser.cs:418 | A record-range number is accepted only within the 32-bit range. |
| RelExParser.Int32RoundTrip | src/NI.Data.RelationalExpressions/RelExQueryParser.cs:418 | Any 32-bit integer written in decimal reads back as itself. |
| RelExParser.DigitsOfNat | src/NI.Data.RelationalExpressions/RelExQueryParser.cs:418 | The decimal digits of a number evaluate to the number. |
| RelExParser.NatText | src/NI.Data.RelationalExpressions/RelExQueryParser.cs:539 | Gives a non-empty string of decimal digits. |
| RelExParser.ConstText | src/NI.Data.RelationalExpressions/RelExQueryParser.cs:539 | A text or typed constant prints as its text, a converted array as `System.Object[]`, and a 32-bit integer as text that reads back as it. |
| RelExParser.FieldListText | src/NI.Data.RelationalExpressions/RelExQueryParser.cs:384-393 | The field-list text ends within the input. |
| RelExParser.ReadFieldList | src/NI.Data.RelationalExpressions/RelExQueryParser.cs:382-394 | The do-while appends lexemes up to `]` or the end of input, as the field-list function specifies. |
| RelExParser.MakeQuery | src/NI.Data.RelationalExpressions/RelExQueryParser.cs:405-447 | A query on the source with the condition and range, and one field per listed name in order. |
| RelExParser.ParseRecordRange | src/NI.Data.RelationalExpressions/RelExQueryParser.cs:405-448 | Always a query on the source with the parsed condition, fields present iff listed. |
| RelExParser.ParseProjection | src/NI.Data.RelationalExpressions/RelExQueryParser.cs:368-402 | Without `[`, the name is a constant when dump constants are on and it is not `null`, and otherwise a field. With `[`, the result is a query. |
| RelExParser.ParseQuoted | src/NI.Data.RelationalExpressions/RelExQueryParser.cs:314-341 | The lexeme must unquote. With no `:type` after it, the result is exactly its unquoted text and the cursor stays after it. With `:name`, the result is the type-suffix parse of that name. The cursor never moves back. |
| RelExParser.ParseTypeSuffix | src/NI.Data.RelationalExpressions/RelExQueryParser.cs:321-336 | The typed constant of the name; with `[]` after the name, of the `name[]` array type, the cursor then after `]`. A `[` without `]` leaves the cursor after the name. Never a plain text constant; type errors are passed on. |
| RelExParser.ParseInternal | src/NI.Data.RelationalExpressions/RelExQueryParser.cs:307-453 | A number lexeme is a text constant. A quoted lexeme is read by `ParseQuoted`, and a name by `ParseSource`. A delimiter or end of input is a syntax error at its end. The cursor never moves back or past the input. |
| RelExParser.ParseSource | src/NI.Data.RelationalExpressions/RelExQueryParser.cs:343-366 | The cursor stays within the input after the source name. Without `(` after the name, the result is the projection of the name read at once: a query when `[` follows, otherwise the field or dump constant. |
| RelExParser.ParseNodeName | src/NI.Data.RelationalExpressions/RelExQueryParser.cs:455-479 | Without `<` there is no name and the cursor is not moved. |
| RelExParser.ParseConditionGroup | src/NI.Data.RelationalExpressions/RelExQueryParser.cs:481-532 | Reads a head. No group operator after it gives the head. An operator gives a group of that kind, holding the head and the rest of the chain, so chains nest to the right. The errors of the head, the operator and the rest are passed on. Every group built is binary. |
| RelExParser.ParseGroupHead | src/NI.Data.RelationalExpressions/RelExQueryParser.cs:486-519 | A parenthesised group or a single condition, whose groups are binary. |
| RelExParser.ParseCondition | src/NI.Data.RelationalExpressions/RelExQueryParser.cs:534-561 | The left operand is the first value read, a constant made a field when dump constants are on. Then the operator is read; without one it is a syntax error at the start. The node is the null rewrite of left, operator and the value read next, ending after that value. |
| RelExParser.Parse | src/NI.Data.RelationalExpressions/RelExQueryParser.cs:253-262 | The expression must parse to a query, otherwise "not a query". |
| RelExParser.ClosingParenthesisAtEnd | src/NI.Data.RelationalExpressions/RelExQueryParser.cs:343-366 | `t(a=1)` fails with the index-out-of-range error, although its group is well formed. |
| RelExParser.GroupClosedAtEndFails | src/NI.Data.RelationalExpressions/RelExQueryParser.cs:343-366 | Any `name(` query whose group is followed by a delimiter that ends the input fails with the index-out-of-range error. |
| RelExParser.GroupHeadClosedAtEndFails | src/NI.Data.RelationalExpressions/RelExQueryParser.cs:481-532 | A group head followed by a delimiter that ends the input makes the group fail with the index-out-of-range error. |
| RelExParser.SourceGroupFails | src/NI.Data.RelationalExpressions/RelExQueryParser.cs:353-356 | A source followed by `(` fails with the error of its condition group. |
| RelExParser.NameOperand | src/NI.Data.RelationalExpressions/RelExQueryParser.cs:343-401 | A name followed by a delimiter other than `(` and `[` is the field of that name, or a constant when dump constants are on and it is not `null`, ending where the name ends. |
| RelExParser.NameEqualsConstant | src/NI.Data.RelationalExpressions/RelExQueryParser.cs:486-519 | `name = number` is a group head ending after the number. |
| RelExParser.NameEqualsConstantCondition | src/NI.Data.RelationalExpressions/RelExQueryParser.cs:534-561 | `name = number` is a condition ending after the number. |
| RelExParser.EqualsOperator | src/NI.Data.RelationalExpressions/RelExQueryParser.cs:216-250 | A lone `=` is the lexeme `=` and the Equal operator, ending after it. |
| Strings.Join | src/NI.Data/DbCommandGenerator.cs:270 | `String.Join`: no parts give the empty text; the text starts with the first part, followed by the separator and the join of the rest when more parts come. |
| Strings.Split | src/NI.Data.RelationalExpressions/RelExQueryParser.cs:394 | At least one piece, none containing the separator. |
| Strings.JoinSplit | src/NI.Data.RelationalExpressions/RelExQueryParser.cs:299-304 | Joining the pieces of a split gives the text back. |
| Strings.SplitAbsent | src/NI.Data.RelationalExpressions/RelExQueryParser.cs:303 | A text without the separator splits into itself alone. |
| Strings.SplitAfterPiece | src/NI.Data.RelationalExpressions/RelExQueryParser.cs:394 | A separator after a piece free of it splits off that piece. |
| Strings.SplitJoin | src/NI.Data/DbCommandGenerator.cs:270 | Splitting pieces joined with a separator none contains gives the pieces back. |
| ConditionComposer.Surviving | src/NI.Data/Permissions/DalcConditionComposer.cs:45-51 | There are never more surviving conditions than descriptors. |
| ConditionComposer.Collapse | src/NI.Data/Permissions/DalcConditionComposer.cs:53-55 | No condition gives null. One gives that node unwrapped. Two or more give an And group holding them in order. |
| ConditionComposer.DalcConditionComposer.Compose | src/NI.Data/Permissions/DalcConditionComposer.cs:43-56 | The loop and collapse return the collapsed conditions of the applicable descriptors. |
| ConditionComposer.SurvivingConcat | src/NI.Data/Permissions/DalcConditionComposer.cs:45-51 | The conditions of two runs of descriptors are those of each run, in order. |
| ConditionComposer.IgnoredDescriptor | src/NI.Data/Permissions/DalcConditionComposer.cs:46-50 | A descriptor for another operation or source, or whose provider returns null, changes nothing wherever it stands. |
| ConditionComposer.ContributingDescriptor | src/NI.Data/Permissions/DalcConditionComposer.cs:46-50 | An applicable descriptor with a condition contributes it at its own position. |
| ConditionComposer.SurvivingProvided | src/NI.Data/Permissions/DalcConditionComposer.cs:45-51 | Every surviving condition was provided for this user by an applicable descriptor. |
| CommandGenerator.WritableColumns | src/NI.Data/DbCommandGenerator.cs:91-95 | Exactly the non-auto-increment columns. |
| CommandGenerator.WritableColumnsConcat | src/NI.Data/DbCommandGenerator.cs:176-181 | The filter keeps column order (it distributes over concatenation). |
| CommandGenerator.ColumnNames | src/NI.Data/DbCommandGenerator.cs:93 | One name per column, in order. |
| CommandGenerator.ColumnParameters | src/NI.Data/DbCommandGenerator.cs:94 | One parameter per column, in order. |
| CommandGenerator.SetPairs | src/NI.Data/DbCommandGenerator.cs:265-269 | One `name=value` pair per index, in order. |
| CommandGenerator.SetExpression | src/NI.Data/DbCommandGenerator.cs:261-271 | Fails exactly when the name and value arrays differ in length. |
| CommandGenerator.SetExpressionPairs | src/NI.Data/DbCommandGenerator.cs:261-271 | When no pair holds a comma, splitting the SET list at commas gives back the pairs `name_i=value_i` in index order. |
| CommandGenerator.BuildSetExpression | src/NI.Data/DbCommandGenerator.cs:261-271 | The loop returns the specified SET list. |
| CommandGenerator.PkCondition | src/NI.Data/DbCommandGenerator.cs:128-135 | An And group with one `column == parameter` node per primary-key column, in key order. |
| CommandGenerator.ComposePkCondition | src/NI.Data/DbCommandGenerator.cs:128-135 | The loop builds that group. |
| CommandGenerator.WritableFieldsAndParameters | src/NI.Data/DbCommandGenerator.cs:174-181 | The column loop collects the names and parameters of exactly the writable columns. |
| CommandGenerator.TableDeleteText | src/NI.Data/DbCommandGenerator.cs:109-126 | Fails exactly for a table without primary-key columns. |
| CommandGenerator.TableUpdateText | src/NI.Data/DbCommandGenerator.cs:169-197 | Fails exactly when the primary-key group is empty. |
| CommandGenerator.Keys | src/NI.Data/DbCommandGenerator.cs:216-219 | The keys in enumeration order. |
| CommandGenerator.BuiltValues | src/NI.Data/DbCommandGenerator.cs:247-250 | The rendered values in the same order. |
| CommandGenerator.FirstMatchingView | src/NI.Data/DbCommandGenerator.cs:67-75 | The first view in array order that matches the source name, or none iff no view matches. |
| CommandGenerator.FirstMatchIsUnique | src/NI.Data/DbCommandGenerator.cs:68-73 | A matching view with no matching view before it is the one chosen. |
| CommandGenerator.DbCommandGenerator.ComposeSelect | src/NI.Data/DbCommandGenerator.cs:63-79 | The first matching view composes the SELECT; with no views or no match, the builder does. |
| CommandGenerator.DbCommandGenerator.ComposeInsertFromTable | src/NI.Data/DbCommandGenerator.cs:84-104 | `INSERT INTO t (...) VALUES (...)` over exactly the writable columns, in column order. |
| CommandGenerator.DbCommandGenerator.ComposeDeleteFromTable | src/NI.Data/DbCommandGenerator.cs:109-126 | Without a primary key it fails; otherwise `DELETE FROM t WHERE <pk condition>`. |
| CommandGenerator.DbCommandGenerator.ComposeDeleteByQuery | src/NI.Data/DbCommandGenerator.cs:148-160 | Appends ` WHERE …` only for a non-null, non-empty expression. |
| CommandGenerator.QueryDeleteText | src/NI.Data/DbCommandGenerator.cs:148-160 | `DELETE FROM <source>`, followed by ` WHERE <expr>` exactly when the expression is built and non-empty. |
| CommandGenerator.DbCommandGenerator.ComposeUpdateFromTable | src/NI.Data/DbCommandGenerator.cs:169-197 | Writes the writable columns; fails when the primary-key group is empty. |
| CommandGenerator.DbCommandGenerator.ComposeUpdateByQuery | src/NI.Data/DbCommandGenerator.cs:209-233 | Appends ` WHERE …` whenever the expression is non-null. |
| CommandGenerator.QueryUpdateText | src/NI.Data/DbCommandGenerator.cs:209-233 | `UPDATE <source> SET` every change as `key=value`, in order, followed by ` WHERE <expr>` exactly when an expression is built. |
| CommandGenerator.DbCommandGenerator.ComposeInsertFromData | src/NI.Data/DbCommandGenerator.cs:240-259 | Keys and built values are listed in the same order. |
| CommandGenerator.DeleteAndUpdateNeedPrimaryKey | src/NI.Data/DbCommandGenerator.cs:110-189 | The table DELETE and UPDATE refuse exactly the same tables: those without primary-key columns. |
| CommandGenerator.EmptyWhereExpression | src/NI.Data/DbCommandGenerator.cs:153-230 | For an expression rendered as empty text, the DELETE has no WHERE but the UPDATE ends in ` WHERE `. |
| FieldFormatter.FormattedField | src/NI.Data/QueryFieldValueFormatter.cs:36-40 | A name containing `*`, `(` or `)` is returned verbatim. Any other name fills the format string, and a missing format string is an error. |
| FieldFormatter.FormatWith | src/NI.Data/QueryFieldValueFormatter.cs:39 | `String.Format` with one argument fails only with the malformed-format error, and only for a template holding a brace. |
| FieldFormatter.QueryFieldValueFormatter.Format | src/NI.Data/QueryFieldValueFormatter.cs:36-40 | The loop with early return gives that result. |
| FieldFormatter.QueryFieldValueFormatter.SetFormatString | src/NI.Data/QueryFieldValueFormatter.cs:27-30 | Sets the format string. |
| FieldFormatter.BraceFreeVerbatim | src/NI.Data/QueryFieldValueFormatter.cs:39 | A template without braces formats to itself. |
| FieldFormatter.FormatPlainChar | src/NI.Data/QueryFieldValueFormatter.cs:39 | A non-brace character is copied. |
| FieldFormatter.FormatLeadingPlaceholder | src/NI.Data/QueryFieldValueFormatter.cs:39 | A leading `{0}` is replaced by the name. |
| FieldFormatter.FormatFillsPlaceholder | src/NI.Data/QueryFieldValueFormatter.cs:39 | `before{0}after` (brace-free parts) formats to `before<name>after`. |
| FieldFormatter.PaddedItemIsArgument | src/NI.Data/QueryFieldValueFormatter.cs:39 | An item `{0...0 ...}` with leading zeros and trailing spaces is replaced by the argument. |
| FieldFormatter.BraceFreePrefix | src/NI.Data/QueryFieldValueFormatter.cs:39 | A brace-free prefix is copied in front of the formatted rest, and errors of the rest are passed on. |
| FieldFormatter.VerbatimIgnoresFormat | src/NI.Data/QueryFieldValueFormatter.cs:37-38 | In the verbatim case the result does not depend on the format string. |
| FieldFormatter.PrefixIgnored | src/NI.Data/QueryFieldValueFormatter.cs:36-40 | The field's prefix never reaches the output. |
| FieldFormatter.PlainNameFillsTemplate | src/NI.Data/QueryFieldValueFormatter.cs:39 | An ordinary name lands in the template's placeholder. |

## Left out

- The loading of rows in `GetOntology` (OntologyDalcPersister.cs:96-100) is I/O. The rows are taken as inputs.
- RelExLexer.ToLower: folds only the ASCII capitals, where .NET folds every Unicode capital.
- Unicode character classes:
  - `Char.IsLetter` and `Char.IsDigit` are ASCII letters and digits only;
  - `ToLower` folds only ASCII capitals;
  - `Char.IsSeparator`, `Char.IsControl` and the white space of `Trim` use the exact .NET character lists.
- The text-to-field conversion `(QField)text` and `new QField(text)` in the parser is a parameter (`RelExParser.Parser.fieldOf`), as is the source-name-to-table conversion of `new Query(name, …)` (`tableOf`). The lemmas about the `null` rewrite assume only that names without a dot become unprefixed fields. In the translator and the command generator, column and field names such as `compact_class_id` are taken as unprefixed fields.
- `Convert.ChangeType`, `Enum.Parse` and `AllowLazyConstType` in `ParseTypedConstant` are not modelled. A typed constant keeps its lower-cased type name and its text, and an array constant keeps its type name and the split items, unconverted.
- RelExParser.ParseInt32: it does not model the leading and trailing white space or the culture-specific signs that `Int32.Parse` accepts; only an optional sign and ASCII digits are.
- RelExParser.ConstText: `Value.ToString()` of a converted typed constant is its text, and of an array is `System.Object[]`. Culture-specific formatting of converted numbers and dates is not modelled.
- Node names `(<name> …)` are parsed and checked but not kept in the tree; the AST has no name field.
- The `QueryModifier` hook of `Parse` is left out. The parser result is the unmodified query.
- `Schema.InferRelationshipByID`, `Schema.FindRelationshipByID`, `Property.GetLocation`, `GetDerivedField` and the data-type-to-table map are lookups whose algorithms are not part of this model. They are maps and a function parameter; the resolver gives an optional field, `None` standing for its null result.
- The `&` operator on `QueryNode` is not part of this model. It is taken as an And group of the two operands, keeping a null right operand as a null child.
- Exception messages are not modelled; errors carry only their kind and, for syntax errors, the position the source reports.
- FieldFormatter.FormatWith: `String.Format` alignment and format specifiers (`{0,10}`, `{0:x}`) are treated as malformed, where .NET accepts them. Leading zeros in the index (`{00}`) and spaces before the closing brace (`{0 }`) are modelled as .NET reads them; any other index is malformed, as .NET throws for a missing argument.
- `DalcOperation` and `IPrincipal` are not part of this model. An operation is compared only for equality, and a principal is an opaque value passed to the providers.
- A null `ConditionDescriptors` array (a null-reference exception in `Compose`) is not modelled; the descriptors are a sequence.
- `DbFactory.CreateCommand`, the command object and its parameters are left out. Each `Compose…` method returns the command text built with the SQL builder it is given. The dictionaries of `ComposeInsert(data, …)` and `ComposeUpdate(changes, …)` are sequences of key/value pairs in enumeration order.
- `PrepareSelectQuery`, `ComposeDeleteCondition` and `ComposeUpdateCondition` are virtual. Their base versions are modelled: the identity, the primary-key condition, and the query's own condition.

=== FILE: command_generator.dfy ===
/**
 * The generator of SELECT, INSERT, UPDATE and DELETE command text. The SQL
 * builder that renders values, parameters and expressions, and the views
 * that may take over a SELECT, are given as functions.
 */
module CommandGenerator {
  import opened Wrappers
  import opened QueryModel
  import opened Strings

  datatype DataColumn = DataColumn(columnName: string, autoIncrement: bool)

  datatype DataTable = DataTable(tableName: string, columns: seq<DataColumn>, primaryKey: seq<DataColumn>)

  /** Which value of a changed row a command parameter is bound to. */
  datatype RowVersion = Current | Original

  /** The SQL builder of one command; `buildExpression` may return no text for a missing condition. */
  datatype SqlBuilder = SqlBuilder(
    buildValue: QueryValue -> string,
    buildCommandParameter: (DataColumn, RowVersion) -> string,
    buildExpression: Option<QueryNode> -> Option<string>,
    buildSelect: Query -> string)

  /** A view that composes the SELECT for the source names it matches. */
  datatype DalcView = DalcView(matchSourceName: string -> bool, composeSelect: (Query, SqlBuilder) -> string)

  datatype CommandError =
    | NoPrimaryKeyForDelete
    | NoPrimaryKeyForUpdate
    | LengthMismatch

  /** `String.Format` of a null argument writes nothing. */
  function TextOrEmpty(s: Option<string>): string
  {
    if s.Some? then s.value else ""
  }

  /** The columns a table-based INSERT or UPDATE writes: those that are not auto-increment. */
  function WritableColumns(cols: seq<DataColumn>): (r: seq<DataColumn>)
    ensures |r| <= |cols|
    ensures forall c :: c in r <==> c in cols && !c.autoIncrement
  {
    if cols == [] then []
    else
      var before := WritableColumns(cols[..|cols| - 1]);
      if cols[|cols| - 1].autoIncrement then before else before + [cols[|cols| - 1]]
  }

  /** Filtering keeps column order: it distributes over concatenation. */
  lemma {:induction false} WritableColumnsConcat(a: seq<DataColumn>, b: seq<DataColumn>)
    ensures WritableColumns(a + b) == WritableColumns(a) + WritableColumns(b)
  {
    if b == [] {
      assert a + b == a;
    } else {
      var last := b[|b| - 1];
      assert (a + b)[..|a + b| - 1] == a + b[..|b| - 1] && (a + b)[|a + b| - 1] == last;
      assert WritableColumns(a + b[..|b| - 1]) == WritableColumns(a) + WritableColumns(b[..|b| - 1]) by {
        WritableColumnsConcat(a, b[..|b| - 1]);
      }
      if !last.autoIncrement {
        assert WritableColumns(a) + WritableColumns(b[..|b| - 1]) + [last]
            == WritableColumns(a) + (WritableColumns(b[..|b| - 1]) + [last]);
      }
    }
  }

  function ColumnNames(cols: seq<DataColumn>): (r: seq<string>)
    ensures |r| == |cols| && forall k :: 0 <= k < |cols| ==> r[k] == cols[k].columnName
  {
    seq(|cols|, k requires 0 <= k < |cols| => cols[k].columnName)
  }

  function ColumnParameters(b: SqlBuilder, cols: seq<DataColumn>, version: RowVersion): (r: seq<string>)
    ensures |r| == |cols| && forall k :: 0 <= k < |cols| ==> r[k] == b.buildCommandParameter(cols[k], version)
  {
    seq(|cols|, k requires 0 <= k < |cols| => b.buildCommandParameter(cols[k], version))
  }

  function InsertText(sourceName: string, fields: seq<string>, values: seq<string>): string
  {
    "INSERT INTO " + sourceName + " (" + Join(",", fields) + ") VALUES (" + Join(",", values) + ")"
  }

  /** `name=value` with the name rendered as a field. */
  function SetPair(b: SqlBuilder, name: string, value: string): string
  {
    b.buildValue(FieldNamed(name)) + "=" + value
  }

  function SetPairs(b: SqlBuilder, names: seq<string>, values: seq<string>): (r: seq<string>)
    requires |names| == |values|
    ensures |r| == |names| && forall k :: 0 <= k < |names| ==> r[k] == SetPair(b, names[k], values[k])
  {
    seq(|names|, k requires 0 <= k < |names| => SetPair(b, names[k], values[k]))
  }

  /** The SET list: the pairs joined with commas; names and values must pair up. */
  function SetExpression(b: SqlBuilder, names: seq<string>, values: seq<string>): (r: Result<string, CommandError>)
    ensures r.Err? <==> |names| != |values|
  {
    if |names| != |values| then Err(LengthMismatch) else Ok(Join(",", SetPairs(b, names, values)))
  }

  /** When no rendered pair holds a comma, splitting the SET list at commas gives the pairs back. */
  lemma SetExpressionPairs(b: SqlBuilder, names: seq<string>, values: seq<string>)
    requires |names| == |values| >= 1
    requires forall k :: 0 <= k < |names| ==> ',' !in SetPair(b, names[k], values[k])
    ensures Split(SetExpression(b, names, values).value, ',') == SetPairs(b, names, values)
  {
    SplitJoin(SetPairs(b, names, values), ',');
  }

  /** `BuildSetExpression`. */
  method BuildSetExpression(b: SqlBuilder, fieldNames: seq<string>, fieldValues: seq<string>) returns (r: Result<string, CommandError>)
    ensures r == SetExpression(b, fieldNames, fieldValues)
  {
    if |fieldNames| != |fieldValues| {
      return Err(LengthMismatch);
    }
    var parts: seq<string> := [];
    for i := 0 to |fieldNames|
      invariant parts == SetPairs(b, fieldNames[..i], fieldValues[..i])
    {
      parts := parts + [SetPair(b, fieldNames[i], fieldValues[i])];
    }
    assert fieldNames[..|fieldNames|] == fieldNames && fieldValues[..|fieldValues|] == fieldValues;
    return Ok(Join(",", parts));
  }

  /** The primary-key condition: one `column == parameter` test per key column, in key order. */
  function PkCondition(table: DataTable, b: SqlBuilder, version: RowVersion): (r: QueryNode)
    ensures r.Group? && r.kind == And && |r.nodes| == |table.primaryKey|
    ensures forall k :: 0 <= k < |table.primaryKey| ==>
      r.nodes[k] == Some(Equals(FieldNamed(table.primaryKey[k].columnName),
                                Raw(b.buildCommandParameter(table.primaryKey[k], version))))
  {
    Group(And, seq(|table.primaryKey|, k requires 0 <= k < |table.primaryKey| =>
      Some(Equals(FieldNamed(table.primaryKey[k].columnName), Raw(b.buildCommandParameter(table.primaryKey[k], version))))))
  }

  /** `ComposePkCondition`. */
  method ComposePkCondition(table: DataTable, b: SqlBuilder, version: RowVersion) returns (r: QueryNode)
    ensures r == PkCondition(table, b, version)
  {
    var nodes: seq<Option<QueryNode>> := [];
    for i := 0 to |table.primaryKey|
      invariant |nodes| == i
      invariant forall k :: 0 <= k < i ==> nodes[k] == PkCondition(table, b, version).nodes[k]
    {
      var col := table.primaryKey[i];
      nodes := nodes + [Some(Equals(FieldNamed(col.columnName), Raw(b.buildCommandParameter(col, version))))];
    }
    r := Group(And, nodes);
  }

  /** The fields and parameters of the writable columns of a table, collected by the column loop. */
  method WritableFieldsAndParameters(table: DataTable, b: SqlBuilder) returns (fields: seq<string>, values: seq<string>)
    ensures fields == ColumnNames(WritableColumns(table.columns))
    ensures values == ColumnParameters(b, WritableColumns(table.columns), Current)
  {
    fields, values := [], [];
    for i := 0 to |table.columns|
      invariant fields == ColumnNames(WritableColumns(table.columns[..i]))
      invariant values == ColumnParameters(b, WritableColumns(table.columns[..i]), Current)
    {
      assert table.columns[..i + 1][..i] == table.columns[..i];
      var col := table.columns[i];
      if !col.autoIncrement {
        fields := fields + [col.columnName];
        values := values + [b.buildCommandParameter(col, Current)];
      }
    }
    assert table.columns[..|table.columns|] == table.columns;
  }

  function TableInsertText(table: DataTable, b: SqlBuilder): string
  {
    var cols := WritableColumns(table.columns);
    InsertText(table.tableName, ColumnNames(cols), ColumnParameters(b, cols, Current))
  }

  function TableDeleteText(table: DataTable, b: SqlBuilder): (r: Result<string, CommandError>)
    ensures r.Err? <==> |table.primaryKey| == 0
  {
    if |table.primaryKey| == 0 then Err(NoPrimaryKeyForDelete)
    else Ok("DELETE FROM " + table.tableName + " WHERE " + TextOrEmpty(b.buildExpression(Some(PkCondition(table, b, Current)))))
  }

  function TableUpdateText(table: DataTable, b: SqlBuilder): (r: Result<string, CommandError>)
    ensures r.Err? <==> PkCondition(table, b, Original).nodes == []
  {
    var cols := WritableColumns(table.columns);
    var setExpression := Join(",", SetPairs(b, ColumnNames(cols), ColumnParameters(b, cols, Current)));
    var pk := PkCondition(table, b, Original);
    if |pk.nodes| == 0 then Err(NoPrimaryKeyForUpdate)
    else Ok("UPDATE " + table.tableName + " SET " + setExpression + " WHERE " + TextOrEmpty(b.buildExpression(Some(pk))))
  }

  /** The DELETE by query appends a WHERE clause only for a non-empty expression. */
  function QueryDeleteText(query: Query, b: SqlBuilder): (r: string)
    ensures var where := b.buildExpression(query.condition);
      && (where.Some? && |where.value| > 0 ==> r == "DELETE FROM " + SourceName(query) + " WHERE " + where.value)
      && (where.None? || where.value == "" ==> r == "DELETE FROM " + SourceName(query))
  {
    var where := b.buildExpression(query.condition);
    "DELETE FROM " + SourceName(query) + (if where.Some? && |where.value| > 0 then " WHERE " + where.value else "")
  }

  /** The UPDATE by query appends a WHERE clause whenever there is an expression, even an empty one. */
  function QueryUpdateText(changes: seq<(string, QueryValue)>, query: Query, b: SqlBuilder): (r: string)
    // every change is set, in order; the WHERE clause is there whenever an expression is built
    ensures var head := "UPDATE " + SourceName(query) + " SET " + Join(",", SetPairs(b, Keys(changes), BuiltValues(b, changes)));
      var where := b.buildExpression(query.condition);
      && (where.Some? ==> r == head + " WHERE " + where.value)
      && (where.None? ==> r == head)
  {
    var where := b.buildExpression(query.condition);
    "UPDATE " + SourceName(query) + " SET " + Join(",", SetPairs(b, Keys(changes), BuiltValues(b, changes)))
      + (if where.Some? then " WHERE " + where.value else "")
  }

  function Keys(data: seq<(string, QueryValue)>): (r: seq<string>)
    ensures |r| == |data| && forall k :: 0 <= k < |data| ==> r[k] == data[k].0
  {
    seq(|data|, k requires 0 <= k < |data| => data[k].0)
  }

  function BuiltValues(b: SqlBuilder, data: seq<(string, QueryValue)>): (r: seq<string>)
    ensures |r| == |data| && forall k :: 0 <= k < |data| ==> r[k] == b.buildValue(data[k].1)
  {
    seq(|data|, k requires 0 <= k < |data| => b.buildValue(data[k].1))
  }

  /** The index of the first view that matches the source name. */
  function FirstMatchingView(views: seq<DalcView>, sourceName: string): (r: Option<nat>)
    ensures r.Some? ==> r.value < |views| && views[r.value].matchSourceName(sourceName)
                        && forall k :: 0 <= k < r.value ==> !views[k].matchSourceName(sourceName)
    ensures r.None? <==> forall k :: 0 <= k < |views| ==> !views[k].matchSourceName(sourceName)
  {
    if views == [] then None
    else if views[0].matchSourceName(sourceName) then Some(0)
    else match FirstMatchingView(views[1..], sourceName)
      case Some(i) => Some(i + 1)
      case None => None
  }

  function SelectText(views: Option<seq<DalcView>>, query: Query, b: SqlBuilder): string
  {
    if views.Some? && FirstMatchingView(views.value, SourceName(query)).Some? then
      views.value[FirstMatchingView(views.value, SourceName(query)).value].composeSelect(query, b)
    else b.buildSelect(query)
  }

  /** `DbCommandGenerator`; each `Compose...` method returns the command text built with the given SQL builder. */
  class DbCommandGenerator {
    var views: Option<seq<DalcView>>

    constructor(views: Option<seq<DalcView>>)
      ensures this.views == views
    {
      this.views := views;
    }

    /** `ComposeSelect`: the first matching view composes the SELECT, or the builder does. */
    method ComposeSelect(query: Query, b: SqlBuilder) returns (r: string)
      ensures r == SelectText(views, query, b)
    {
      if views.Some? {
        var vs := views.value;
        for i := 0 to |vs|
          invariant forall k :: 0 <= k < i ==> !vs[k].matchSourceName(SourceName(query))
        {
          if vs[i].matchSourceName(SourceName(query)) {
            assert FirstMatchingView(vs, SourceName(query)) == Some(i) by {
              FirstMatchIsUnique(vs, SourceName(query), i);
            }
            return vs[i].composeSelect(query, b);
          }
        }
      }
      return b.buildSelect(query);
    }

    /** `ComposeInsert(DataTable)`. */
    method ComposeInsertFromTable(table: DataTable, b: SqlBuilder) returns (r: string)
      ensures r == TableInsertText(table, b)
    {
      var fields, values := WritableFieldsAndParameters(table, b);
      r := "INSERT INTO " + table.tableName + " (" + Join(",", fields) + ") VALUES (" + Join(",", values) + ")";
    }

    /** `ComposeDelete(DataTable)`: the primary key is required. */
    method ComposeDeleteFromTable(table: DataTable, b: SqlBuilder) returns (r: Result<string, CommandError>)
      ensures r == TableDeleteText(table, b)
    {
      if |table.primaryKey| == 0 {
        return Err(NoPrimaryKeyForDelete);
      }
      var pkCondition := ComposePkCondition(table, b, Current);
      var whereSql := b.buildExpression(Some(pkCondition));
      return Ok("DELETE FROM " + table.tableName + " WHERE " + TextOrEmpty(whereSql));
    }

    /** `ComposeDelete(Query)`. */
    method ComposeDeleteByQuery(query: Query, b: SqlBuilder) returns (r: string)
      ensures r == QueryDeleteText(query, b)
    {
      var whereExpression := b.buildExpression(query.condition);
      r := "DELETE FROM " + SourceName(query);
      if whereExpression.Some? && |whereExpression.value| > 0 {
        r := r + " WHERE " + whereExpression.value;
      }
    }

    /** `ComposeUpdate(DataTable)`: the primary-key condition must have nodes. */
    method ComposeUpdateFromTable(table: DataTable, b: SqlBuilder) returns (r: Result<string, CommandError>)
      ensures r == TableUpdateText(table, b)
    {
      var names, values := WritableFieldsAndParameters(table, b);
      var updateExpression := BuildSetExpression(b, names, values);
      var primaryKeyGroup := ComposePkCondition(table, b, Original);
      if |primaryKeyGroup.nodes| == 0 {
        return Err(NoPrimaryKeyForUpdate);
      }
      var whereExpression := b.buildExpression(Some(primaryKeyGroup));
      return Ok("UPDATE " + table.tableName + " SET " + updateExpression.value + " WHERE " + TextOrEmpty(whereExpression));
    }

    /** `ComposeUpdate(changes, query)`: the changes in their enumeration order. */
    method ComposeUpdateByQuery(changes: seq<(string, QueryValue)>, query: Query, b: SqlBuilder) returns (r: string)
      ensures r == QueryUpdateText(changes, query, b)
    {
      var names: seq<string> := [];
      var values: seq<string> := [];
      for i := 0 to |changes|
        invariant names == Keys(changes[..i]) && values == BuiltValues(b, changes[..i])
      {
        names := names + [changes[i].0];
        values := values + [b.buildValue(changes[i].1)];
      }
      assert changes[..|changes|] == changes;
      var setExpression := BuildSetExpression(b, names, values);
      var whereExpression := b.buildExpression(query.condition);
      r := "UPDATE " + SourceName(query) + " SET " + setExpression.value;
      if whereExpression.Some? {
        r := r + " WHERE " + whereExpression.value;
      }
    }

    /** `ComposeInsert(data, sourceName)`: keys and built values in the same order. */
    method ComposeInsertFromData(data: seq<(string, QueryValue)>, sourceName: string, b: SqlBuilder) returns (r: string)
      ensures r == InsertText(sourceName, Keys(data), BuiltValues(b, data))
    {
      var insertFields: seq<string> := [];
      var insertValues: seq<string> := [];
      for i := 0 to |data|
        invariant insertFields == Keys(data[..i]) && insertValues == BuiltValues(b, data[..i])
      {
        insertFields := insertFields + [data[i].0];
        insertValues := insertValues + [b.buildValue(data[i].1)];
      }
      assert data[..|data|] == data;
      r := InsertText(sourceName, insertFields, insertValues);
    }
  }

  /** A matching view with no matching view before it is the first matching view. */
  lemma FirstMatchIsUnique(views: seq<DalcView>, sourceName: string, i: nat)
    requires i < |views| && views[i].matchSourceName(sourceName)
    requires forall k :: 0 <= k < i ==> !views[k].matchSourceName(sourceName)
    ensures FirstMatchingView(views, sourceName) == Some(i)
  {
    var r := FirstMatchingView(views, sourceName);
    assert r.Some?;
    if r.value < i {
    } else if r.value > i {
    }
  }

  /** A table-based DELETE and UPDATE refuse exactly the same tables: those without a primary key. */
  lemma DeleteAndUpdateNeedPrimaryKey(table: DataTable, b: SqlBuilder)
    ensures TableDeleteText(table, b).Err? <==> TableUpdateText(table, b).Err?
    ensures TableDeleteText(table, b).Err? <==> |table.primaryKey| == 0
  {
  }

  /** An expression that renders as empty text: DELETE drops the WHERE clause, UPDATE keeps an empty one. */
  lemma EmptyWhereExpression(changes: seq<(string, QueryValue)>, query: Query, b: SqlBuilder)
    requires b.buildExpression(query.condition) == Some("")
    ensures QueryDeleteText(query, b) == "DELETE FROM " + SourceName(query)
    ensures QueryUpdateText(changes, query, b)
         == "UPDATE " + SourceName(query) + " SET " + Join(",", SetPairs(b, Keys(changes), BuiltValues(b, changes))) + " WHERE "
  {
  }
}

=== FILE: condition_composer.dfy ===
/**
 * The permission condition composer: for an operation on a data source it
 * collects the conditions of the matching descriptors and combines them with AND.
 */
module ConditionComposer {
  import opened Wrappers
  import opened QueryModel

  /** The caller on whose behalf the data is accessed. */
  datatype Principal = Principal(identityName: string, roles: set<string>)

  /** A data access operation; only equality between operations is used. */
  datatype DalcOperation = DalcOperation(name: string)

  /** Which operation on which source a condition applies to, and how the condition is made for a user. */
  datatype ConditionDescriptor = ConditionDescriptor(
    operation: DalcOperation,
    sourceName: string,
    conditionProvider: Principal -> Option<QueryNode>)

  predicate Applies(d: ConditionDescriptor, operation: DalcOperation, sourceName: string)
  {
    d.operation == operation && d.sourceName == sourceName
  }

  /** The conditions the applicable descriptors provide for the user, in descriptor order. */
  function Surviving(ds: seq<ConditionDescriptor>, user: Principal, operation: DalcOperation, sourceName: string)
    : (r: seq<QueryNode>)
    ensures |r| <= |ds|
  {
    if ds == [] then []
    else
      var d := ds[|ds| - 1];
      var before := Surviving(ds[..|ds| - 1], user, operation, sourceName);
      if Applies(d, operation, sourceName) && d.conditionProvider(user).Some? then before + [d.conditionProvider(user).value]
      else before
  }

  /** No node, a single node as it is, or an AND group of all of them in order. */
  function Collapse(nodes: seq<QueryNode>): (r: Option<QueryNode>)
    ensures r.None? <==> |nodes| == 0
    ensures |nodes| == 1 ==> r == Some(nodes[0])
    ensures |nodes| >= 2 ==>
      r.value.Group? && r.value.kind == And && |r.value.nodes| == |nodes|
      && forall k :: 0 <= k < |nodes| ==> r.value.nodes[k] == Some(nodes[k])
  {
    if |nodes| == 0 then None
    else if |nodes| == 1 then Some(nodes[0])
    else Some(Group(And, seq(|nodes|, k requires 0 <= k < |nodes| => Some(nodes[k]))))
  }

  class DalcConditionComposer {
    var conditionDescriptors: seq<ConditionDescriptor>

    constructor(descriptors: seq<ConditionDescriptor>)
      ensures conditionDescriptors == descriptors
    {
      conditionDescriptors := descriptors;
    }

    /** `Compose`: the combined condition of the applicable descriptors, or none. */
    method Compose(user: Principal, operation: DalcOperation, sourceName: string) returns (r: Option<QueryNode>)
      ensures r == Collapse(Surviving(conditionDescriptors, user, operation, sourceName))
    {
      var groupNodes: seq<QueryNode> := [];
      for i := 0 to |conditionDescriptors|
        invariant groupNodes == Surviving(conditionDescriptors[..i], user, operation, sourceName)
      {
        assert conditionDescriptors[..i + 1][..i] == conditionDescriptors[..i];
        var d := conditionDescriptors[i];
        if d.operation == operation && d.sourceName == sourceName {
          var condition := d.conditionProvider(user);
          if condition.Some? {
            groupNodes := groupNodes + [condition.value];
          }
        }
      }
      assert conditionDescriptors[..|conditionDescriptors|] == conditionDescriptors;
      if |groupNodes| == 0 {
        return None;
      }
      if |groupNodes| == 1 {
        return Some(groupNodes[0]);
      }
      return Some(Group(And, seq(|groupNodes|, k requires 0 <= k < |groupNodes| => Some(groupNodes[k]))));
    }
  }

  /** The conditions of two runs of descriptors are those of each run, in order. */
  lemma {:induction false} SurvivingConcat(a: seq<ConditionDescriptor>, b: seq<ConditionDescriptor>,
                                           user: Principal, operation: DalcOperation, sourceName: string)
    ensures Surviving(a + b, user, operation, sourceName)
         == Surviving(a, user, operation, sourceName) + Surviving(b, user, operation, sourceName)
  {
    if b != [] {
      SurvivingConcat(a, b[..|b| - 1], user, operation, sourceName);
      assert (a + b)[..|a + b| - 1] == a + b[..|b| - 1];
    } else {
      assert a + b == a;
    }
  }

  /**
   * A descriptor for another operation or another source, or one whose
   * provider returns no condition, changes nothing wherever it stands.
   */
  lemma IgnoredDescriptor(a: seq<ConditionDescriptor>, d: ConditionDescriptor, b: seq<ConditionDescriptor>,
                          user: Principal, operation: DalcOperation, sourceName: string)
    requires !Applies(d, operation, sourceName) || d.conditionProvider(user).None?
    ensures Surviving(a + [d] + b, user, operation, sourceName) == Surviving(a + b, user, operation, sourceName)
  {
    SurvivingConcat(a + [d], b, user, operation, sourceName);
    SurvivingConcat(a, b, user, operation, sourceName);
    assert (a + [d])[..|a + [d]| - 1] == a;
  }

  /** An applicable descriptor with a condition contributes it at its own position. */
  lemma ContributingDescriptor(a: seq<ConditionDescriptor>, d: ConditionDescriptor, b: seq<ConditionDescriptor>,
                               user: Principal, operation: DalcOperation, sourceName: string)
    requires Applies(d, operation, sourceName) && d.conditionProvider(user).Some?
    ensures Surviving(a + [d] + b, user, operation, sourceName)
         == Surviving(a, user, operation, sourceName) + [d.conditionProvider(user).value] + Surviving(b, user, operation, sourceName)
  {
    SurvivingConcat(a + [d], b, user, operation, sourceName);
    assert (a + [d])[..|a + [d]| - 1] == a;
  }

  /** Every surviving condition was provided for this user by an applicable descriptor. */
  lemma {:induction false} SurvivingProvided(ds: seq<ConditionDescriptor>, user: Principal, operation: DalcOperation, sourceName: string)
    ensures forall n :: n in Surviving(ds, user, operation, sourceName) ==>
      exists d :: d in ds && Applies(d, operation, sourceName) && d.conditionProvider(user) == Some(n)
  {
    if ds != [] {
      SurvivingProvided(ds[..|ds| - 1], user, operation, sourceName);
      forall n | n in Surviving(ds, user, operation, sourceName)
        ensures exists d :: d in ds && Applies(d, operation, sourceName) && d.conditionProvider(user) == Some(n)
      {
        if n in Surviving(ds[..|ds| - 1], user, operation, sourceName) {
          var d :| d in ds[..|ds| - 1] && Applies(d, operation, sourceName) && d.conditionProvider(user) == Some(n);
          assert d in ds;
        } else {
          assert ds[|ds| - 1] in ds;
        }
      }
    }
  }
}

=== FILE: data_schema.dfy ===
/**
 * The in-memory data schema: classes, properties, where a property of a class
 * is stored, and relationships between classes; plus the names of the
 * physical tables of the object storage.
 */
module DataSchema {
  import opened Wrappers

  /** `ObjectLocationType`: objects in the shared object table or in a table of their own. */
  datatype ObjectLocation = SharedTable | SeparateTable

  datatype Class = Class(id: string, compactId: int, objectLocation: ObjectLocation, isPredicate: bool)

  datatype Property = Property(id: string, compactId: int, dataTypeId: string, isPrimaryKey: bool)

  /** `ClassPropertyLocation`: how the value of `property` is stored for objects of `cls`. */
  datatype PropertyLocation = PropertyLocation(cls: Class, property: Property, kind: LocationKind)

  datatype LocationKind =
    | TableColumn(columnName: string)
    | ValueTable
    | Derived(derivedFrom: PropertyLocation, deriveType: string)
    /** any further member of `PropertyValueLocationType` */
    | OtherKind(kindName: string)

  /**
   * A relationship `subject --predicate--> obj`; `multiplicity` is the
   * `Multiplicity` flag; `inferredBy` is the chain of an inferred relationship.
   */
  datatype Relationship = Relationship(
    subject: Class,
    obj: Class,
    predicateClass: Class,
    multiplicity: bool,
    reversed: bool,
    inferred: bool,
    inferredBy: seq<Relationship>)

  /** A property attached to a class (`Ontology.AddClassProperty`). */
  datatype ClassProperty = ClassProperty(cls: Class, property: Property)

  /**
   * A schema snapshot. `relationshipsById`, `inferredRelationships` (keyed by
   * prefix and class ID) and `locations` (keyed by class ID and property ID) are
   * the lookups whose algorithms are not part of this model.
   */
  datatype Schema = Schema(
    classes: seq<Class>,
    classProperties: seq<ClassProperty>,
    relationships: seq<Relationship>,
    relationshipsById: map<string, Relationship>,
    inferredRelationships: map<(string, string), Relationship>,
    locations: map<(string, string), PropertyLocation>)

  /** Table names of the object storage: `ObjectTableName`, `ObjectRelationTableName`, `DataTypeTableNames`. */
  datatype Storage = Storage(
    objectTableName: string,
    objectRelationTableName: string,
    dataTypeTableNames: map<string, string>)

  /** `Schema.FindClassByID`: the first class with that ID. */
  function FindClassByID(s: Schema, id: string): (r: Option<Class>)
    ensures r.Some? ==> r.value in s.classes && r.value.id == id
    ensures r.None? <==> forall c :: c in s.classes ==> c.id != id
  {
    FirstClass(s.classes, id)
  }

  function FirstClass(cs: seq<Class>, id: string): (r: Option<Class>)
    ensures r.Some? ==> r.value in cs && r.value.id == id
    ensures r.None? <==> forall c :: c in cs ==> c.id != id
  {
    if cs == [] then None
    else if cs[0].id == id then Some(cs[0])
    else FirstClass(cs[1..], id)
  }

  /** `Class.FindPropertyByID`: the first property with that ID attached to `cls`. */
  function FindPropertyByID(s: Schema, cls: Class, id: string): (r: Option<Property>)
    ensures r.Some? ==> ClassProperty(cls, r.value) in s.classProperties && r.value.id == id
    ensures r.None? <==> forall cp :: cp in s.classProperties && cp.cls == cls ==> cp.property.id != id
  {
    FirstProperty(s.classProperties, cls, (p: Property) => p.id == id)
  }

  /** `Class.FindPrimaryKeyProperty`: the first primary-key property attached to `cls`. */
  function FindPrimaryKeyProperty(s: Schema, cls: Class): (r: Option<Property>)
    ensures r.Some? ==> ClassProperty(cls, r.value) in s.classProperties && r.value.isPrimaryKey
    ensures r.None? <==> forall cp :: cp in s.classProperties && cp.cls == cls ==> !cp.property.isPrimaryKey
  {
    FirstProperty(s.classProperties, cls, (p: Property) => p.isPrimaryKey)
  }

  function FirstProperty(cps: seq<ClassProperty>, cls: Class, wanted: Property -> bool): (r: Option<Property>)
    ensures r.Some? ==> ClassProperty(cls, r.value) in cps && wanted(r.value)
    ensures r.None? <==> forall cp :: cp in cps && cp.cls == cls ==> !wanted(cp.property)
  {
    if cps == [] then None
    else if cps[0].cls == cls && wanted(cps[0].property) then Some(cps[0].property)
    else FirstProperty(cps[1..], cls, wanted)
  }

  /**
   * `Class.FindRelationship(predicate, obj, reversed)` on `cls`: the first
   * relationship of `cls` as subject with that predicate, object and direction.
   */
  function FindRelationship(s: Schema, cls: Class, predicateClass: Class, obj: Class, reversed: bool): (r: Option<Relationship>)
    ensures r.Some? ==> r.value in s.relationships && RelationshipMatches(r.value, cls, predicateClass, obj, reversed)
    ensures r.None? <==> forall x :: x in s.relationships ==> !RelationshipMatches(x, cls, predicateClass, obj, reversed)
  {
    FirstRelationship(s.relationships, cls, predicateClass, obj, reversed)
  }

  predicate RelationshipMatches(r: Relationship, subject: Class, predicateClass: Class, obj: Class, reversed: bool)
  {
    r.subject == subject && r.predicateClass == predicateClass && r.obj == obj && r.reversed == reversed
  }

  function FirstRelationship(rs: seq<Relationship>, cls: Class, predicateClass: Class, obj: Class, reversed: bool): (r: Option<Relationship>)
    ensures r.Some? ==> r.value in rs && RelationshipMatches(r.value, cls, predicateClass, obj, reversed)
    ensures r.None? <==> forall x :: x in rs ==> !RelationshipMatches(x, cls, predicateClass, obj, reversed)
  {
    if rs == [] then None
    else if RelationshipMatches(rs[0], cls, predicateClass, obj, reversed) then Some(rs[0])
    else FirstRelationship(rs[1..], cls, predicateClass, obj, reversed)
  }

  /** `Schema.FindRelationshipByID`. */
  function FindRelationshipByID(s: Schema, id: string): Option<Relationship>
  {
    if id in s.relationshipsById then Some(s.relationshipsById[id]) else None
  }

  /** `Schema.InferRelationshipByID(prefix, cls)`, an opaque partial function. */
  function InferRelationshipByID(s: Schema, id: string, cls: Class): Option<Relationship>
  {
    if (id, cls.id) in s.inferredRelationships then Some(s.inferredRelationships[(id, cls.id)]) else None
  }

  /** `Property.GetLocation(cls)`. */
  function GetLocation(s: Schema, p: Property, cls: Class): Option<PropertyLocation>
  {
    if (cls.id, p.id) in s.locations then Some(s.locations[(cls.id, p.id)]) else None
  }
}

=== FILE: field_formatter.dfy ===
/** The formatter that writes a query field through a format template. */
module FieldFormatter {
  import opened Wrappers
  import opened QueryModel

  datatype FormatError = FormatStringNull | MalformedFormat

  /** `*`, `(` and `)`: a name containing one is an expression rather than a column. */
  const SpecialChars: seq<char> := ['*', '(', ')']

  predicate HasSpecialChar(name: string)
  {
    exists k :: 0 <= k < |SpecialChars| && SpecialChars[k] in name
  }

  predicate NoBraces(s: string)
  {
    '{' !in s && '}' !in s
  }

  /** The number of characters equal to `c` at the front of `t`. */
  function RunOf(t: string, c: char): (n: nat)
    ensures n <= |t|
    ensures forall k :: 0 <= k < n ==> t[k] == c
    ensures n < |t| ==> t[n] != c
  {
    if t == [] || t[0] != c then 0 else 1 + RunOf(t[1..], c)
  }

  /**
   * The length of a format item for argument 0 at the front of `t`: `{`, an
   * index of zeros only, spaces and `}`; 0 when `t` does not start with one.
   */
  function ItemLength(t: string): (n: nat)
    ensures n == 0 || 3 <= n <= |t|
    ensures n > 0 ==> t[0] == '{' && t[1] == '0' && t[n - 1] == '}'
    ensures n > 0 ==> forall k :: 1 <= k < n - 1 ==> t[k] == '0' || t[k] == ' '
  {
    if t == [] || t[0] != '{' then 0
    else
      var zeros := RunOf(t[1..], '0');
      var spaces := RunOf(t[1 + zeros..], ' ');
      if zeros > 0 && 1 + zeros + spaces < |t| && t[1 + zeros + spaces] == '}' then 2 + zeros + spaces else 0
  }

  /**
   * `String.Format(template, arg)` with a single argument: an item `{0}` (its
   * index may have leading zeros and be followed by spaces) is the argument,
   * `{{` and `}}` stand for one brace, and any other brace is malformed.
   */
  function FormatWith(template: string, arg: string): (r: Result<string, FormatError>)
    ensures r.Err? ==> r == Err(MalformedFormat)
    // only a brace can make a template malformed
    ensures r.Err? ==> '{' in template || '}' in template
  {
    if template == [] then Ok([])
    else if template[0] == '{' then
      if |template| >= 2 && template[1] == '{' then
        var rest :- FormatWith(template[2..], arg); Ok("{" + rest)
      else if ItemLength(template) > 0 then
        var rest :- FormatWith(template[ItemLength(template)..], arg); Ok(arg + rest)
      else Err(MalformedFormat)
    else if template[0] == '}' then
      if |template| >= 2 && template[1] == '}' then
        var rest :- FormatWith(template[2..], arg); Ok("}" + rest)
      else Err(MalformedFormat)
    else
      var rest :- FormatWith(template[1..], arg);
      assert forall x :: x in template[1..] ==> x in template;
      Ok([template[0]] + rest)
  }

  /** A template without braces is its own result. */
  lemma {:induction false} BraceFreeVerbatim(template: string, arg: string)
    requires NoBraces(template)
    ensures FormatWith(template, arg) == Ok(template)
  {
    if template != [] {
      assert template[1..] == template[1..] && '{' !in template[1..] && '}' !in template[1..] by {
        assert forall x :: x in template[1..] ==> x in template;
      }
      BraceFreeVerbatim(template[1..], arg);
      assert [template[0]] + template[1..] == template;
    }
  }

  /** A character other than a brace is copied. */
  lemma FormatPlainChar(c: char, rest: string, arg: string)
    requires c != '{' && c != '}'
    ensures FormatWith([c] + rest, arg)
         == if FormatWith(rest, arg).Ok? then Ok([c] + FormatWith(rest, arg).value) else FormatWith(rest, arg)
  {
    assert ([c] + rest)[0] == c && ([c] + rest)[1..] == rest;
  }

  /** A leading `{0}` is replaced by the argument. */
  lemma FormatLeadingPlaceholder(rest: string, arg: string)
    ensures FormatWith("{0}" + rest, arg)
         == if FormatWith(rest, arg).Ok? then Ok(arg + FormatWith(rest, arg).value) else FormatWith(rest, arg)
  {
    var t := "{0}" + rest;
    assert t[0] == '{' && t[1] == '0' && t[2] == '}' && t[3..] == rest;
    assert t[1..][0] == '0' && t[1..][1..][0] == '}';
    assert RunOf(t[1..], '0') == 1;
    assert t[2..][0] == '}';
    assert ItemLength(t) == 3;
  }

  /** Leading zeros in the index and spaces after it still name argument 0. */
  lemma PaddedItemIsArgument(zeros: nat, spaces: nat, rest: string, arg: string)
    requires zeros > 0
    ensures FormatWith("{" + Repeat('0', zeros) + Repeat(' ', spaces) + "}" + rest, arg)
         == if FormatWith(rest, arg).Ok? then Ok(arg + FormatWith(rest, arg).value) else FormatWith(rest, arg)
  {
    var t := "{" + Repeat('0', zeros) + Repeat(' ', spaces) + "}" + rest;
    PaddedItemLength(zeros, spaces, rest);
    assert t[0] == '{' && t[1] == '0';
  }

  /** The item `{0…0 …}` in front of `rest` is recognised whole. */
  lemma PaddedItemLength(zeros: nat, spaces: nat, rest: string)
    requires zeros > 0
    ensures var t := "{" + Repeat('0', zeros) + Repeat(' ', spaces) + "}" + rest;
      ItemLength(t) == 2 + zeros + spaces && t[2 + zeros + spaces..] == rest
  {
    var t := "{" + Repeat('0', zeros) + Repeat(' ', spaces) + "}" + rest;
    assert forall k :: 1 <= k < 1 + zeros ==> t[k] == '0';
    assert forall k :: 1 + zeros <= k < 1 + zeros + spaces ==> t[k] == ' ';
    assert t[1 + zeros + spaces] == '}';
    ItemAt(t, zeros, spaces);
  }

  /** A `{`, `zeros` zeros, `spaces` spaces and a `}` at the front of `t` form an item. */
  lemma ItemAt(t: string, zeros: nat, spaces: nat)
    requires 0 < zeros && 2 + zeros + spaces <= |t| && t[0] == '{' && t[1 + zeros + spaces] == '}'
    requires forall k :: 1 <= k < 1 + zeros ==> t[k] == '0'
    requires forall k :: 1 + zeros <= k < 1 + zeros + spaces ==> t[k] == ' '
    ensures ItemLength(t) == 2 + zeros + spaces
  {
    RunOfPrefix(t[1..], '0', zeros);
    RunOfPrefix(t[1 + zeros..], ' ', spaces);
  }

  /** The run of `c` at the front of `u` is exactly `n` long. */
  lemma {:induction false} RunOfPrefix(u: string, c: char, n: nat)
    requires n <= |u| && (n == |u| || u[n] != c)
    requires forall k :: 0 <= k < n ==> u[k] == c
    ensures RunOf(u, c) == n
  {
    if n > 0 {
      RunOfPrefix(u[1..], c, n - 1);
    }
  }

  /** `n` copies of `c`. */
  function Repeat(c: char, n: nat): (r: string)
    ensures |r| == n && forall k :: 0 <= k < n ==> r[k] == c
  {
    if n == 0 then [] else [c] + Repeat(c, n - 1)
  }

  /** Brace-free text in front of a template is copied in front of its result. */
  lemma {:induction false} BraceFreePrefix(before: string, rest: string, arg: string)
    requires NoBraces(before)
    ensures FormatWith(before + rest, arg)
         == if FormatWith(rest, arg).Ok? then Ok(before + FormatWith(rest, arg).value) else FormatWith(rest, arg)
  {
    var r := FormatWith(rest, arg);
    if before == [] {
      assert before + rest == rest;
      if r.Ok? {
        assert before + r.value == r.value;
      }
    } else {
      var c, tail := before[0], before[1..];
      assert NoBraces(tail) && c != '{' && c != '}' by {
        assert forall x :: x in tail ==> x in before;
        assert c in before;
      }
      BraceFreePrefix(tail, rest, arg);
      FormatPlainChar(c, tail + rest, arg);
      assert before + rest == [c] + (tail + rest);
      if r.Ok? {
        assert [c] + (tail + r.value) == before + r.value;
      }
    }
  }

  /** A template with one placeholder between brace-free text puts the argument in its place. */
  lemma FormatFillsPlaceholder(before: string, after: string, arg: string)
    requires NoBraces(before) && NoBraces(after)
    ensures FormatWith(before + "{0}" + after, arg) == Ok(before + arg + after)
  {
    BraceFreeVerbatim(after, arg);
    FormatLeadingPlaceholder(after, arg);
    BraceFreePrefix(before, "{0}" + after, arg);
    assert before + "{0}" + after == before + ("{0}" + after);
    assert before + (arg + after) == before + arg + after;
  }

  /** What `Format` returns for a field under a format string. */
  function FormattedField(formatString: Option<string>, field: QField): (r: Result<string, FormatError>)
    ensures HasSpecialChar(field.name) ==> r == Ok(field.name)
    ensures !HasSpecialChar(field.name) && formatString.None? ==> r == Err(FormatStringNull)
    ensures !HasSpecialChar(field.name) && formatString.Some? ==> r == FormatWith(formatString.value, field.name)
  {
    if HasSpecialChar(field.name) then Ok(field.name)
    else if formatString.None? then Err(FormatStringNull)
    else FormatWith(formatString.value, field.name)
  }

  class QueryFieldValueFormatter {
    var formatString: Option<string>

    constructor()
      ensures formatString == None
    {
      formatString := None;
    }

    method SetFormatString(value: string)
      modifies this
      ensures formatString == Some(value)
    {
      formatString := Some(value);
    }

    /** `Format`: the field name itself when it holds a special character, otherwise the template filled with it. */
    method Format(field: QField) returns (r: Result<string, FormatError>)
      ensures r == FormattedField(formatString, field)
    {
      for i := 0 to |SpecialChars|
        invariant forall k :: 0 <= k < i ==> SpecialChars[k] !in field.name
      {
        if SpecialChars[i] in field.name {
          return Ok(field.name);
        }
      }
      if formatString.None? {
        return Err(FormatStringNull);
      }
      r := FormatWith(formatString.value, field.name);
    }
  }

  /** A name with a special character comes out the same whatever the format string. */
  lemma VerbatimIgnoresFormat(f1: Option<string>, f2: Option<string>, field: QField)
    requires HasSpecialChar(field.name)
    ensures FormattedField(f1, field) == FormattedField(f2, field) == Ok(field.name)
  {
  }

  /** The prefix of the field never reaches the output. */
  lemma PrefixIgnored(formatString: Option<string>, p1: Option<string>, p2: Option<string>, name: string)
    ensures FormattedField(formatString, QField(p1, name)) == FormattedField(formatString, QField(p2, name))
  {
  }

  /** With a template such as `t.{0}`, an ordinary name lands in the placeholder. */
  lemma PlainNameFillsTemplate(before: string, after: string, field: QField)
    requires NoBraces(before) && NoBraces(after) && !HasSpecialChar(field.name)
    ensures FormattedField(Some(before + "{0}" + after), field) == Ok(before + field.name + after)
  {
    FormatFillsPlaceholder(before, after, field.name);
  }
}

=== FILE: ontology_persister.dfy ===
/**
 * The linking step of `OntologyDalcPersister.GetOntology`: once the class,
 * property, relationship and property-to-class rows are loaded, properties
 * are attached to classes and every relationship row becomes a forward and a
 * reverse relationship.
 */
module OntologyPersister {
  import opened Wrappers
  import opened DataSchema
  import QueryModel
  import QueryTranslator

  /** A loaded `ontology_property_to_class` row. */
  datatype PropertyToClass = PropertyToClass(classId: string, propertyId: string)

  /** A loaded `ontology_class_relationships` row. */
  datatype RelationshipData = RelationshipData(
    subjectClassId: string,
    predicateClassId: string,
    objectClassId: string,
    subjectMultiplicity: bool,
    objectMultiplicity: bool)

  /** The first property with the given ID. */
  function FirstPropertyWithID(ps: seq<Property>, id: string): (r: Option<Property>)
    ensures r.Some? ==> r.value in ps && r.value.id == id
    ensures r.None? <==> forall p :: p in ps ==> p.id != id
  {
    if ps == [] then None
    else if ps[0].id == id then Some(ps[0])
    else FirstPropertyWithID(ps[1..], id)
  }

  /** The ontology being assembled: loaded classes and properties plus the links added to them. */
  class Ontology {
    var classes: seq<Class>
    var properties: seq<Property>
    var classProperties: seq<ClassProperty>
    var relationships: seq<Relationship>

    constructor(classes: seq<Class>, properties: seq<Property>)
      ensures this.classes == classes && this.properties == properties
      ensures classProperties == [] && relationships == []
    {
      this.classes := classes;
      this.properties := properties;
      classProperties := [];
      relationships := [];
    }

    function FindClassByID(id: string): Option<Class>
      reads this
    {
      FirstClass(classes, id)
    }

    function FindPropertyByID(id: string): Option<Property>
      reads this
    {
      FirstPropertyWithID(properties, id)
    }

    method AddClassProperty(c: Class, p: Property)
      modifies this
      ensures classProperties == old(classProperties) + [ClassProperty(c, p)]
      ensures classes == old(classes) && properties == old(properties) && relationships == old(relationships)
    {
      classProperties := classProperties + [ClassProperty(c, p)];
    }

    method AddRelationship(r: Relationship)
      modifies this
      ensures relationships == old(relationships) + [r]
      ensures classes == old(classes) && properties == old(properties) && classProperties == old(classProperties)
    {
      relationships := relationships + [r];
    }
  }

  /** The class-property link one row contributes: one when both IDs resolve, none otherwise. */
  function PropertyLink(classes: seq<Class>, props: seq<Property>, row: PropertyToClass): (r: seq<ClassProperty>)
    ensures |r| <= 1
    ensures |r| == 1 <==> FirstClass(classes, row.classId).Some? && FirstPropertyWithID(props, row.propertyId).Some?
    ensures |r| == 1 ==>
      r[0].cls in classes && r[0].cls.id == row.classId && r[0].property in props && r[0].property.id == row.propertyId
  {
    match (FirstClass(classes, row.classId), FirstPropertyWithID(props, row.propertyId))
    case (Some(c), Some(p)) => [ClassProperty(c, p)]
    case _ => []
  }

  /** The links of all rows, in row order. */
  function LinkedProperties(classes: seq<Class>, props: seq<Property>, rows: seq<PropertyToClass>): seq<ClassProperty>
  {
    if rows == [] then []
    else LinkedProperties(classes, props, rows[..|rows| - 1]) + PropertyLink(classes, props, rows[|rows| - 1])
  }

  /** The relationships one row contributes: a forward and a reverse one when all three classes resolve. */
  function RelationshipPair(classes: seq<Class>, row: RelationshipData): (r: seq<Relationship>)
    ensures |r| == 0 || |r| == 2
    ensures |r| == 2 <==> && FirstClass(classes, row.subjectClassId).Some?
                          && FirstClass(classes, row.objectClassId).Some?
                          && FirstClass(classes, row.predicateClassId).Some?
    ensures |r| == 2 ==>
      var subj, obj, pred := FirstClass(classes, row.subjectClassId).value,
                             FirstClass(classes, row.objectClassId).value,
                             FirstClass(classes, row.predicateClassId).value;
      && r[0] == Relationship(subj, obj, pred, row.objectMultiplicity, false, false, [])
      && r[1] == Relationship(obj, subj, pred, row.subjectMultiplicity, true, false, [])
  {
    match (FirstClass(classes, row.subjectClassId), FirstClass(classes, row.objectClassId),
           FirstClass(classes, row.predicateClassId))
    case (Some(subj), Some(obj), Some(pred)) =>
      [Relationship(subj, obj, pred, row.objectMultiplicity, false, false, []),
       Relationship(obj, subj, pred, row.subjectMultiplicity, true, false, [])]
    case _ => []
  }

  /** The relationships of all rows, in row order, each forward one before its reverse. */
  function LinkedRelationships(classes: seq<Class>, rows: seq<RelationshipData>): seq<Relationship>
  {
    if rows == [] then []
    else LinkedRelationships(classes, rows[..|rows| - 1]) + RelationshipPair(classes, rows[|rows| - 1])
  }

  /** The linking loops of `GetOntology` over the loaded rows: all property links first, then the relationships. */
  method GetOntology(classes: seq<Class>, props: seq<Property>, relData: seq<RelationshipData>, propToClass: seq<PropertyToClass>)
    returns (ontology: Ontology)
    ensures fresh(ontology)
    ensures ontology.classes == classes && ontology.properties == props
    ensures ontology.classProperties == LinkedProperties(classes, props, propToClass)
    ensures ontology.relationships == LinkedRelationships(classes, relData)
  {
    ontology := new Ontology(classes, props);
    LinkProperties(ontology, propToClass);
    LinkRelationships(ontology, relData);
  }

  /** The `foreach` over the property-to-class rows. */
  method LinkProperties(ontology: Ontology, rows: seq<PropertyToClass>)
    modifies ontology
    ensures ontology.classes == old(ontology.classes) && ontology.properties == old(ontology.properties)
    ensures ontology.relationships == old(ontology.relationships)
    ensures ontology.classProperties
         == old(ontology.classProperties) + LinkedProperties(ontology.classes, ontology.properties, rows)
  {
    var i := 0;
    while i < |rows|
      invariant 0 <= i <= |rows|
      invariant ontology.classes == old(ontology.classes) && ontology.properties == old(ontology.properties)
      invariant ontology.relationships == old(ontology.relationships)
      invariant ontology.classProperties
             == old(ontology.classProperties) + LinkedProperties(ontology.classes, ontology.properties, rows[..i])
    {
      var row := rows[i];
      var c := ontology.FindClassByID(row.classId);
      var p := ontology.FindPropertyByID(row.propertyId);
      ghost var link := PropertyLink(ontology.classes, ontology.properties, row);
      assert link == if c.Some? && p.Some? then [ClassProperty(c.value, p.value)] else [];
      assert LinkedProperties(ontology.classes, ontology.properties, rows[..i + 1])
          == LinkedProperties(ontology.classes, ontology.properties, rows[..i]) + link by {
        assert rows[..i + 1][..i] == rows[..i];
      }
      if c.Some? && p.Some? {
        ontology.AddClassProperty(c.value, p.value);
      }
      i := i + 1;
    }
    assert rows[..i] == rows;
  }

  /** The `foreach` over the relationship rows: a forward and a reverse relationship per resolved row. */
  method LinkRelationships(ontology: Ontology, rows: seq<RelationshipData>)
    modifies ontology
    ensures ontology.classes == old(ontology.classes) && ontology.properties == old(ontology.properties)
    ensures ontology.classProperties == old(ontology.classProperties)
    ensures ontology.relationships == old(ontology.relationships) + LinkedRelationships(ontology.classes, rows)
  {
    var j := 0;
    while j < |rows|
      invariant 0 <= j <= |rows|
      invariant ontology.classes == old(ontology.classes) && ontology.properties == old(ontology.properties)
      invariant ontology.classProperties == old(ontology.classProperties)
      invariant ontology.relationships == old(ontology.relationships) + LinkedRelationships(ontology.classes, rows[..j])
    {
      assert rows[..j + 1][..j] == rows[..j];
      assert LinkedRelationships(ontology.classes, rows[..j + 1])
          == LinkedRelationships(ontology.classes, rows[..j]) + RelationshipPair(ontology.classes, rows[j]);
      LinkRelationshipRow(ontology, rows[j]);
      j := j + 1;
    }
    assert rows[..j] == rows;
  }

  /** One pass of that `foreach`: both relationships added when the three classes resolve. */
  method LinkRelationshipRow(ontology: Ontology, r: RelationshipData)
    modifies ontology
    ensures ontology.classes == old(ontology.classes) && ontology.properties == old(ontology.properties)
    ensures ontology.classProperties == old(ontology.classProperties)
    ensures ontology.relationships == old(ontology.relationships) + RelationshipPair(ontology.classes, r)
  {
    var subjClass := ontology.FindClassByID(r.subjectClassId);
    var objClass := ontology.FindClassByID(r.objectClassId);
    var predClass := ontology.FindClassByID(r.predicateClassId);
    if subjClass.Some? && objClass.Some? && predClass.Some? {
      var forward := Relationship(subjClass.value, objClass.value, predClass.value, r.objectMultiplicity, false, false, []);
      var reverse := Relationship(objClass.value, subjClass.value, predClass.value, r.subjectMultiplicity, true, false, []);
      assert RelationshipPair(ontology.classes, r) == [forward, reverse];
      ontology.AddRelationship(forward);
      ontology.AddRelationship(reverse);
      assert old(ontology.relationships) + [forward] + [reverse] == old(ontology.relationships) + [forward, reverse];
    } else {
      assert RelationshipPair(ontology.classes, r) == [];
      assert old(ontology.relationships) + [] == old(ontology.relationships);
    }
  }

  /** Every link joins a loaded class and a loaded property named by some row. */
  lemma {:induction false} LinkedPropertiesResolve(classes: seq<Class>, props: seq<Property>, rows: seq<PropertyToClass>)
    ensures forall cp :: cp in LinkedProperties(classes, props, rows) ==>
      cp.cls in classes && cp.property in props
      && exists row :: row in rows && row.classId == cp.cls.id && row.propertyId == cp.property.id
  {
    if rows != [] {
      var init := rows[..|rows| - 1];
      LinkedPropertiesResolve(classes, props, init);
      forall cp | cp in LinkedProperties(classes, props, rows)
        ensures cp.cls in classes && cp.property in props
        ensures exists row :: row in rows && row.classId == cp.cls.id && row.propertyId == cp.property.id
      {
        if cp in LinkedProperties(classes, props, init) {
          var row :| row in init && row.classId == cp.cls.id && row.propertyId == cp.property.id;
          assert row in rows;
        } else {
          assert rows[|rows| - 1] in rows;
        }
      }
    }
  }

  /** The number of rows whose three classes all resolve. */
  function ResolvedRows(classes: seq<Class>, rows: seq<RelationshipData>): nat
  {
    if rows == [] then 0
    else ResolvedRows(classes, rows[..|rows| - 1]) + |RelationshipPair(classes, rows[|rows| - 1])| / 2
  }

  /**
   * The relationships come in pairs: each even position holds a forward
   * relationship and the next one its reverse (object and subject exchanged,
   * same predicate), two per resolved row.
   */
  predicate PairedUp(rs: seq<Relationship>)
  {
    && |rs| % 2 == 0
    && forall i :: 0 <= i < |rs| ==>
         && (rs[i].reversed <==> i % 2 == 1)
         && !rs[i].inferred
         && (i % 2 == 0 ==> i + 1 < |rs| && rs[i + 1].subject == rs[i].obj && rs[i + 1].obj == rs[i].subject
                                          && rs[i + 1].predicateClass == rs[i].predicateClass)
  }

  /** Empty, or one forward relationship followed by its reverse. */
  predicate IsPair(pair: seq<Relationship>)
  {
    |pair| == 0 || (PairedUp(pair) && |pair| == 2)
  }

  lemma AppendPair(prev: seq<Relationship>, pair: seq<Relationship>)
    requires PairedUp(prev) && IsPair(pair)
    ensures PairedUp(prev + pair)
  {
    var all := prev + pair;
    forall i | 0 <= i < |all|
      ensures (all[i].reversed <==> i % 2 == 1) && !all[i].inferred
      ensures i % 2 == 0 ==> i + 1 < |all| && all[i + 1].subject == all[i].obj && all[i + 1].obj == all[i].subject
                                           && all[i + 1].predicateClass == all[i].predicateClass
    {
      if i < |prev| {
        assert all[i] == prev[i];
        if i % 2 == 0 {
          assert all[i + 1] == prev[i + 1];
        }
      } else {
        assert all[i] == pair[i - |prev|];
        if i % 2 == 0 {
          assert i == |prev|;
          assert all[i + 1] == pair[1];
        }
      }
    }
  }

  lemma LinkedRelationshipsPaired(classes: seq<Class>, rows: seq<RelationshipData>)
    ensures PairedUp(LinkedRelationships(classes, rows))
    ensures |LinkedRelationships(classes, rows)| == 2 * ResolvedRows(classes, rows)
  {
    LinkedRelationshipsPairUp(classes, rows);
    LinkedRelationshipsCount(classes, rows);
  }

  lemma {:induction false} LinkedRelationshipsPairUp(classes: seq<Class>, rows: seq<RelationshipData>)
    ensures PairedUp(LinkedRelationships(classes, rows))
  {
    if rows != [] {
      var init := rows[..|rows| - 1];
      var pair := RelationshipPair(classes, rows[|rows| - 1]);
      assert LinkedRelationships(classes, rows) == LinkedRelationships(classes, init) + pair;
      assert PairedUp(LinkedRelationships(classes, init) + pair) by {
        LinkedRelationshipsPairUp(classes, init);
        RowGivesPair(classes, rows[|rows| - 1]);
        AppendPair(LinkedRelationships(classes, init), pair);
      }
    }
  }

  lemma {:induction false} LinkedRelationshipsCount(classes: seq<Class>, rows: seq<RelationshipData>)
    ensures |LinkedRelationships(classes, rows)| == 2 * ResolvedRows(classes, rows)
  {
    if rows != [] {
      var init := rows[..|rows| - 1];
      var pair := RelationshipPair(classes, rows[|rows| - 1]);
      assert LinkedRelationships(classes, rows) == LinkedRelationships(classes, init) + pair;
      assert |pair| == 0 || |pair| == 2 by {
        RowGivesPair(classes, rows[|rows| - 1]);
      }
      LinkedRelationshipsCount(classes, init);
    }
  }

  lemma RowGivesPair(classes: seq<Class>, row: RelationshipData)
    ensures IsPair(RelationshipPair(classes, row))
  {
    var pair := RelationshipPair(classes, row);
    if |pair| == 2 {
      forall i | 0 <= i < 2
        ensures (pair[i].reversed <==> i % 2 == 1) && !pair[i].inferred
        ensures i % 2 == 0 ==> i + 1 < 2 && pair[i + 1].subject == pair[i].obj && pair[i + 1].obj == pair[i].subject
                                         && pair[i + 1].predicateClass == pair[i].predicateClass
      {
      }
    }
  }

  /** A linked forward relationship always has its reverse linked as well. */
  lemma ReverseIsLinked(classes: seq<Class>, rows: seq<RelationshipData>, fwd: Relationship)
    requires fwd in LinkedRelationships(classes, rows) && !fwd.reversed
    ensures exists rev :: rev in LinkedRelationships(classes, rows)
                          && RelationshipMatches(rev, fwd.obj, fwd.predicateClass, fwd.subject, true)
  {
    var rs := LinkedRelationships(classes, rows);
    LinkedRelationshipsPaired(classes, rows);
    var i :| 0 <= i < |rs| && rs[i] == fwd;
    assert i % 2 == 0 && i + 1 < |rs|;
    assert RelationshipMatches(rs[i + 1], fwd.obj, fwd.predicateClass, fwd.subject, true);
  }

  /**
   * With the linked relationships as the schema's, a forward relationship
   * read from its object's side is always replaced by its reverse: the
   * translator's reverse-direction lookup never fails on them.
   */
  lemma ReverseDirectionResolves(classes: seq<Class>, rows: seq<RelationshipData>, t: QueryTranslator.Translator,
                                 fwd: Relationship, f: QueryModel.QField)
    requires t.schema.relationships == LinkedRelationships(classes, rows)
    requires fwd in t.schema.relationships && !fwd.reversed
    ensures QueryTranslator.ResolveDirection(t, fwd.obj, fwd, f).Ok?
    ensures QueryTranslator.ResolveDirection(t, fwd.obj, fwd, f).value.subject == fwd.obj
    ensures QueryTranslator.ResolveDirection(t, fwd.obj, fwd, f).value.obj == fwd.subject
    ensures QueryTranslator.ResolveDirection(t, fwd.obj, fwd, f).value.reversed
  {
    ReverseIsLinked(classes, rows, fwd);
    LinkedRelationshipsPaired(classes, rows);
  }
}

=== FILE: query_model.dfy ===
/**
 * The storage-agnostic query AST shared by the parser, the translator, the
 * condition composer and the command generator: fields, constants, raw SQL
 * fragments, sub-queries, condition nodes and And/Or groups.
 */
module QueryModel {
  import opened Wrappers

  /** One member of the `Conditions` flag enumeration; a flag set is a `set<Condition>`. */
  datatype Condition = Equal | Not | GreaterThan | LessThan | In | Like | Null

  type Conditions = set<Condition>

  datatype GroupType = And | Or

  /** A field reference `prefix.name`; a prefix names a relationship. */
  datatype QField = QField(prefix: Option<string>, name: string)

  /** The value held by a `QConst`. */
  datatype ConstValue =
    | IntConst(i: int)
    | TextConst(text: string)
    /** a constant written `"text":type`; the conversion to the .NET type is not modelled */
    | TypedConst(typeName: string, text: string)
    /** a constant written `"a,b":type[]`, split into its items, each still unconverted */
    | TypedArrayConst(typeName: string, items: seq<string>)

  datatype QTable = QTable(name: string, alias: Option<string>)

  /** `IQueryValue`; `NoValue` is a null value reference. */
  datatype QueryValue =
    | Field(field: QField)
    | Const(value: ConstValue)
    | Raw(sql: string)
    | SubQuery(query: Query)
    | NoValue

  /** `QueryGroupNode` (its children may be null) or `QueryConditionNode`. */
  datatype QueryNode =
    | Group(kind: GroupType, nodes: seq<Option<QueryNode>>)
    | Cond(lhs: QueryValue, cnd: Conditions, rhs: QueryValue)

  datatype Paging = Paging(startRecord: int, recordCount: int)

  /** `Query`; a `None` paging means the record range was never set. */
  datatype Query = Query(
    table: QTable,
    fields: Option<seq<QField>>,
    condition: Option<QueryNode>,
    sort: seq<string>,
    paging: Option<Paging>)

  /** `new Query(table, condition)`: no fields, no sort, no paging. */
  function NewQuery(table: QTable, condition: Option<QueryNode>): (q: Query)
    ensures q.table == table && q.condition == condition
    ensures q.fields.None? && q.sort == [] && q.paging.None?
  {
    Query(table, None, condition, [], None)
  }

  /** `(QField)name`: a field without prefix. */
  function FieldNamed(name: string): QueryValue
  {
    Field(QField(None, name))
  }

  /** The `==` operator between two query values. */
  function Equals(lhs: QueryValue, rhs: QueryValue): QueryNode
  {
    Cond(lhs, {Equal}, rhs)
  }

  /** The `&` operator between two nodes: an And group holding both operands. */
  function AndOp(a: QueryNode, b: Option<QueryNode>): QueryNode
  {
    Group(And, [Some(a), b])
  }

  /** `Query.SourceName`. */
  function SourceName(q: Query): string
  {
    q.table.name
  }
}

=== FILE: query_translator.dfy ===
/**
 * Rewrites a query written against the logical schema (classes, relationships,
 * class properties) into a query against the physical storage tables: the
 * object table or a class's own table, the object-relation (edge) table and the
 * per-data-type value tables.
 */
module QueryTranslator {
  import opened Wrappers
  import opened QueryModel
  import opened DataSchema

  /** The reasons a translation is rejected; every one aborts the whole translation. */
  datatype TranslationError =
    /** a class or relationship sub-query without an allowed field list; `field` is the first disallowed one */
    | UnsupportedProjection(table: string, field: Option<string>)
    | CannotCompareProperties
    | ReverseDirectionUnsupported(prefix: Option<string>)
    | RelationshipNotForClass(prefix: Option<string>, classId: string)
    | RelatedFieldMissing(fieldName: string, prefix: Option<string>)
    | DerivedNotSupported
    | DerivedFromUnsupported
    | UnsupportedLocation
    /** `FindPrimaryKeyProperty()` returned null and its ID was read */
    | MissingPrimaryKey(classId: string)
    /** `GetLocation` returned null and its location was read */
    | MissingLocation(classId: string, propertyId: string)
    /** no entry of `DataTypeTableNames` for the data type */
    | MissingDataTypeTable(dataTypeId: string)

  /**
   * The derived-field resolver: a location and the underlying column (or
   * `value`) to a field expression, or `None` where `GetDerivedField` returns null.
   */
  type DerivedFieldResolver = (PropertyLocation, string) -> Option<QField>

  /** A translator instance: the schema, the storage's table names and the optional resolver. */
  datatype Translator = Translator(schema: Schema, storage: Storage, getDerivedField: Option<DerivedFieldResolver>)

  const CompactClassIdField := "compact_class_id"
  const PredicateCompactIdField := "predicate_class_compact_id"
  const PropertyCompactIdField := "property_compact_id"
  const SubjectIdField := "subject_id"
  const ObjectIdField := "object_id"
  const ValueField := "value"
  const IdField := "id"

  function PrimaryKeyID(t: Translator, cls: Class): (r: Result<string, TranslationError>)
    ensures r.Ok? <==> FindPrimaryKeyProperty(t.schema, cls).Some?
    ensures r.Ok? ==> r.value == FindPrimaryKeyProperty(t.schema, cls).value.id
  {
    match FindPrimaryKeyProperty(t.schema, cls)
    case Some(p) => Ok(p.id)
    case None => Err(MissingPrimaryKey(cls.id))
  }

  function LocationOf(t: Translator, p: Property, cls: Class): Result<PropertyLocation, TranslationError>
  {
    match GetLocation(t.schema, p, cls)
    case Some(loc) => Ok(loc)
    case None => Err(MissingLocation(cls.id, p.id))
  }

  function DataTypeTable(t: Translator, dataTypeId: string): Result<string, TranslationError>
  {
    if dataTypeId in t.storage.dataTypeTableNames then Ok(t.storage.dataTypeTableNames[dataTypeId])
    else Err(MissingDataTypeTable(dataTypeId))
  }

  /** The first field of `fields` whose name is not allowed, if any. */
  function FirstDisallowed(fields: seq<QField>, allowed: seq<string>): (r: Option<QField>)
    ensures r.Some? ==> r.value in fields && r.value.name !in allowed
    ensures r.None? <==> forall f :: f in fields ==> f.name in allowed
  {
    if fields == [] then None
    else if fields[0].name !in allowed then Some(fields[0])
    else FirstDisallowed(fields[1..], allowed)
  }

  /** `CheckFieldsConstraint`: a sub-query must list its fields, and only allowed ones. */
  function CheckFieldsConstraint(q: Query, allowed: seq<string>): (r: Result<(), TranslationError>)
    ensures r.Ok? <==> q.fields.Some? && |q.fields.value| > 0 && forall f :: f in q.fields.value ==> f.name in allowed
    ensures q.fields.None? || q.fields == Some([]) ==> r == Err(UnsupportedProjection(q.table.name, None))
  {
    if q.fields.None? || |q.fields.value| == 0 then Err(UnsupportedProjection(q.table.name, None))
    else match FirstDisallowed(q.fields.value, allowed)
      case Some(f) => Err(UnsupportedProjection(q.table.name, Some(f.name)))
      case None => Ok(())
  }

  /** The condition `compact_class_id == cls.CompactID`. */
  function ClassFilter(cls: Class): QueryNode
  {
    Equals(FieldNamed(CompactClassIdField), Const(IntConst(cls.compactId)))
  }

  /** The condition `predicate_class_compact_id == predicate.CompactID`. */
  function PredicateFilter(predicateClass: Class): QueryNode
  {
    Equals(FieldNamed(PredicateCompactIdField), Const(IntConst(predicateClass.compactId)))
  }

  /** `TranslateSubQuery`: resolves the source table of a query and translates its condition. */
  function TranslateSubQuery(t: Translator, q: Query): (r: Result<Query, TranslationError>)
    decreases q
    // neither a class nor a relationship: the query is kept as it is
    ensures FindClassByID(t.schema, q.table.name).None? && FindRelationshipByID(t.schema, q.table.name).None?
      ==> r == Ok(q)
    // a class: its own table or the object table, filtered by its compact ID, primary-key fields only
    ensures FindClassByID(t.schema, q.table.name).Some? ==>
      var cls := FindClassByID(t.schema, q.table.name).value;
      && (r.Ok? <==>
          && TranslateQueryNode(t, cls, q.condition).Ok?
          && PrimaryKeyID(t, cls).Ok?
          && q.fields.Some? && |q.fields.value| > 0
          && forall f :: f in q.fields.value ==> f.name == PrimaryKeyID(t, cls).value)
      && (r.Ok? ==>
          && r.value.table.name == (if cls.objectLocation == SeparateTable then cls.id else t.storage.objectTableName)
          && r.value.table.alias == q.table.alias
          && r.value.fields == q.fields
          && r.value.condition == Some(AndOp(ClassFilter(cls), TranslateQueryNode(t, cls, q.condition).value)))
    // a relationship: the edge table filtered by the predicate, subject/object fields only
    ensures FindClassByID(t.schema, q.table.name).None? && FindRelationshipByID(t.schema, q.table.name).Some? ==>
      var rel := FindRelationshipByID(t.schema, q.table.name).value;
      && (r.Ok? <==>
          && TranslateQueryNode(t, rel.predicateClass, q.condition).Ok?
          && (q.fields.Some? ==>
                |q.fields.value| > 0 && forall f :: f in q.fields.value ==> f.name in [SubjectIdField, ObjectIdField]))
      && (r.Ok? ==>
          && r.value.table == QTable(t.storage.objectRelationTableName, q.table.alias)
          && r.value.condition == Some(Group(And, [Some(PredicateFilter(rel.predicateClass)),
                                                  TranslateQueryNode(t, rel.predicateClass, q.condition).value]))
          && r.value.fields == Some(if q.fields.Some? then q.fields.value
                                    else [QField(q.table.alias, SubjectIdField), QField(q.table.alias, ObjectIdField)]))
  {
    match FindClassByID(t.schema, q.table.name)
    case Some(cls) =>
      var tableName := if cls.objectLocation == SeparateTable then cls.id else t.storage.objectTableName;
      var condition :- TranslateQueryNode(t, cls, q.condition);
      var pk :- PrimaryKeyID(t, cls);
      var _ :- CheckFieldsConstraint(q, [pk]);
      Ok(Query(QTable(tableName, q.table.alias), q.fields, Some(AndOp(ClassFilter(cls), condition)), [], None))
    case None =>
      match FindRelationshipByID(t.schema, q.table.name)
      case Some(rel) =>
        var condition :- TranslateQueryNode(t, rel.predicateClass, q.condition);
        var _ :- if q.fields.Some? then CheckFieldsConstraint(q, [SubjectIdField, ObjectIdField]) else Ok(());
        var fields := if q.fields.Some? then q.fields.value
                      else [QField(q.table.alias, SubjectIdField), QField(q.table.alias, ObjectIdField)];
        Ok(Query(QTable(t.storage.objectRelationTableName, q.table.alias), Some(fields),
                 Some(Group(And, [Some(PredicateFilter(rel.predicateClass)), condition])), [], None))
      case None =>
        Ok(q)
  }

  /** `TranslateQueryNode`: null stays null, groups and conditions are rewritten. */
  function TranslateQueryNode(t: Translator, cls: Class, node: Option<QueryNode>): (r: Result<Option<QueryNode>, TranslationError>)
    decreases node
    ensures node.None? ==> r == Ok(None)
    ensures r.Ok? && node.Some? ==> r.value.Some?
    ensures node.Some? && node.value.Group? && r.Ok? ==>
      && r.value.value.Group?
      && r.value.value.kind == node.value.kind
      && |r.value.value.nodes| == |node.value.nodes|
      && forall i :: 0 <= i < |node.value.nodes| ==>
           Ok(r.value.value.nodes[i]) == TranslateQueryNode(t, cls, node.value.nodes[i])
  {
    match node
    case None => Ok(None)
    case Some(Group(kind, nodes)) =>
      var translated :- TranslateGroupNode(t, cls, nodes);
      Ok(Some(Group(kind, translated)))
    case Some(c) =>
      var translated :- TranslateConditionNode(t, cls, c);
      Ok(Some(translated))
  }

  /** `TranslateGroupNode`: the children translated one by one, in order. */
  function TranslateGroupNode(t: Translator, cls: Class, nodes: seq<Option<QueryNode>>): (r: Result<seq<Option<QueryNode>>, TranslationError>)
    decreases nodes
    ensures r.Ok? <==> forall i :: 0 <= i < |nodes| ==> TranslateQueryNode(t, cls, nodes[i]).Ok?
    ensures r.Ok? ==> |r.value| == |nodes| && forall i :: 0 <= i < |nodes| ==> Ok(r.value[i]) == TranslateQueryNode(t, cls, nodes[i])
  {
    if nodes == [] then Ok([])
    else
      var first :- TranslateQueryNode(t, cls, nodes[0]);
      var rest :- TranslateGroupNode(t, cls, nodes[1..]);
      Ok([first] + rest)
  }

  /** `GreaterThan` and `LessThan` exchanged, as when the property stands on the right. */
  function SwapDirection(cnd: Conditions): (r: Conditions)
    ensures r - {GreaterThan, LessThan} == cnd - {GreaterThan, LessThan}
    ensures GreaterThan in cnd ==> LessThan in r && GreaterThan !in r
    ensures GreaterThan !in cnd && LessThan in cnd ==> GreaterThan in r && LessThan !in r
    ensures GreaterThan !in cnd && LessThan !in cnd ==> r == cnd
  {
    if GreaterThan in cnd then (cnd - {GreaterThan}) + {LessThan}
    else if LessThan in cnd then (cnd - {LessThan}) + {GreaterThan}
    else cnd
  }

  /** Swapping twice gives back the flags, unless both directions were set. */
  lemma SwapDirectionInvolution(cnd: Conditions)
    requires !(GreaterThan in cnd && LessThan in cnd)
    ensures SwapDirection(SwapDirection(cnd)) == cnd
  {
  }

  /**
   * A prefixed field on the right is looked up by relationship ID only: a
   * prefix that only inference would resolve leaves the condition as it is.
   */
  lemma RightPrefixIsNotInferred(t: Translator, cls: Class, node: QueryNode)
    requires node.Cond? && !node.lhs.Field? && node.rhs.Field? && node.rhs.field.prefix.Some?
    requires FindRelationshipByID(t.schema, node.rhs.field.prefix.value).None?
    requires FindPropertyByID(t.schema, cls, node.rhs.field.name).None?
    ensures TranslateQueryValue(t, node.lhs).Ok? ==>
      TranslateConditionNode(t, cls, node) == Ok(Cond(TranslateQueryValue(t, node.lhs).value, node.cnd, node.rhs))
    ensures TranslateQueryValue(t, node.lhs).Err? ==> TranslateConditionNode(t, cls, node).Err?
  {
  }

  /** The same prefixed field on the left goes through the relationship inference finds. */
  lemma LeftPrefixIsInferred(t: Translator, cls: Class, node: QueryNode)
    requires node.Cond? && node.lhs.Field? && !node.rhs.Field? && node.lhs.field.prefix.Some?
    requires FindRelationshipByID(t.schema, node.lhs.field.prefix.value).None?
    requires InferRelationshipByID(t.schema, node.lhs.field.prefix.value, cls).Some?
    ensures TranslateQueryValue(t, node.rhs).Ok? ==>
      TranslateConditionNode(t, cls, node) ==
      ComposeRelatedPropertyCondition(t, cls, InferRelationshipByID(t.schema, node.lhs.field.prefix.value, cls).value,
                                      node.lhs.field, node.cnd, TranslateQueryValue(t, node.rhs).value)
  {
  }

  /**
   * A property written on the right compares as the same property written on
   * the left with the direction swapped, whenever both sides resolve its prefix
   * to the same relationship (no prefix, or one found by ID).
   */
  lemma RightPropertyMirrorsLeft(t: Translator, cls: Class, v: QueryValue, cnd: Conditions, f: QField)
    requires !v.Field?
    requires LeftRelationship(t, cls, f) == RightRelationship(t, f)
    requires NamesSchemaField(t, cls, f, false)
    ensures TranslateConditionNode(t, cls, Cond(v, cnd, Field(f)))
         == TranslateConditionNode(t, cls, Cond(Field(f), SwapDirection(cnd), v))
  {
  }

  /** The relationship named by a field's prefix, looked up by ID and then by inference. */
  function LeftRelationship(t: Translator, cls: Class, f: QField): Option<Relationship>
  {
    if f.prefix.None? then None
    else match FindRelationshipByID(t.schema, f.prefix.value)
      case Some(rel) => Some(rel)
      case None => InferRelationshipByID(t.schema, f.prefix.value, cls)
  }

  /** The relationship named by the prefix of a right-hand field: looked up by ID only. */
  function RightRelationship(t: Translator, f: QField): Option<Relationship>
  {
    if f.prefix.None? then None else FindRelationshipByID(t.schema, f.prefix.value)
  }

  /** True when a field names a relationship property or a property of `cls`. */
  predicate NamesSchemaField(t: Translator, cls: Class, f: QField, leftSide: bool)
  {
    (if leftSide then LeftRelationship(t, cls, f) else RightRelationship(t, f)).Some?
    || FindPropertyByID(t.schema, cls, f.name).Some?
  }

  /** `TranslateConditionNode`: a property on either side becomes a physical condition. */
  function TranslateConditionNode(t: Translator, cls: Class, node: QueryNode): (r: Result<QueryNode, TranslationError>)
    requires node.Cond?
    decreases node
    ensures node.lhs.Field? && node.rhs.Field? ==> r == Err(CannotCompareProperties)
    ensures r.Ok? && !(node.lhs.Field? && NamesSchemaField(t, cls, node.lhs.field, true))
                  && !(node.rhs.Field? && NamesSchemaField(t, cls, node.rhs.field, false)) ==>
      && r.value.Cond?
      && r.value.cnd == node.cnd
      && (node.lhs.SubQuery? <==> r.value.lhs.SubQuery?)
      && (node.rhs.SubQuery? <==> r.value.rhs.SubQuery?)
      && (!node.lhs.SubQuery? ==> r.value.lhs == node.lhs)
      && (!node.rhs.SubQuery? ==> r.value.rhs == node.rhs)
    // neither side names a property or relationship: both operands are translated, the left one first
    ensures !(node.lhs.Field? && node.rhs.Field?)
            && !(node.lhs.Field? && NamesSchemaField(t, cls, node.lhs.field, true))
            && !(node.rhs.Field? && NamesSchemaField(t, cls, node.rhs.field, false)) ==>
      && (r.Ok? <==> TranslateQueryValue(t, node.lhs).Ok? && TranslateQueryValue(t, node.rhs).Ok?)
      && (r.Ok? ==> r.value == Cond(TranslateQueryValue(t, node.lhs).value, node.cnd, TranslateQueryValue(t, node.rhs).value))
      && (TranslateQueryValue(t, node.lhs).Err? ==> r == Err(TranslateQueryValue(t, node.lhs).error))
      && (TranslateQueryValue(t, node.lhs).Ok? && TranslateQueryValue(t, node.rhs).Err? ==>
            r == Err(TranslateQueryValue(t, node.rhs).error))
    // a property on the left, reached through a relationship: compared with the translated right operand
    ensures node.lhs.Field? && !node.rhs.Field? && LeftRelationship(t, cls, node.lhs.field).Some? ==>
      && (TranslateQueryValue(t, node.rhs).Err? ==> r == Err(TranslateQueryValue(t, node.rhs).error))
      && (TranslateQueryValue(t, node.rhs).Ok? ==>
            r == ComposeRelatedPropertyCondition(t, cls, LeftRelationship(t, cls, node.lhs.field).value,
                                                 node.lhs.field, node.cnd, TranslateQueryValue(t, node.rhs).value))
    // a property of the class on the left
    ensures node.lhs.Field? && !node.rhs.Field? && LeftRelationship(t, cls, node.lhs.field).None?
            && FindPropertyByID(t.schema, cls, node.lhs.field.name).Some? ==>
      && (TranslateQueryValue(t, node.rhs).Err? ==> r == Err(TranslateQueryValue(t, node.rhs).error))
      && (TranslateQueryValue(t, node.rhs).Ok? ==>
            r == ComposePropertyCondition(t, cls, FindPropertyByID(t.schema, cls, node.lhs.field.name).value,
                                          node.cnd, TranslateQueryValue(t, node.rhs).value))
    // a property on the right (when the left is no property): the direction is swapped
    ensures !node.lhs.Field? && node.rhs.Field? && RightRelationship(t, node.rhs.field).Some? ==>
      && (TranslateQueryValue(t, node.lhs).Err? ==> r == Err(TranslateQueryValue(t, node.lhs).error))
      && (TranslateQueryValue(t, node.lhs).Ok? ==>
            r == ComposeRelatedPropertyCondition(t, cls, RightRelationship(t, node.rhs.field).value,
                                                 node.rhs.field, SwapDirection(node.cnd), TranslateQueryValue(t, node.lhs).value))
    ensures !node.lhs.Field? && node.rhs.Field? && RightRelationship(t, node.rhs.field).None?
            && FindPropertyByID(t.schema, cls, node.rhs.field.name).Some? ==>
      && (TranslateQueryValue(t, node.lhs).Err? ==> r == Err(TranslateQueryValue(t, node.lhs).error))
      && (TranslateQueryValue(t, node.lhs).Ok? ==>
            r == ComposePropertyCondition(t, cls, FindPropertyByID(t.schema, cls, node.rhs.field.name).value,
                                          SwapDirection(node.cnd), TranslateQueryValue(t, node.lhs).value))
  {
    if node.lhs.Field? && node.rhs.Field? then Err(CannotCompareProperties)
    else if node.lhs.Field? && LeftRelationship(t, cls, node.lhs.field).Some? then
      var value :- TranslateQueryValue(t, node.rhs);
      ComposeRelatedPropertyCondition(t, cls, LeftRelationship(t, cls, node.lhs.field).value, node.lhs.field, node.cnd, value)
    else if node.lhs.Field? && FindPropertyByID(t.schema, cls, node.lhs.field.name).Some? then
      var value :- TranslateQueryValue(t, node.rhs);
      ComposePropertyCondition(t, cls, FindPropertyByID(t.schema, cls, node.lhs.field.name).value, node.cnd, value)
    else if node.rhs.Field? && RightRelationship(t, node.rhs.field).Some? then
      var value :- TranslateQueryValue(t, node.lhs);
      ComposeRelatedPropertyCondition(t, cls, RightRelationship(t, node.rhs.field).value, node.rhs.field,
                                      SwapDirection(node.cnd), value)
    else if node.rhs.Field? && FindPropertyByID(t.schema, cls, node.rhs.field.name).Some? then
      var value :- TranslateQueryValue(t, node.lhs);
      ComposePropertyCondition(t, cls, FindPropertyByID(t.schema, cls, node.rhs.field.name).value,
                               SwapDirection(node.cnd), value)
    else
      var lhs :- TranslateQueryValue(t, node.lhs);
      var rhs :- TranslateQueryValue(t, node.rhs);
      Ok(Cond(lhs, node.cnd, rhs))
  }

  /** `TranslateQueryValue`: a sub-query is translated, any other value is kept. */
  function TranslateQueryValue(t: Translator, v: QueryValue): (r: Result<QueryValue, TranslationError>)
    decreases v
    ensures !v.SubQuery? ==> r == Ok(v)
    ensures v.SubQuery? ==>
      && (r.Ok? <==> TranslateSubQuery(t, v.query).Ok?)
      && (r.Ok? ==> r.value == SubQuery(TranslateSubQuery(t, v.query).value))
      && (r.Err? ==> r.error == TranslateSubQuery(t, v.query).error)
  {
    match v
    case SubQuery(q) =>
      var translated :- TranslateSubQuery(t, q);
      Ok(SubQuery(translated))
    case _ => Ok(v)
  }

  /**
   * A derived location unwrapped by one level: the resolver's field for it (`None`
   * when the resolver gives null) and the location it is derived from; any other
   * location is returned as it is, with no field.
   */
  function UnwrapDerived(t: Translator, loc: PropertyLocation): (r: Result<(Option<QField>, PropertyLocation), TranslationError>)
    ensures loc.kind.Derived? && t.getDerivedField.None? ==> r == Err(DerivedNotSupported)
    ensures loc.kind.Derived? && (loc.kind.derivedFrom.kind.Derived? || loc.kind.derivedFrom.kind.OtherKind?) ==> r.Err?
    ensures !loc.kind.Derived? ==> r == Ok((None, loc))
    ensures r.Ok? ==> !r.value.1.kind.Derived?
    ensures r.Ok? && loc.kind.Derived? ==> r.value.1 == loc.kind.derivedFrom
    // the resolver is asked for the location's field over the underlying column, or over `value`
    ensures loc.kind.Derived? && t.getDerivedField.Some? && loc.kind.derivedFrom.kind.TableColumn? ==>
      r == Ok((t.getDerivedField.value(loc, loc.kind.derivedFrom.kind.columnName), loc.kind.derivedFrom))
    ensures loc.kind.Derived? && t.getDerivedField.Some? && loc.kind.derivedFrom.kind.ValueTable? ==>
      r == Ok((t.getDerivedField.value(loc, ValueField), loc.kind.derivedFrom))
    ensures loc.kind.Derived? && t.getDerivedField.Some?
            && !loc.kind.derivedFrom.kind.TableColumn? && !loc.kind.derivedFrom.kind.ValueTable? ==>
      r == Err(DerivedFromUnsupported)
  {
    if !loc.kind.Derived? then Ok((None, loc))
    else if t.getDerivedField.None? then Err(DerivedNotSupported)
    else
      var from := loc.kind.derivedFrom;
      match from.kind
      case TableColumn(column) => Ok((t.getDerivedField.value(loc, column), from))
      case ValueTable => Ok((t.getDerivedField.value(loc, ValueField), from))
      case _ => Err(DerivedFromUnsupported)
  }

  /**
   * The containment test and the inner test of a value-table condition. A test
   * for null becomes "not in the rows holding a non-null value".
   */
  function NullFlip(cnd: Conditions): (r: (Conditions, Conditions))
    ensures cnd == {Null} ==> r == ({In, Not}, {Not, Null})
    ensures cnd != {Null} ==> r == ({In}, cnd)
  {
    if cnd == {Null} then ({In, Not}, {Not, Null}) else ({In}, cnd)
  }

  /** `select object_id from <table> where property_compact_id == p.CompactID and (fld cnd val)`. */
  function ValueTableQuery(table: string, p: Property, fld: QField, cnd: Conditions, value: QueryValue): Query
  {
    Query(QTable(table, None), Some([QField(None, ObjectIdField)]),
          Some(AndOp(Equals(FieldNamed(PropertyCompactIdField), Const(IntConst(p.compactId))),
                     Some(Cond(Field(fld), cnd, value)))),
          [], None)
  }

  /** `ComposeValueTableCondition`: `pk In (value-table sub-query)`, with the null flip. */
  function ComposeValueTableCondition(t: Translator, objIdField: string, p: Property, fld: QField, cnd: Conditions, value: QueryValue)
    : (r: Result<QueryNode, TranslationError>)
    ensures r.Ok? <==> p.dataTypeId in t.storage.dataTypeTableNames
    ensures r.Ok? ==>
      && r.value.Cond? && r.value.lhs == FieldNamed(objIdField) && r.value.rhs.SubQuery?
      && r.value.rhs.query.table.name == t.storage.dataTypeTableNames[p.dataTypeId]
      && r.value.rhs.query.fields == Some([QField(None, ObjectIdField)])
      && (cnd == {Null} ==> r.value.cnd == {In, Not} && ValueTest(r.value.rhs.query) == Some(Cond(Field(fld), {Not, Null}, value)))
      && (cnd != {Null} ==> r.value.cnd == {In} && ValueTest(r.value.rhs.query) == Some(Cond(Field(fld), cnd, value)))
      && CompactIdTest(r.value.rhs.query) == Some(Equals(FieldNamed(PropertyCompactIdField), Const(IntConst(p.compactId))))
    ensures r.Err? ==> r == Err(MissingDataTypeTable(p.dataTypeId))
  {
    var table :- DataTypeTable(t, p.dataTypeId);
    var (outer, inner) := NullFlip(cnd);
    Ok(Cond(FieldNamed(objIdField), outer, SubQuery(ValueTableQuery(table, p, fld, inner, value))))
  }

  /** The second operand of an `a & b` condition, if the query has one. */
  function ValueTest(q: Query): Option<QueryNode>
  {
    if q.condition.Some? && q.condition.value.Group? && q.condition.value.kind == And && |q.condition.value.nodes| == 2
    then q.condition.value.nodes[1] else None
  }

  /** The first operand of an `a & b` condition, if the query has one. */
  function CompactIdTest(q: Query): Option<QueryNode>
  {
    if q.condition.Some? && q.condition.value.Group? && q.condition.value.kind == And && |q.condition.value.nodes| == 2
    then q.condition.value.nodes[0] else None
  }

  /** `fld ?? fallback`: the resolver's field when there is one, else the field named `fallback`. */
  function PropertyField(derivedField: Option<QField>, fallback: string): QField
  {
    if derivedField.Some? then derivedField.value else QField(None, fallback)
  }

  /** `ComposePropertyCondition`: a property of the class in a column or in a value table. */
  function ComposePropertyCondition(t: Translator, cls: Class, p: Property, cnd: Conditions, value: QueryValue)
    : (r: Result<QueryNode, TranslationError>)
    ensures GetLocation(t.schema, p, cls).None? ==> r.Err?
    ensures (GetLocation(t.schema, p, cls).Some? && GetLocation(t.schema, p, cls).value.kind.Derived?
             && t.getDerivedField.None?) ==> r == Err(DerivedNotSupported)
    ensures r.Ok? ==> GetLocation(t.schema, p, cls).Some? && UnwrapDerived(t, GetLocation(t.schema, p, cls).value).Ok?
    // a column: one condition on the column (or on the derived expression), no sub-query
    ensures r.Ok? && UnwrapDerived(t, GetLocation(t.schema, p, cls).value).value.1.kind.TableColumn? ==>
      && r.value.Cond? && r.value.cnd == cnd && r.value.rhs == value && r.value.lhs.Field?
      && (!GetLocation(t.schema, p, cls).value.kind.Derived? ==>
            r.value.lhs == FieldNamed(GetLocation(t.schema, p, cls).value.kind.columnName))
    // a derived location whose resolver gives null falls back to the underlying column, or to `value`
    ensures GetLocation(t.schema, p, cls).Some? && GetLocation(t.schema, p, cls).value.kind.Derived?
            && UnwrapDerived(t, GetLocation(t.schema, p, cls).value).Ok?
            && UnwrapDerived(t, GetLocation(t.schema, p, cls).value).value.0.None? ==>
      var base := GetLocation(t.schema, p, cls).value.kind.derivedFrom;
      && (base.kind.TableColumn? ==> r == Ok(Cond(FieldNamed(base.kind.columnName), cnd, value)))
      && (base.kind.ValueTable? && PrimaryKeyID(t, base.cls).Ok? ==>
            r == ComposeValueTableCondition(t, PrimaryKeyID(t, base.cls).value, base.property, QField(None, ValueField), cnd, value))
    // a value table: the primary key compared with a value-table sub-query, null flipped
    ensures r.Ok? && UnwrapDerived(t, GetLocation(t.schema, p, cls).value).value.1.kind.ValueTable? ==>
      && r.value.Cond? && r.value.rhs.SubQuery? && r.value.cnd == NullFlip(cnd).0
      && ValueTest(r.value.rhs.query).Some? && ValueTest(r.value.rhs.query).value.Cond?
      && ValueTest(r.value.rhs.query).value.cnd == NullFlip(cnd).1
      && ValueTest(r.value.rhs.query).value.rhs == value
    ensures r.Ok? ==> (UnwrapDerived(t, GetLocation(t.schema, p, cls).value).value.1.kind.TableColumn?
                    || UnwrapDerived(t, GetLocation(t.schema, p, cls).value).value.1.kind.ValueTable?)
    // in full, once the location is found and unwrapped
    ensures GetLocation(t.schema, p, cls).Some? && UnwrapDerived(t, GetLocation(t.schema, p, cls).value).Ok? ==>
      var (derivedField, base) := UnwrapDerived(t, GetLocation(t.schema, p, cls).value).value;
      && (base.kind.TableColumn? ==>
            r == Ok(Cond(Field(PropertyField(derivedField, base.kind.columnName)), cnd, value)))
      && (base.kind.ValueTable? ==>
            && (PrimaryKeyID(t, base.cls).Err? ==> r == Err(MissingPrimaryKey(base.cls.id)))
            && (PrimaryKeyID(t, base.cls).Ok? ==>
                  r == ComposeValueTableCondition(t, PrimaryKeyID(t, base.cls).value, base.property,
                                                  PropertyField(derivedField, ValueField), cnd, value)))
      && (!base.kind.TableColumn? && !base.kind.ValueTable? ==> r == Err(UnsupportedLocation))
  {
    var loc :- LocationOf(t, p, cls);
    var (derivedField, base) :- UnwrapDerived(t, loc);
    match base.kind
    case TableColumn(column) =>
      Ok(Cond(Field(PropertyField(derivedField, column)), cnd, value))
    case ValueTable =>
      var pk :- PrimaryKeyID(t, base.cls);
      ComposeValueTableCondition(t, pk, base.property, PropertyField(derivedField, ValueField), cnd, value)
    case _ => Err(UnsupportedLocation)
  }

  /**
   * The relationship a prefixed field is read through, seen from `cls`: a
   * stored relationship whose object is `cls` is replaced by its reverse.
   */
  function ResolveDirection(t: Translator, cls: Class, rel: Relationship, f: QField): (r: Result<Relationship, TranslationError>)
    ensures r.Ok? ==> r.value.subject == cls
    ensures !rel.inferred && rel.obj == cls ==>
      (r.Ok? <==> FindRelationship(t.schema, cls, rel.predicateClass, rel.subject, true).Some?)
      && (r.Ok? ==> r.value.reversed && r.value.predicateClass == rel.predicateClass && r.value.obj == rel.subject)
    ensures !(!rel.inferred && rel.obj == cls) ==> (r.Ok? <==> rel.subject == cls) && (r.Ok? ==> r.value == rel)
  {
    var relationship :-
      if !rel.inferred && rel.obj == cls then
        match FindRelationship(t.schema, cls, rel.predicateClass, rel.subject, true)
        case Some(rev) => Ok(rev)
        case None => Err(ReverseDirectionUnsupported(f.prefix))
      else Ok(rel);
    if relationship.subject != cls then Err(RelationshipNotForClass(f.prefix, cls.id))
    else Ok(relationship)
  }

  /** The relationships an edge-table path goes through, subject side first. */
  function EdgeChain(rel: Relationship): seq<Relationship>
  {
    if rel.inferred then rel.inferredBy else [rel]
  }

  /** The column of the edge table a hop tests against the inner query. */
  function FilterColumn(rel: Relationship): string
  {
    if rel.reversed then SubjectIdField else ObjectIdField
  }

  /** The column of the edge table a hop projects. */
  function ProjectedColumn(rel: Relationship): string
  {
    if rel.reversed then ObjectIdField else SubjectIdField
  }

  /** One hop: the edge rows with `rel`'s predicate whose far end is in `inner`. */
  function EdgeQuery(t: Translator, rel: Relationship, inner: QueryValue): QueryValue
  {
    SubQuery(Query(QTable(t.storage.objectRelationTableName, None), Some([QField(None, ProjectedColumn(rel))]),
                   Some(AndOp(PredicateFilter(rel.predicateClass),
                              Some(Cond(FieldNamed(FilterColumn(rel)), {In}, inner)))),
                   [], None))
  }

  /** The `foreach` of the source: wraps `acc` once per relationship of `rs`, in the order of `rs`. */
  function FoldEdges(t: Translator, rs: seq<Relationship>, acc: QueryValue): QueryValue
  {
    if rs == [] then acc else FoldEdges(t, rs[1..], EdgeQuery(t, rs[0], acc))
  }

  /** The nesting the fold produces: `chain[0]` outermost, `inner` innermost. */
  function NestEdges(t: Translator, chain: seq<Relationship>, inner: QueryValue): QueryValue
  {
    if chain == [] then inner else EdgeQuery(t, chain[0], NestEdges(t, chain[1..], inner))
  }

  function Reverse<T>(s: seq<T>): (r: seq<T>)
    ensures |r| == |s|
    ensures forall i :: 0 <= i < |s| ==> r[i] == s[|s| - 1 - i]
  {
    if s == [] then [] else Reverse(s[1..]) + [s[0]]
  }

  /** The property sub-query at the bottom of a related-property condition (a null value for any other location). */
  function InnerPropertyQuery(t: Translator, derivedField: Option<QField>, base: PropertyLocation, cnd: Conditions, value: QueryValue)
    : (r: Result<QueryValue, TranslationError>)
    ensures base.kind.ValueTable? ==> (r.Ok? <==> base.property.dataTypeId in t.storage.dataTypeTableNames)
    ensures !base.kind.ValueTable? ==> r.Ok?
    ensures r.Ok? && base.kind.ValueTable? ==> r.value.SubQuery? && r.value.query.table.name == t.storage.dataTypeTableNames[base.property.dataTypeId]
    ensures r.Ok? && base.kind.TableColumn? ==>
      r.value.SubQuery? && r.value.query.table.name == t.storage.objectTableName
      && r.value.query.fields == Some([QField(None, IdField)])
    ensures r.Ok? && !base.kind.ValueTable? && !base.kind.TableColumn? ==> r.value == NoValue
    // a value table: the object IDs of the rows of this property holding a matching value
    ensures r.Ok? && base.kind.ValueTable? ==>
      && r.value.query.fields == Some([QField(None, ObjectIdField)])
      && CompactIdTest(r.value.query) == Some(Equals(FieldNamed(PropertyCompactIdField), Const(IntConst(base.property.compactId))))
      && ValueTest(r.value.query) == Some(Cond(Field(PropertyField(derivedField, ValueField)), cnd, value))
    // a column: the IDs of the objects whose column matches
    ensures r.Ok? && base.kind.TableColumn? ==>
      r.value.query.condition == Some(Cond(Field(PropertyField(derivedField, base.kind.columnName)), cnd, value))
    // with no field from the resolver, the value column or the location's own column is tested
    ensures r.Ok? && derivedField.None? && base.kind.ValueTable? ==>
      ValueTest(r.value.query) == Some(Cond(FieldNamed(ValueField), cnd, value))
    ensures r.Ok? && derivedField.None? && base.kind.TableColumn? ==>
      r.value.query.condition == Some(Cond(FieldNamed(base.kind.columnName), cnd, value))
    ensures r.Err? ==> r == Err(MissingDataTypeTable(base.property.dataTypeId))
  {
    match base.kind
    case ValueTable =>
      var table :- DataTypeTable(t, base.property.dataTypeId);
      Ok(SubQuery(ValueTableQuery(table, base.property, PropertyField(derivedField, ValueField), cnd, value)))
    case TableColumn(column) =>
      Ok(SubQuery(Query(QTable(t.storage.objectTableName, None), Some([QField(None, IdField)]),
                        Some(Cond(Field(PropertyField(derivedField, column)), cnd, value)),
                        [], None)))
    case _ => Ok(NoValue)
  }

  /**
   * A value-table property reached through a relationship is tested by the
   * same sub-query a direct condition on it compares the primary key against.
   */
  lemma RelatedValueTableQueryIsDirect(t: Translator, derivedField: Option<QField>, base: PropertyLocation,
                                       objIdField: string, cnd: Conditions, value: QueryValue)
    requires base.kind.ValueTable?
    ensures InnerPropertyQuery(t, derivedField, base, NullFlip(cnd).1, value).Ok?
        <==> ComposeValueTableCondition(t, objIdField, base.property, PropertyField(derivedField, ValueField), cnd, value).Ok?
    ensures InnerPropertyQuery(t, derivedField, base, NullFlip(cnd).1, value).Ok? ==>
      InnerPropertyQuery(t, derivedField, base, NullFlip(cnd).1, value).value
        == ComposeValueTableCondition(t, objIdField, base.property, PropertyField(derivedField, ValueField), cnd, value).value.rhs
  {
  }

  /** `ComposeRelatedPropertyCondition`: a property reached through a relationship (or a chain of them). */
  function ComposeRelatedPropertyCondition(t: Translator, cls: Class, rel: Relationship, f: QField, cnd: Conditions, value: QueryValue)
    : (r: Result<QueryNode, TranslationError>)
    ensures r.Ok? ==>
      && ResolveDirection(t, cls, rel, f).Ok?
      && PrimaryKeyID(t, cls).Ok?
      && r.value.Cond?
      && r.value.lhs == FieldNamed(PrimaryKeyID(t, cls).value)
      && r.value.cnd == NullFlip(cnd).0
      && var chain := EdgeChain(ResolveDirection(t, cls, rel, f).value);
         var decoded := DecodeEdges(t, r.value.rhs, |chain|);
         decoded.Some? && decoded.value.0 == Hops(chain)
    ensures ResolveDirection(t, cls, rel, f).Err? ==> r.Err?
    ensures ResolveDirection(t, cls, rel, f).Ok?
            && FindPropertyByID(t.schema, ResolveDirection(t, cls, rel, f).value.obj, f.name).None? ==>
      r == Err(RelatedFieldMissing(f.name, f.prefix))
    // the innermost query tests the related property with the (null-flipped) condition
    ensures ResolveDirection(t, cls, rel, f).Ok?
            && FindPropertyByID(t.schema, ResolveDirection(t, cls, rel, f).value.obj, f.name).Some? ==>
      var relationship := ResolveDirection(t, cls, rel, f).value;
      var p := FindPropertyByID(t.schema, relationship.obj, f.name).value;
      && (r.Ok? <==>
            && GetLocation(t.schema, p, relationship.obj).Some?
            && UnwrapDerived(t, GetLocation(t.schema, p, relationship.obj).value).Ok?
            && InnerPropertyQuery(t, UnwrapDerived(t, GetLocation(t.schema, p, relationship.obj).value).value.0,
                                  UnwrapDerived(t, GetLocation(t.schema, p, relationship.obj).value).value.1,
                                  NullFlip(cnd).1, value).Ok?
            && PrimaryKeyID(t, cls).Ok?)
      && (r.Ok? ==>
            var unwrapped := UnwrapDerived(t, GetLocation(t.schema, p, relationship.obj).value).value;
            DecodeEdges(t, r.value.rhs, |EdgeChain(relationship)|)
              == Some((Hops(EdgeChain(relationship)), InnerPropertyQuery(t, unwrapped.0, unwrapped.1, NullFlip(cnd).1, value).value)))
  {
    var relationship :- ResolveDirection(t, cls, rel, f);
    var p :- match FindPropertyByID(t.schema, relationship.obj, f.name)
             case Some(p) => Ok(p)
             case None => Err(RelatedFieldMissing(f.name, f.prefix));
    var loc :- LocationOf(t, p, relationship.obj);
    var (outer, inner) := NullFlip(cnd);
    var (derivedField, base) :- UnwrapDerived(t, loc);
    var propQuery :- InnerPropertyQuery(t, derivedField, base, inner, value);
    var folded := FoldEdges(t, Reverse(EdgeChain(relationship)), propQuery);
    var pk :- PrimaryKeyID(t, cls);
    FoldIsNesting(t, EdgeChain(relationship), propQuery);
    DecodeNested(t, EdgeChain(relationship), propQuery);
    Ok(Cond(FieldNamed(pk), outer, folded))
  }

  /** What one hop records: the predicate's compact ID and whether the hop is reversed. */
  datatype Hop = Hop(predicateCompactId: int, reversed: bool)

  function Hops(chain: seq<Relationship>): (r: seq<Hop>)
    ensures |r| == |chain|
    ensures forall i :: 0 <= i < |chain| ==> r[i] == Hop(chain[i].predicateClass.compactId, chain[i].reversed)
  {
    if chain == [] then [] else [Hop(chain[0].predicateClass.compactId, chain[0].reversed)] + Hops(chain[1..])
  }

  /**
   * Reads one edge-table level back: the hop it encodes and the query it
   * tests against, when `v` is an edge sub-query in the shape `EdgeQuery` builds.
   */
  function DecodeEdge(t: Translator, v: QueryValue): Option<(Hop, QueryValue)>
  {
    if !v.SubQuery? then None
    else
      var q := v.query;
      if q.table != QTable(t.storage.objectRelationTableName, None) || q.sort != [] || q.paging.Some? then None
      else if q.fields != Some([QField(None, SubjectIdField)]) && q.fields != Some([QField(None, ObjectIdField)]) then None
      else if q.condition.None? || !q.condition.value.Group? || q.condition.value.kind != And then None
      else
        var nodes := q.condition.value.nodes;
        if |nodes| != 2 || nodes[0].None? || nodes[1].None? then None
        else
          var filter, test := nodes[0].value, nodes[1].value;
          if !filter.Cond? || filter.lhs != FieldNamed(PredicateCompactIdField) || filter.cnd != {Equal}
             || !filter.rhs.Const? || !filter.rhs.value.IntConst? then None
          else
            var reversed := q.fields == Some([QField(None, ObjectIdField)]);
            if !test.Cond? || test.cnd != {In}
               || test.lhs != FieldNamed(if reversed then SubjectIdField else ObjectIdField) then None
            else Some((Hop(filter.rhs.value.i, reversed), test.rhs))
  }

  /** Reads `n` nested edge-table levels back: their hops, outermost first, and the innermost value. */
  function DecodeEdges(t: Translator, v: QueryValue, n: nat): Option<(seq<Hop>, QueryValue)>
  {
    if n == 0 then Some(([], v))
    else match DecodeEdge(t, v)
      case None => None
      case Some((hop, inner)) =>
        match DecodeEdges(t, inner, n - 1)
        case None => None
        case Some((hops, innermost)) => Some(([hop] + hops, innermost))
  }

  /** An edge level reads back as the hop it was built from. */
  lemma DecodeEdgeQuery(t: Translator, rel: Relationship, inner: QueryValue)
    ensures DecodeEdge(t, EdgeQuery(t, rel, inner)) == Some((Hop(rel.predicateClass.compactId, rel.reversed), inner))
  {
  }

  /** Nesting through a chain reads back as the chain's hops around the untouched inner value. */
  lemma {:induction false} DecodeNested(t: Translator, chain: seq<Relationship>, inner: QueryValue)
    ensures DecodeEdges(t, NestEdges(t, chain, inner), |chain|) == Some((Hops(chain), inner))
  {
    if chain != [] {
      DecodeNested(t, chain[1..], inner);
      DecodeEdgeQuery(t, chain[0], NestEdges(t, chain[1..], inner));
    }
  }

  lemma {:induction false} FoldSnoc(t: Translator, rs: seq<Relationship>, last: Relationship, acc: QueryValue)
    ensures FoldEdges(t, rs + [last], acc) == EdgeQuery(t, last, FoldEdges(t, rs, acc))
  {
    if rs != [] {
      assert (rs + [last])[1..] == rs[1..] + [last];
      FoldSnoc(t, rs[1..], last, EdgeQuery(t, rs[0], acc));
    }
  }

  /** Folding over the reversed chain nests the chain's first relationship outermost. */
  lemma {:induction false} FoldIsNesting(t: Translator, chain: seq<Relationship>, inner: QueryValue)
    ensures FoldEdges(t, Reverse(chain), inner) == NestEdges(t, chain, inner)
  {
    if chain != [] {
      FoldSnoc(t, Reverse(chain[1..]), chain[0], inner);
      FoldIsNesting(t, chain[1..], inner);
    }
  }
}

=== FILE: relex_lexer.dfy ===
/**
 * The cursor-based lexer of the relational-expression parser: character
 * classes, lexeme classification, lexeme extraction (trimming and quoted
 * constant unescaping) and the run of delimiters that forms an operator.
 */
module RelExLexer {
  import opened Wrappers

  /** The syntax errors the lexer and the parser raise; positions are indexes into the input. */
  datatype SyntaxError =
    | InvalidSyntax(position: int)
    | UnterminatedConstant(position: int)
    | NodeNameExpected(position: int)
    | NullComparison(position: int)
    /** an index past the end of the input, or a substring with a negative length */
    | IndexOutOfRange
    | NotAQuery
    | CannotParseTypedConstant(constant: string, typeName: string)
    | InvalidNumber(text: string)

  datatype LexemType = Unknown | Name | Delimiter | QuotedConstant | Constant | Stop

  /** `( ) [ ] : , = < > ! & | * { }` */
  predicate IsDelimiter(c: char)
  {
    c in "()[]:,=<>!&|*{}"
  }

  /** Characters that may occur inside a name besides letters and digits. */
  predicate IsSpecialNameChar(c: char)
  {
    c == '.' || c == '-' || c == '_'
  }

  const Quote: char := '"'

  /** `Char.IsSeparator`: the Unicode space, line and paragraph separators. */
  predicate IsSeparator(c: char)
  {
    c == ' ' || c == '\U{00A0}' || c == '\U{1680}' || ('\U{2000}' <= c <= '\U{200A}')
    || c == '\U{2028}' || c == '\U{2029}' || c == '\U{202F}' || c == '\U{205F}' || c == '\U{3000}'
  }

  /** `Char.IsControl`: the C0 and C1 control characters. */
  predicate IsControl(c: char)
  {
    c <= '\U{1F}' || ('\U{7F}' <= c <= '\U{9F}')
  }

  /** `Char.IsWhiteSpace`, the characters `String.Trim` removes. */
  predicate IsWhiteSpace(c: char)
  {
    IsSeparator(c) || ('\t' <= c <= '\r') || c == '\U{85}'
  }

  /** `Char.IsLetter`, restricted to ASCII letters. */
  predicate IsLetter(c: char)
  {
    ('a' <= c <= 'z') || ('A' <= c <= 'Z')
  }

  /** `Char.IsDigit`, restricted to ASCII digits. */
  predicate IsDigit(c: char)
  {
    '0' <= c <= '9'
  }

  /** `String.ToLower`, on ASCII letters. */
  function ToLower(s: string): (r: string)
    ensures |r| == |s|
    ensures forall k :: 0 <= k < |s| ==> r[k] == (if 'A' <= s[k] <= 'Z' then (s[k] as int + 32) as char else s[k])
  {
    if s == [] then []
    else [if 'A' <= s[0] <= 'Z' then (s[0] as int + 32) as char else s[0]] + ToLower(s[1..])
  }

  /** A character that starts a lexeme when no lexeme has been started yet. */
  predicate StartsLexeme(c: char)
  {
    IsDelimiter(c) || IsLetter(c) || IsDigit(c) || IsSpecialNameChar(c) || c == Quote
  }

  /** A character that ends a name or an unquoted constant. */
  predicate EndsWord(c: char)
  {
    IsDelimiter(c) || IsSeparator(c) || IsControl(c)
  }

  /** What one pass of the scanning loop does at position `i` in state `st`. */
  datatype ScanStep = Continue(state: LexemType, next: nat) | Done(kind: LexemType, end: nat) | Fail

  function Step(s: string, i: nat, st: LexemType): (r: ScanStep)
    requires i < |s|
    ensures r.Continue? ==> i < r.next <= |s|
    ensures r.Done? ==> i <= r.end <= i + 1 && r.end <= |s|
    ensures r.Done? && st == Unknown ==> r == Done(Delimiter, i + 1)
    ensures st != Unknown && r.Continue? ==> r.state == st
    ensures st != Unknown && r.Done? ==> r.kind == st
  {
    var c := s[i];
    if IsDelimiter(c) then
      if st == Unknown then Done(Delimiter, i + 1)
      else if st != QuotedConstant then Done(st, i)
      else Continue(st, i + 1)
    else if IsSeparator(c) then
      if st != QuotedConstant && st != Unknown then Done(st, i) else Continue(st, i + 1)
    else if IsLetter(c) then
      Continue(if st == Unknown then Name else st, i + 1)
    else if IsDigit(c) then
      Continue(if st == Unknown then Constant else st, i + 1)
    else if IsSpecialNameChar(c) then
      var st' := if st == Unknown then Constant else st;
      if st' != Name && st' != Constant && st' != QuotedConstant then Fail else Continue(st', i + 1)
    else if c == Quote then
      if st == Unknown then Continue(QuotedConstant, i + 1)
      else if st != QuotedConstant then Continue(st, i + 1)
      // a quote inside a quoted constant closes it unless another quote follows
      else if i + 1 < |s| && s[i + 1] != Quote then Done(QuotedConstant, i + 1)
      else if i + 1 < |s| then Continue(QuotedConstant, i + 2)
      else Continue(QuotedConstant, i + 1)
    else if IsControl(c) && st != Unknown && st != QuotedConstant then Done(st, i)
    else Continue(st, i + 1)
  }

  /**
   * The lexeme found from position `i` on in state `st`, for a lexeme that
   * started at `start`: its type and the index just past it.
   */
  function Scan(s: string, i: nat, st: LexemType, start: nat): (r: Result<(LexemType, nat), SyntaxError>)
    requires i <= |s|
    decreases |s| - i
    ensures r.Ok? ==> i <= r.value.1 <= |s| && r.value.0 != Unknown
    ensures r.Ok? && st == Unknown && r.value.0 == Stop ==> r.value.1 == |s|
    ensures r.Ok? && st != Unknown ==> r.value.0 == st
    ensures r.Ok? && st == Unknown && r.value.0 != Stop ==> r.value.1 > i
    ensures r.Err? ==> r.error == InvalidSyntax(start) || r.error == UnterminatedConstant(start)
  {
    if i == |s| then
      if st == Unknown then Ok((Stop, i))
      else if st == Constant then Err(UnterminatedConstant(start))
      else Ok((st, i))
    else match Step(s, i, st)
      case Continue(st', next) => Scan(s, next, st', start)
      case Done(kind, end) => Ok((kind, end))
      case Fail => Err(InvalidSyntax(start))
  }

  /** `GetLexemType`: the type of the lexeme starting at `startIdx` and the index just past it. */
  method GetLexemType(s: string, startIdx: nat) returns (r: Result<(LexemType, nat), SyntaxError>)
    requires startIdx <= |s|
    ensures r == Scan(s, startIdx, Unknown, startIdx)
  {
    var lexemType := Unknown;
    var endIdx := startIdx;
    while endIdx < |s|
      invariant startIdx <= endIdx <= |s|
      invariant Scan(s, endIdx, lexemType, startIdx) == Scan(s, startIdx, Unknown, startIdx)
      decreases |s| - endIdx
    {
      match Step(s, endIdx, lexemType)
      case Done(kind, end) =>
        return Ok((kind, end));
      case Fail =>
        return Err(InvalidSyntax(startIdx));
      case Continue(st', next) =>
        lexemType := st';
        endIdx := next;
    }
    if lexemType == Unknown {
      return Ok((Stop, endIdx));
    }
    if lexemType == Constant {
      return Err(UnterminatedConstant(startIdx));
    }
    return Ok((lexemType, endIdx));
  }

  /** The lexeme starting at `i`, as the parser reads it. */
  function Lex(s: string, i: nat): (r: Result<(LexemType, nat), SyntaxError>)
    requires i <= |s|
    ensures r.Ok? ==> i <= r.value.1 <= |s| && r.value.0 != Unknown
    ensures r.Ok? && r.value.0 != Stop ==> r.value.1 > i
    ensures r.Ok? && r.value.0 == Stop ==> r.value.1 == |s|
  {
    Scan(s, i, Unknown, i)
  }

  /** `Stop` is returned exactly when nothing from `i` on can start a lexeme. */
  lemma {:induction false} StopOnlyWhenBlank(s: string, i: nat, start: nat)
    requires i <= |s|
    ensures Scan(s, i, Unknown, start) == Ok((Stop, |s|)) <==> forall k :: i <= k < |s| ==> !StartsLexeme(s[k])
    ensures Scan(s, i, Unknown, start).Ok? && Scan(s, i, Unknown, start).value.0 == Stop
            ==> forall k :: i <= k < |s| ==> !StartsLexeme(s[k])
    decreases |s| - i
  {
    if i < |s| {
      StopOnlyWhenBlank(s, i + 1, start);
      if StartsLexeme(s[i]) {
        assert Step(s, i, Unknown).Done? || (Step(s, i, Unknown).Continue? && Step(s, i, Unknown).state != Unknown);
      } else {
        assert Step(s, i, Unknown) == Continue(Unknown, i + 1);
      }
    }
  }

  /** Skipped characters aside, a delimiter is a lexeme of its own. */
  lemma {:induction false} DelimiterStandsAlone(s: string, i: nat, k: nat, start: nat)
    requires i <= k < |s| && IsDelimiter(s[k])
    requires forall j :: i <= j < k ==> !StartsLexeme(s[j])
    ensures Scan(s, i, Unknown, start) == Ok((Delimiter, k + 1))
    decreases k - i
  {
    if i < k {
      DelimiterStandsAlone(s, i + 1, k, start);
    }
  }

  /** The first position from `i` on that ends a word, or the end of the input. */
  function WordEnd(s: string, i: nat): (r: nat)
    requires i <= |s|
    ensures i <= r <= |s|
    ensures forall k :: i <= k < r ==> !EndsWord(s[k])
    ensures r < |s| ==> EndsWord(s[r])
    decreases |s| - i
  {
    if i == |s| || EndsWord(s[i]) then i else WordEnd(s, i + 1)
  }

  /**
   * A name or an unquoted constant runs to the first delimiter, separator or
   * control character; a constant that meets none of them is unterminated.
   */
  lemma {:induction false} WordRunsToEnd(s: string, i: nat, st: LexemType, start: nat)
    requires i <= |s| && (st == Name || st == Constant)
    ensures WordEnd(s, i) < |s| ==> Scan(s, i, st, start) == Ok((st, WordEnd(s, i)))
    ensures WordEnd(s, i) == |s| && st == Constant ==> Scan(s, i, st, start) == Err(UnterminatedConstant(start))
    ensures WordEnd(s, i) == |s| && st == Name ==> Scan(s, i, st, start) == Ok((Name, |s|))
    decreases |s| - i
  {
    if i < |s| && !EndsWord(s[i]) {
      assert Scan(s, i, st, start) == Scan(s, i + 1, st, start) by {
        assert Step(s, i, st) == Continue(st, i + 1);
      }
      WordRunsToEnd(s, i + 1, st, start);
    }
  }

  /**
   * A letter starts a name and a digit a constant; the lexeme runs to the
   * first character that ends a word, and a constant that reaches the end
   * of the input is unterminated.
   */
  lemma {:induction false} LexWord(s: string, i: nat)
    requires i < |s| && (IsLetter(s[i]) || IsDigit(s[i]))
    ensures Lex(s, i) ==
      if WordEnd(s, i + 1) < |s| || IsLetter(s[i]) then Ok((if IsLetter(s[i]) then Name else Constant, WordEnd(s, i + 1)))
      else Err(UnterminatedConstant(i))
  {
    assert !IsDelimiter(s[i]) && !IsSeparator(s[i]);
    assert Scan(s, i, Unknown, i) == Scan(s, i + 1, if IsLetter(s[i]) then Name else Constant, i);
    WordRunsToEnd(s, i + 1, if IsLetter(s[i]) then Name else Constant, i);
  }

  /** A letter starts a name, which runs to the first character that ends a word. */
  lemma LexName(s: string, i: nat)
    requires i < |s| && IsLetter(s[i]) && WordEnd(s, i + 1) < |s|
    ensures Lex(s, i) == Ok((Name, WordEnd(s, i + 1)))
  {
    LexWord(s, i);
  }

  /** A digit starts a constant, which runs to the first character that ends a word. */
  lemma LexConstant(s: string, i: nat)
    requires i < |s| && IsDigit(s[i]) && WordEnd(s, i + 1) < |s|
    ensures Lex(s, i) == Ok((Constant, WordEnd(s, i + 1)))
  {
    LexWord(s, i);
  }

  /** A digit starts a constant, which fails when it reaches the end of the input. */
  lemma UnterminatedConstantAtEnd(s: string, i: nat)
    requires i < |s| && IsDigit(s[i]) && WordEnd(s, i + 1) == |s|
    ensures Lex(s, i) == Err(UnterminatedConstant(i))
  {
    LexWord(s, i);
  }

  /**
   * The "invalid syntax" branch for special name characters is never taken:
   * starting from no lexeme, the scan can fail only on an unterminated constant.
   */
  lemma {:induction false} SpecialCharNeverFails(s: string, i: nat, st: LexemType, start: nat)
    requires i <= |s| && st in {Unknown, Name, Constant, QuotedConstant}
    ensures Scan(s, i, st, start) != Err(InvalidSyntax(start))
    decreases |s| - i
  {
    if i < |s| {
      match Step(s, i, st)
      case Continue(st', next) =>
        SpecialCharNeverFails(s, next, st', start);
      case Done(_, _) =>
      case Fail =>
    }
  }

  function LeadingWhiteSpace(s: string): (n: nat)
    ensures n <= |s|
    ensures forall k :: 0 <= k < n ==> IsWhiteSpace(s[k])
    ensures n < |s| ==> !IsWhiteSpace(s[n])
  {
    if s == [] || !IsWhiteSpace(s[0]) then 0 else 1 + LeadingWhiteSpace(s[1..])
  }

  function TrailingWhiteSpace(s: string): (n: nat)
    ensures n <= |s|
    ensures forall k :: |s| - n <= k < |s| ==> IsWhiteSpace(s[k])
    ensures n < |s| ==> !IsWhiteSpace(s[|s| - n - 1])
  {
    if s == [] || !IsWhiteSpace(s[|s| - 1]) then 0 else 1 + TrailingWhiteSpace(s[..|s| - 1])
  }

  /** `String.Trim`: leading and trailing white space removed. */
  function Trim(s: string): (r: string)
    ensures |r| <= |s|
    ensures r == [] <==> forall k :: 0 <= k < |s| ==> IsWhiteSpace(s[k])
    ensures r != [] ==> !IsWhiteSpace(r[0]) && !IsWhiteSpace(r[|r| - 1])
    ensures s != [] && !IsWhiteSpace(s[0]) && !IsWhiteSpace(s[|s| - 1]) ==> r == s
  {
    var lead := LeadingWhiteSpace(s);
    if lead == |s| then []
    else
      var trail := TrailingWhiteSpace(s);
      assert !IsWhiteSpace(s[lead]);
      s[lead..|s| - trail]
  }

  /** `GetLexem(s, startIdx, endIdx)`: the text between the two indexes, trimmed. */
  function GetLexem(s: string, startIdx: nat, endIdx: nat): string
    requires startIdx <= endIdx <= |s|
  {
    Trim(s[startIdx..endIdx])
  }

  /**
   * A lexeme is the text between the bounds without surrounding white space:
   * no longer than the bounds, empty exactly when they hold only white space,
   * the text itself when it has none at either end, and unchanged by trimming again.
   */
  lemma LexemIsTrimmed(s: string, startIdx: nat, endIdx: nat)
    requires startIdx <= endIdx <= |s|
    ensures |GetLexem(s, startIdx, endIdx)| <= endIdx - startIdx
    ensures GetLexem(s, startIdx, endIdx) == [] <==> forall k :: startIdx <= k < endIdx ==> IsWhiteSpace(s[k])
    ensures GetLexem(s, startIdx, endIdx) != [] ==>
      !IsWhiteSpace(GetLexem(s, startIdx, endIdx)[0]) && !IsWhiteSpace(GetLexem(s, startIdx, endIdx)[|GetLexem(s, startIdx, endIdx)| - 1])
    ensures startIdx < endIdx && !IsWhiteSpace(s[startIdx]) && !IsWhiteSpace(s[endIdx - 1]) ==>
      GetLexem(s, startIdx, endIdx) == s[startIdx..endIdx]
    ensures Trim(GetLexem(s, startIdx, endIdx)) == GetLexem(s, startIdx, endIdx)
  {
    assert forall k :: startIdx <= k < endIdx ==> s[startIdx..endIdx][k - startIdx] == s[k];
  }

  /** `String.Replace("\"\"", "\"")`: each pair of quotes, read left to right, becomes one quote. */
  function CollapseQuotes(s: string): (r: string)
    ensures |r| <= |s|
  {
    if |s| < 2 then s
    else if s[0] == Quote && s[1] == Quote then [Quote] + CollapseQuotes(s[2..])
    else [s[0]] + CollapseQuotes(s[1..])
  }

  /** The text of a quoted lexeme: its first and last characters dropped, quote pairs collapsed. */
  function Unquote(lexem: string): (r: Result<string, SyntaxError>)
    ensures r.Err? <==> |lexem| < 2
  {
    if |lexem| < 2 then Err(IndexOutOfRange) else Ok(CollapseQuotes(lexem[1..|lexem| - 1]))
  }

  /** A lexeme of one character that is no white space is that character. */
  lemma SingleCharLexem(s: string, i: nat)
    requires i < |s| && !IsWhiteSpace(s[i])
    ensures GetLexem(s, i, i + 1) == [s[i]]
  {
    LexemIsTrimmed(s, i, i + 1);
    assert s[i..i + 1] == [s[i]];
  }

  /** `GetLexem(s, startIdx, endIdx, lexemType)`: a quoted constant is unquoted, any other lexeme kept. */
  function GetLexemOf(s: string, startIdx: nat, endIdx: nat, lexemType: LexemType): (r: Result<string, SyntaxError>)
    requires startIdx <= endIdx <= |s|
    ensures lexemType != QuotedConstant ==> r == Ok(GetLexem(s, startIdx, endIdx))
    ensures lexemType == QuotedConstant ==> r == Unquote(GetLexem(s, startIdx, endIdx))
  {
    if lexemType != QuotedConstant then Ok(GetLexem(s, startIdx, endIdx))
    else Unquote(GetLexem(s, startIdx, endIdx))
  }

  /** The inverse of unquoting: every quote doubled. */
  function Escape(t: string): (r: string)
    ensures |r| >= |t|
  {
    if t == [] then [] else (if t[0] == Quote then [Quote, Quote] else [t[0]]) + Escape(t[1..])
  }

  lemma {:induction false} CollapseEscape(t: string)
    ensures CollapseQuotes(Escape(t)) == t
  {
    if t != [] {
      CollapseEscape(t[1..]);
      var e := Escape(t[1..]);
      if t[0] == Quote {
        assert Escape(t) == [Quote, Quote] + e;
        assert (Escape(t))[2..] == e;
      } else {
        assert Escape(t) == [t[0]] + e;
        assert (Escape(t))[1..] == e;
      }
    }
  }

  lemma StepInsideQuotes(s: string, i: nat, start: nat)
    requires i < |s| && s[i] != Quote
    ensures Scan(s, i, QuotedConstant, start) == Scan(s, i + 1, QuotedConstant, start)
  {
    assert Step(s, i, QuotedConstant) == Continue(QuotedConstant, i + 1);
  }

  lemma StepQuotePair(s: string, i: nat, start: nat)
    requires i + 1 < |s| && s[i] == Quote && s[i + 1] == Quote
    ensures Scan(s, i, QuotedConstant, start) == Scan(s, i + 2, QuotedConstant, start)
  {
    assert Step(s, i, QuotedConstant) == Continue(QuotedConstant, i + 2);
  }

  lemma StepClosingQuote(s: string, i: nat, start: nat)
    requires i < |s| && s[i] == Quote && (i + 1 == |s| || s[i + 1] != Quote)
    ensures Scan(s, i, QuotedConstant, start) == Ok((QuotedConstant, i + 1))
  {
  }

  /** The part of `s` that spells `x` from `i` on, after its first `w` characters, spells the rest of `x`. */
  lemma SliceRest(s: string, i: nat, x: string, w: nat)
    requires i + |x| <= |s| && s[i..i + |x|] == x && w <= |x|
    ensures s[i + w..i + |x|] == x[w..]
    ensures forall k :: 0 <= k < w ==> s[i + k] == x[k]
  {
    forall k | 0 <= k < |x|
      ensures s[i + k] == x[k]
    {
      assert s[i..i + |x|][k] == s[i + k];
    }
  }

  /** The width `Escape` gives the first character of a text: a quote is doubled. */
  function EscapedWidth(c: char): nat
  {
    if c == Quote then 2 else 1
  }

  /**
   * Where `s` spells the escape of a non-empty text from `i` on, it starts with
   * the escaped first character and goes on with the escape of the rest.
   */
  lemma EscapedHead(s: string, i: nat, t: string)
    requires t != [] && i + |Escape(t)| <= |s| && s[i..i + |Escape(t)|] == Escape(t)
    ensures i + EscapedWidth(t[0]) + |Escape(t[1..])| == i + |Escape(t)|
    ensures t[0] == Quote ==> s[i] == Quote && s[i + 1] == Quote
    ensures t[0] != Quote ==> s[i] == t[0]
    ensures s[i + EscapedWidth(t[0])..i + |Escape(t)|] == Escape(t[1..])
  {
    var full := Escape(t);
    var head: string := if t[0] == Quote then [Quote, Quote] else [t[0]];
    assert full == head + Escape(t[1..]);
    assert full[|head|..] == Escape(t[1..]);
    SliceRest(s, i, full, |head|);
    assert s[i] == full[0] == head[0];
    if t[0] == Quote {
      assert s[i + 1] == full[1] == head[1];
    }
  }

  /** Inside a quoted constant, the escaped first character of a text is passed over. */
  lemma StepEscaped(s: string, i: nat, t: string, start: nat)
    requires t != [] && i + |Escape(t)| <= |s| && s[i..i + |Escape(t)|] == Escape(t)
    ensures i + EscapedWidth(t[0]) + |Escape(t[1..])| == i + |Escape(t)|
    ensures s[i + EscapedWidth(t[0])..i + |Escape(t)|] == Escape(t[1..])
    ensures Scan(s, i, QuotedConstant, start) == Scan(s, i + EscapedWidth(t[0]), QuotedConstant, start)
  {
    EscapedHead(s, i, t);
    if t[0] == Quote {
      StepQuotePair(s, i, start);
    } else {
      StepInsideQuotes(s, i, start);
    }
  }

  /** Inside a quoted constant, an escaped text is consumed up to the closing quote. */
  lemma {:induction false} ScanEscaped(s: string, i: nat, t: string, start: nat)
    requires i + |Escape(t)| < |s|
    requires s[i..i + |Escape(t)|] == Escape(t)
    requires s[i + |Escape(t)|] == Quote
    requires i + |Escape(t)| + 1 == |s| || s[i + |Escape(t)| + 1] != Quote
    ensures Scan(s, i, QuotedConstant, start) == Ok((QuotedConstant, i + |Escape(t)| + 1))
    decreases t
  {
    if t == [] {
      StepClosingQuote(s, i, start);
    } else {
      StepEscaped(s, i, t, start);
      ScanEscaped(s, i + EscapedWidth(t[0]), t[1..], start);
    }
  }

  /** A quote followed by an escaped text and a closing quote lexes as one quoted constant. */
  lemma LexQuoted(s: string, i: nat, t: string)
    requires i + |Escape(t)| + 1 < |s|
    requires s[i] == Quote && s[i + 1..i + 1 + |Escape(t)|] == Escape(t) && s[i + 1 + |Escape(t)|] == Quote
    requires i + |Escape(t)| + 2 == |s| || s[i + |Escape(t)| + 2] != Quote
    ensures Lex(s, i) == Ok((QuotedConstant, i + |Escape(t)| + 2))
  {
    assert Step(s, i, Unknown) == Continue(QuotedConstant, i + 1);
    ScanEscaped(s, i + 1, t, i);
    assert Scan(s, i, Unknown, i) == Scan(s, i + 1, QuotedConstant, i);
  }

  /** The lexeme of such a quoted constant is the quotes around the escaped text. */
  lemma QuotedSlice(s: string, i: nat, t: string)
    requires i + |Escape(t)| + 1 < |s|
    requires s[i] == Quote && s[i + 1..i + 1 + |Escape(t)|] == Escape(t) && s[i + 1 + |Escape(t)|] == Quote
    ensures s[i..i + |Escape(t)| + 2] == [Quote] + Escape(t) + [Quote]
  {
    var n := |Escape(t)|;
    var lexem := s[i..i + n + 2];
    assert |lexem| == n + 2;
    assert lexem[0] == Quote && lexem[n + 1] == Quote;
    forall k | 0 <= k < n
      ensures lexem[1..n + 1][k] == Escape(t)[k]
    {
      assert lexem[1..n + 1][k] == s[i + 1 + k] == s[i + 1..i + 1 + n][k];
    }
    assert lexem[1..n + 1] == Escape(t);
    assert lexem == [lexem[0]] + lexem[1..n + 1] + [lexem[n + 1]];
  }

  /**
   * Quoted constants round-trip: a text written between quotes with its
   * quotes doubled is read back as one quoted-constant lexeme holding the text.
   */
  lemma QuotedRoundTrip(s: string, i: nat, t: string)
    requires i + |Escape(t)| + 1 < |s|
    requires s[i] == Quote && s[i + 1..i + 1 + |Escape(t)|] == Escape(t) && s[i + 1 + |Escape(t)|] == Quote
    requires i + |Escape(t)| + 2 == |s| || s[i + |Escape(t)| + 2] != Quote
    ensures Lex(s, i) == Ok((QuotedConstant, i + |Escape(t)| + 2))
    ensures GetLexemOf(s, i, i + |Escape(t)| + 2, QuotedConstant) == Ok(t)
  {
    var e := i + |Escape(t)| + 2;
    LexQuoted(s, i, t);
    assert s[i..e] == [Quote] + Escape(t) + [Quote] by {
      QuotedSlice(s, i, t);
    }
    QuotedLexemText(s, i, e, t);
  }

  /** A lexeme spelling a text escaped between quotes has that text. */
  lemma QuotedLexemText(s: string, i: nat, e: nat, t: string)
    requires i <= e <= |s| && s[i..e] == [Quote] + Escape(t) + [Quote]
    ensures GetLexemOf(s, i, e, QuotedConstant) == Ok(t)
  {
    UnquoteEscaped(t);
  }

  /** Unquoting the escape of a text between quotes gives the text back. */
  lemma UnquoteEscaped(t: string)
    ensures Trim([Quote] + Escape(t) + [Quote]) == [Quote] + Escape(t) + [Quote]
    ensures Unquote([Quote] + Escape(t) + [Quote]) == Ok(t)
  {
    var lexem := [Quote] + Escape(t) + [Quote];
    assert lexem[1..|lexem| - 1] == Escape(t);
    CollapseEscape(t);
  }

  /** The end of the run of delimiters from `i`; the last character of the input is never passed. */
  function DelimiterRunEnd(s: string, i: nat): (r: nat)
    requires i < |s|
    ensures i <= r < |s|
    ensures forall k :: i <= k < r ==> IsDelimiter(s[k])
    ensures r == |s| - 1 || !IsDelimiter(s[r])
    decreases |s| - i
  {
    if IsDelimiter(s[i]) && i + 1 < |s| then DelimiterRunEnd(s, i + 1) else i
  }

  /** `GetAllDelimiters`: reading `s[startIdx]` past the end of the input is an error. */
  method GetAllDelimiters(s: string, startIdx: nat) returns (r: Result<nat, SyntaxError>)
    requires startIdx <= |s|
    ensures startIdx == |s| ==> r == Err(IndexOutOfRange)
    ensures startIdx < |s| ==> r == Ok(DelimiterRunEnd(s, startIdx))
  {
    if startIdx == |s| {
      return Err(IndexOutOfRange);
    }
    var endIdx := startIdx;
    while IsDelimiter(s[endIdx]) && endIdx + 1 < |s|
      invariant startIdx <= endIdx < |s|
      invariant DelimiterRunEnd(s, endIdx) == DelimiterRunEnd(s, startIdx)
      decreases |s| - endIdx
    {
      endIdx := endIdx + 1;
    }
    return Ok(endIdx);
  }

  /** The delimiter run the parser reads as an operator. */
  function AllDelimiters(s: string, startIdx: nat): (r: Result<nat, SyntaxError>)
    requires startIdx <= |s|
    ensures r.Ok? <==> startIdx < |s|
    ensures r.Ok? ==> startIdx <= r.value < |s|
  {
    if startIdx == |s| then Err(IndexOutOfRange) else Ok(DelimiterRunEnd(s, startIdx))
  }
}

=== FILE: relex_parser.dfy ===
/**
 * The recursive-descent parser of relational expressions such as
 * `persons(age>=18 and name like "A%")[id,name]{0,10}`: a source name, an
 * optional condition group in parentheses, a field list in brackets and an
 * optional `{start,count}` record range.
 */
module RelExParser {
  import opened Wrappers
  import opened QueryModel
  import opened Strings
  import opened RelExLexer

  /**
   * Parser settings and the two conversions from text whose code is not part
   * of this model: `(QField)text` and the source name given to `new Query`.
   */
  datatype Parser = Parser(allowDumpConstants: bool, fieldOf: string -> QField, tableOf: string -> QTable)

  /** The field conversion keeps a name without a dot as an unprefixed field. */
  ghost predicate KeepsPlainNames(p: Parser)
  {
    forall n: string :: '.' !in n ==> p.fieldOf(n) == QField(None, n)
  }

  const NullField := "null"

  /** The operator spellings made of delimiters, in table order. */
  const DelimiterConds: seq<string> := ["==", "=", "<>", "!=", ">", ">=", "<", "<="]

  /** The conditions of an operator made of delimiters. */
  function DelimiterCondition(op: string): (r: Option<Conditions>)
    ensures r.Some? <==> op in DelimiterConds
  {
    if op == "==" || op == "=" then Some({Equal})
    else if op == "<>" || op == "!=" then Some({Not, Equal})
    else if op == ">" then Some({GreaterThan})
    else if op == ">=" then Some({GreaterThan, Equal})
    else if op == "<" then Some({LessThan})
    else if op == "<=" then Some({LessThan, Equal})
    else None
  }

  /** The conditions of an operator written as a word (already lower-cased). */
  function NameCondition(word: string): (r: Option<Conditions>)
    ensures r.Some? <==> word == "in" || word == "like"
  {
    if word == "in" then Some({In}) else if word == "like" then Some({Like}) else None
  }

  /** The canonical spelling of a condition set: the first table entry that yields it. */
  function OperatorText(cnd: Conditions): Option<string>
  {
    if cnd == {Equal} then Some("==")
    else if cnd == {Not, Equal} then Some("<>")
    else if cnd == {GreaterThan} then Some(">")
    else if cnd == {GreaterThan, Equal} then Some(">=")
    else if cnd == {LessThan} then Some("<")
    else if cnd == {LessThan, Equal} then Some("<=")
    else None
  }

  /** Every entry of the operator table has a canonical spelling that reads back as the same conditions. */
  lemma OperatorTableRoundTrip(op: string)
    requires op in DelimiterConds
    ensures OperatorText(DelimiterCondition(op).value).Some?
    ensures DelimiterCondition(OperatorText(DelimiterCondition(op).value).value) == DelimiterCondition(op)
  {
  }

  /** The word group operators: `and` and `or`, looked up lower-cased. */
  function NameGroup(word: string): (r: Option<GroupType>)
    ensures r == Some(And) <==> word == "and"
    ensures r == Some(Or) <==> word == "or"
  {
    if word == "and" then Some(And) else if word == "or" then Some(Or) else None
  }

  /** The delimiter group operators: `&&` and `||`, read over a run of delimiters. */
  function DelimiterGroup(op: string): (r: Option<GroupType>)
    ensures r == Some(And) <==> op == "&&"
    ensures r == Some(Or) <==> op == "||"
  {
    if op == "&&" then Some(And) else if op == "||" then Some(Or) else None
  }

  /**
   * `GetGroupType`: a group operator at the lexeme `[startIdx, endIdx)`, with
   * the index just past it (a delimiter operator extends over the delimiters after it).
   */
  function GetGroupType(lexemType: LexemType, s: string, startIdx: nat, endIdx: nat): (r: Result<Option<(GroupType, nat)>, SyntaxError>)
    requires startIdx <= endIdx <= |s|
    ensures r.Ok? && r.value.Some? ==> (lexemType == Name || lexemType == Delimiter) && endIdx <= r.value.value.1 <= |s|
    ensures lexemType == Name ==> r == Ok(if NameGroup(ToLower(GetLexem(s, startIdx, endIdx))).Some?
                                        then Some((NameGroup(ToLower(GetLexem(s, startIdx, endIdx))).value, endIdx)) else None)
    ensures lexemType == Delimiter ==> (r.Err? <==> endIdx == |s|)
    ensures lexemType == Delimiter && endIdx == |s| ==> r == Err(IndexOutOfRange)
    // a delimiter operator is read together with the delimiters that follow it
    ensures lexemType == Delimiter && endIdx < |s| ==>
      var e := DelimiterRunEnd(s, endIdx);
      r == Ok(if DelimiterGroup(GetLexem(s, startIdx, e)).Some?
              then Some((DelimiterGroup(GetLexem(s, startIdx, e)).value, e)) else None)
    ensures lexemType != Name && lexemType != Delimiter ==> r == Ok(None)
  {
    if lexemType == Name then
      match NameGroup(ToLower(GetLexem(s, startIdx, endIdx)))
      case Some(g) => Ok(Some((g, endIdx)))
      case None => Ok(None)
    else if lexemType == Delimiter then
      var e :- AllDelimiters(s, endIdx);
      match DelimiterGroup(GetLexem(s, startIdx, e))
      case Some(g) => Ok(Some((g, e)))
      case None => Ok(None)
    else Ok(None)
  }

  /**
   * `GetCondition`: a comparison operator at the lexeme `[startIdx, endIdx)`,
   * with the index just past it; `!` before an operator adds `Not` to it.
   */
  function GetCondition(lexemType: LexemType, s: string, startIdx: nat, endIdx: nat): (r: Result<Option<(Conditions, nat)>, SyntaxError>)
    requires startIdx <= endIdx <= |s|
    decreases |s| - startIdx
    ensures r.Ok? && r.value.Some? ==> (lexemType == Name || lexemType == Delimiter) && endIdx <= r.value.value.1 <= |s|
    ensures lexemType == Name ==> r == Ok(if NameCondition(ToLower(GetLexem(s, startIdx, endIdx))).Some?
                                        then Some((NameCondition(ToLower(GetLexem(s, startIdx, endIdx))).value, endIdx)) else None)
    ensures lexemType == Delimiter && endIdx == |s| ==> r == Err(IndexOutOfRange)
    // a delimiter operator is read together with the delimiters that follow it
    ensures lexemType == Delimiter && endIdx < |s| ==>
      var e := DelimiterRunEnd(s, endIdx);
      var op := GetLexem(s, startIdx, e);
      && (DelimiterCondition(op).Some? ==> r == Ok(Some((DelimiterCondition(op).value, e))))
      && (DelimiterCondition(op).None? && op != "!" ==> r == Ok(None))
      // `!` negates the operator after it; a missing one (`!` alone) reads as no operator
      && (op == "!" && Lex(s, e).Err? ==> r == Err(Lex(s, e).error))
      && (op == "!" && Lex(s, e).Ok? ==>
            var inner := GetCondition(Lex(s, e).value.0, s, e, Lex(s, e).value.1);
            && (inner.Err? ==> r == Err(inner.error))
            && (inner.Ok? && inner.value.None? ==> r == Ok(None))
            && (inner.Ok? && inner.value.Some? ==> r == Ok(Some((inner.value.value.0 + {Not}, inner.value.value.1)))))
    ensures lexemType != Name && lexemType != Delimiter ==> r == Ok(None)
  {
    if lexemType == Name then
      match NameCondition(ToLower(GetLexem(s, startIdx, endIdx)))
      case Some(c) => Ok(Some((c, endIdx)))
      case None => Ok(None)
    else if lexemType == Delimiter then
      var e :- AllDelimiters(s, endIdx);
      var op := GetLexem(s, startIdx, e);
      match DelimiterCondition(op)
      case Some(c) => Ok(Some((c, e)))
      case None =>
        if op == "!" then
          assert |s[startIdx..e]| > 0;
          var next :- Lex(s, e);
          var inner :- GetCondition(next.0, s, e, next.1);
          match inner
          case Some((c, innerEnd)) => Ok(Some((c + {Not}, innerEnd)))
          case None => Ok(None)
        else Ok(None)
    else Ok(None)
  }

  /** A `!` operator negates the condition read after it. */
  lemma NegationAddsNot(s: string, startIdx: nat, endIdx: nat)
    requires startIdx <= endIdx < |s|
    requires GetLexem(s, startIdx, DelimiterRunEnd(s, endIdx)) == "!"
    ensures var e := DelimiterRunEnd(s, endIdx);
            Lex(s, e).Ok? && GetCondition(Lex(s, e).value.0, s, e, Lex(s, e).value.1).Ok?
            && GetCondition(Lex(s, e).value.0, s, e, Lex(s, e).value.1).value.Some?
            ==> GetCondition(Delimiter, s, startIdx, endIdx)
                == Ok(Some((GetCondition(Lex(s, e).value.0, s, e, Lex(s, e).value.1).value.value.0 + {Not},
                            GetCondition(Lex(s, e).value.0, s, e, Lex(s, e).value.1).value.value.1)))
  {
  }

  /** The names of the `TypeCode` members, lower-cased. */
  const TypeNames: seq<string> := ["empty", "object", "dbnull", "boolean", "char", "sbyte", "byte", "int16", "uint16",
                                   "int32", "uint32", "int64", "uint64", "single", "double", "decimal", "datetime", "string"]

  /** `'\0' ; , '\t'`, in the order they are tried. */
  const ArraySeparators: seq<char> := ['\0', ';', ',', '\t']

  /** The first separator of `seps` that occurs in `str`. */
  function FirstPresent(seps: seq<char>, str: string): (r: Option<char>)
    ensures r.Some? ==> r.value in seps && r.value in str
    ensures r.None? <==> forall c :: c in seps ==> c !in str
  {
    if seps == [] then None
    else if seps[0] in str then Some(seps[0])
    else FirstPresent(seps[1..], str)
  }

  /** `SplitArrayValues`: the items of an array constant. */
  function ArrayValues(str: string): (r: seq<string>)
  {
    match FirstPresent(ArraySeparators, str)
    case Some(c) => Split(str, c)
    case None => [str]
  }

  /** The loop of `SplitArrayValues` over the separators, returning at the first one present. */
  method SplitArrayValues(str: string) returns (r: seq<string>)
    ensures r == ArrayValues(str)
  {
    for i := 0 to |ArraySeparators|
      invariant FirstPresent(ArraySeparators, str) == FirstPresent(ArraySeparators[i..], str)
    {
      assert ArraySeparators[i..][1..] == ArraySeparators[i + 1..];
      if ArraySeparators[i] in str {
        return Split(str, ArraySeparators[i]);
      }
    }
    return [str];
  }

  /**
   * The items joined with the separator they were split on give the text
   * back; a separator earlier in the order than that one occurs in no item.
   */
  lemma ArrayValuesRoundTrip(str: string)
    ensures FirstPresent(ArraySeparators, str).None? ==> ArrayValues(str) == [str]
    ensures FirstPresent(ArraySeparators, str).Some? ==>
      Join([FirstPresent(ArraySeparators, str).value], ArrayValues(str)) == str
    ensures forall k, item ::
      (0 <= k < |ArraySeparators| && item in ArrayValues(str) &&
       (FirstPresent(ArraySeparators, str).None? || k <= IndexOfChar(ArraySeparators, FirstPresent(ArraySeparators, str).value)))
      ==> ArraySeparators[k] !in item
  {
    match FirstPresent(ArraySeparators, str)
    case Some(c) =>
      JoinSplit(str, c);
      FirstPresentSkips(ArraySeparators, str);
      forall k, item | 0 <= k < |ArraySeparators| && item in ArrayValues(str) && k <= IndexOfChar(ArraySeparators, c)
        ensures ArraySeparators[k] !in item
      {
        if k < IndexOfChar(ArraySeparators, c) {
          SplitPiecesAvoid(str, c, ArraySeparators[k]);
        }
      }
    case None =>
  }

  function IndexOfChar(cs: seq<char>, c: char): (r: nat)
    ensures r <= |cs|
    ensures r < |cs| ==> cs[r] == c
    ensures forall k :: 0 <= k < r ==> cs[k] != c
  {
    if cs == [] || cs[0] == c then 0 else 1 + IndexOfChar(cs[1..], c)
  }

  lemma {:induction false} FirstPresentSkips(seps: seq<char>, str: string)
    ensures FirstPresent(seps, str).Some? ==>
      var i := IndexOfChar(seps, FirstPresent(seps, str).value);
      i < |seps| && forall k :: 0 <= k < i ==> seps[k] !in str
  {
    if seps != [] && seps[0] !in str {
      FirstPresentSkips(seps[1..], str);
      if FirstPresent(seps, str).Some? {
        var c := FirstPresent(seps, str).value;
        assert IndexOfChar(seps, c) == 1 + IndexOfChar(seps[1..], c);
        forall k | 0 <= k < IndexOfChar(seps, c)
          ensures seps[k] !in str
        {
          if k > 0 {
            assert seps[k] == seps[1..][k - 1];
          }
        }
      }
    }
  }

  /** A character that does not occur in the text occurs in none of its pieces. */
  lemma {:induction false} SplitPiecesAvoid(str: string, c: char, d: char)
    requires d !in str
    ensures forall item :: item in Split(str, c) ==> d !in item
  {
    if |str| > 0 {
      SplitPiecesAvoid(str[1..], c, d);
      assert forall x :: x in str[1..] ==> x in str;
    }
  }

  /** `ParseTypedConstant`: a constant written `"text":type`. */
  function ParseTypedConstant(typeName: string, constant: string): (r: Result<QueryValue, SyntaxError>)
    ensures ToLower(typeName) == "sql" ==> r == Ok(Raw(constant))
    ensures ToLower(typeName) in TypeNames ==> r == Ok(Const(TypedConst(ToLower(typeName), constant)))
    ensures r.Err? <==> ToLower(typeName) != "sql" && ToLower(typeName) !in TypeNames && !IsArrayTypeName(ToLower(typeName))
    ensures r.Ok? && r.value.Const? && r.value.value.TypedArrayConst? ==> r.value.value.items == ArrayValues(constant)
    ensures r.Ok? ==> !(r.value.Const? && r.value.value.TextConst?)
  {
    var name := ToLower(typeName);
    if name == "sql" then Ok(Raw(constant))
    else if name in TypeNames then Ok(Const(TypedConst(name, constant)))
    else if IsArrayTypeName(name) then Ok(Const(TypedArrayConst(name[..|name| - 2], ArrayValues(constant))))
    else Err(CannotParseTypedConstant(constant, name))
  }

  predicate IsArrayTypeName(name: string)
  {
    |name| >= 2 && name[|name| - 2..] == "[]" && name[..|name| - 2] in TypeNames
  }

  /** `IsNullValue`: a field named `null`, in any letter case. */
  function IsNullValue(v: QueryValue): (r: bool)
    ensures r <==> v.Field? && SpellsNull(v.field.name)
  {
    if v.Field? then NullSpelling(v.field.name); ToLower(v.field.name) == NullField else false
  }

  /** Each letter of `null`, in lower or upper case. */
  predicate SpellsNull(n: string)
  {
    |n| == |NullField| && forall k :: 0 <= k < |n| ==> n[k] == NullField[k] || n[k] as int == NullField[k] as int - 32
  }

  lemma NullSpelling(n: string)
    ensures ToLower(n) == NullField <==> SpellsNull(n)
  {
    if SpellsNull(n) {
      assert forall k :: 0 <= k < |n| ==> ToLower(n)[k] == NullField[k];
    }
  }

  /** `null` in any letter case is a null value once converted to a field. */
  lemma NullNameIsNullValue(p: Parser, lexem: string)
    requires KeepsPlainNames(p) && ToLower(lexem) == NullField
    ensures IsNullValue(Field(p.fieldOf(lexem)))
  {
  }

  /**
   * The condition node built from the operands: a comparison with `null`
   * becomes a null test, which only an operator containing `Equal` allows.
   */
  function NullRewrite(lhs: QueryValue, cnd: Conditions, rhs: QueryValue, position: nat): (r: Result<QueryNode, SyntaxError>)
    ensures r.Ok? ==> r.value.Cond? && r.value.lhs == lhs
    ensures !IsNullValue(rhs) ==> r == Ok(Cond(lhs, cnd, rhs))
    ensures IsNullValue(rhs) ==> (r.Ok? <==> Equal in cnd)
    ensures IsNullValue(rhs) && r.Ok? ==>
      && r.value.rhs == NoValue
      && Null in r.value.cnd && Equal !in r.value.cnd
      && r.value.cnd - {Null} == cnd - {Equal, Null}
  {
    if IsNullValue(rhs) then
      if Equal in cnd then Ok(Cond(lhs, {Null} + (cnd - {Equal}), NoValue)) else Err(NullComparison(position))
    else Ok(Cond(lhs, cnd, rhs))
  }

  /** `= null` is a null test, `!= null` (or `<> null`) its negation, `> null` an error. */
  lemma NullComparisons(lhs: QueryValue, rhs: QueryValue, position: nat)
    requires IsNullValue(rhs)
    ensures NullRewrite(lhs, DelimiterCondition("=").value, rhs, position) == Ok(Cond(lhs, {Null}, NoValue))
    ensures NullRewrite(lhs, DelimiterCondition("!=").value, rhs, position) == Ok(Cond(lhs, {Null, Not}, NoValue))
    ensures NullRewrite(lhs, DelimiterCondition(">").value, rhs, position).Err?
  {
    assert {Null} + ({Equal} - {Equal}) == {Null};
    assert {Null} + ({Not, Equal} - {Equal}) == {Null, Not};
  }

  /** The decimal digits of a natural number. */
  function NatText(n: nat): (r: string)
    ensures |r| > 0 && forall k :: 0 <= k < |r| ==> IsDigit(r[k])
  {
    if n < 10 then [('0' as int + n) as char] else NatText(n / 10) + [('0' as int + n % 10) as char]
  }

  /** `Object.ToString` of an integer. */
  function IntText(i: int): string
  {
    if i < 0 then "-" + NatText(-i) else NatText(i)
  }

  function DigitsValue(d: string): nat
  {
    if d == [] then 0
    else DigitsValue(d[..|d| - 1]) * 10 + (if IsDigit(d[|d| - 1]) then d[|d| - 1] as int - '0' as int else 0)
  }

  predicate AllDigits(d: string)
  {
    forall k :: 0 <= k < |d| ==> IsDigit(d[k])
  }

  /** `Int32.Parse`: an optional sign and decimal digits, within the 32-bit range. */
  function ParseInt32(text: string): (r: Result<int, SyntaxError>)
    ensures r.Ok? ==> -0x8000_0000 <= r.value <= 0x7FFF_FFFF
  {
    var negative := |text| > 0 && text[0] == '-';
    var digits := if |text| > 0 && (text[0] == '-' || text[0] == '+') then text[1..] else text;
    if digits == [] || !AllDigits(digits) then Err(InvalidNumber(text))
    else
      var v: int := if negative then -(DigitsValue(digits) as int) else DigitsValue(digits);
      if -0x8000_0000 <= v <= 0x7FFF_FFFF then Ok(v) else Err(InvalidNumber(text))
  }

  lemma {:induction false} DigitsOfNat(n: nat)
    ensures DigitsValue(NatText(n)) == n
  {
    if n >= 10 {
      DigitsOfNat(n / 10);
      var t := NatText(n / 10) + [('0' as int + n % 10) as char];
      assert t[..|t| - 1] == NatText(n / 10);
    }
  }

  /** An integer written in decimal reads back as itself. */
  lemma Int32RoundTrip(i: int)
    requires -0x8000_0000 <= i <= 0x7FFF_FFFF
    ensures ParseInt32(IntText(i)) == Ok(i)
  {
    var n: nat := if i < 0 then -i else i;
    var text := IntText(i);
    assert AllDigits(NatText(n)) && DigitsValue(NatText(n)) == n by {
      DigitsOfNat(n);
    }
    if i < 0 {
      assert text[0] == '-' && text[1..] == NatText(n) by {
        assert text == "-" + NatText(n);
      }
    } else {
      assert text == NatText(n) && IsDigit(text[0]);
    }
  }

  /** `QConst.Value.ToString()`; a converted array prints as its .NET type name. */
  function ConstText(c: ConstValue): (r: string)
    ensures c.TextConst? || c.TypedConst? ==> r == c.text
    ensures c.TypedArrayConst? ==> r == "System.Object[]"
    // a 32-bit integer prints as text that parses back to it
    ensures c.IntConst? && -0x8000_0000 <= c.i <= 0x7FFF_FFFF ==> ParseInt32(r) == Ok(c.i)
  {
    if c.IntConst? && -0x8000_0000 <= c.i <= 0x7FFF_FFFF then Int32RoundTrip(c.i); IntText(c.i) else
    match c
    case IntConst(i) => IntText(i)
    case TextConst(t) => t
    case TypedConst(_, t) => t
    case TypedArrayConst(_, _) => "System.Object[]"
  }

  /**
   * The rest of the field list after its first lexeme: lexemes are appended
   * (quoted ones unquoted) up to `]` or the end of the input.
   */
  function FieldListText(s: string, endIdx: nat, acc: string): (r: Result<(string, nat), SyntaxError>)
    requires endIdx <= |s|
    decreases |s| - endIdx
    ensures r.Ok? ==> endIdx <= r.value.1 <= |s|
  {
    var next :- Lex(s, endIdx);
    var lexem :- GetLexemOf(s, endIdx, next.1, next.0);
    if next.0 == Delimiter && lexem == "]" then Ok((acc, next.1))
    else if next.0 == Stop then Ok((acc, next.1))
    else FieldListText(s, next.1, acc + lexem)
  }

  /** The do-while loop that collects the field list into a string builder. */
  method ReadFieldList(s: string, startIdx: nat, first: string) returns (r: Result<(string, nat), SyntaxError>)
    requires startIdx <= |s|
    ensures r == FieldListText(s, startIdx, first)
  {
    var builder := first;
    var endIdx := startIdx;
    while true
      invariant endIdx <= |s|
      invariant FieldListText(s, endIdx, builder) == FieldListText(s, startIdx, first)
      decreases |s| - endIdx
    {
      var next := Lex(s, endIdx);
      if next.Err? {
        return Err(next.error);
      }
      var lexem := GetLexemOf(s, endIdx, next.value.1, next.value.0);
      if lexem.Err? {
        return Err(lexem.error);
      }
      if next.value.0 == Delimiter && lexem.value == "]" {
        return Ok((builder, next.value.1));
      }
      if next.value.0 == Stop {
        return Ok((builder, next.value.1));
      }
      builder := builder + lexem.value;
      endIdx := next.value.1;
    }
  }

  function MakeQuery(p: Parser, sourceName: string, condition: Option<QueryNode>, fields: Option<seq<string>>, paging: Option<Paging>)
    : (q: Query)
    ensures q.table == p.tableOf(sourceName) && q.condition == condition && q.paging == paging && q.sort == []
    ensures fields.None? <==> q.fields.None?
    ensures fields.Some? ==>
      |q.fields.value| == |fields.value| && forall k :: 0 <= k < |fields.value| ==> q.fields.value[k] == p.fieldOf(fields.value[k])
  {
    Query(p.tableOf(sourceName),
          if fields.None? then None else Some(seq(|fields.value|, k requires 0 <= k < |fields.value| => p.fieldOf(fields.value[k]))),
          condition, [], paging)
  }

  /** The optional `{start,count}` record range after the field list, then the query itself. */
  function ParseRecordRange(p: Parser, s: string, sourceName: string, condition: Option<QueryNode>,
                            fields: Option<seq<string>>, endIdx: nat): (r: Result<(QueryValue, nat), SyntaxError>)
    requires endIdx <= |s|
    ensures r.Ok? ==> endIdx <= r.value.1 <= |s|
    ensures r.Ok? ==>
      r.value.0.SubQuery? && r.value.0.query.table == p.tableOf(sourceName)
      && r.value.0.query.condition == condition && (r.value.0.query.fields.None? <==> fields.None?)
  {
    var open :- Lex(s, endIdx);
    if !(open.0 == Delimiter && GetLexem(s, endIdx, open.1) == "{") then
      Ok((SubQuery(MakeQuery(p, sourceName, condition, fields, None)), endIdx))
    else
      var a :- Lex(s, open.1);
      if a.0 != Constant then Err(InvalidSyntax(open.1))
      else
        var start :- ParseInt32(GetLexem(s, open.1, a.1));
        var comma :- Lex(s, a.1);
        if !(comma.0 == Delimiter && GetLexem(s, a.1, comma.1) == ",") then Err(InvalidSyntax(a.1))
        else
          var b :- Lex(s, comma.1);
          if b.0 != Constant then Err(InvalidSyntax(comma.1))
          else
            var count :- ParseInt32(GetLexem(s, comma.1, b.1));
            var close :- Lex(s, b.1);
            if !(close.0 == Delimiter && GetLexem(s, b.1, close.1) == "}") then Err(InvalidSyntax(b.1))
            else Ok((SubQuery(MakeQuery(p, sourceName, condition, fields, Some(Paging(start, count)))), close.1))
  }

  /**
   * What follows a source name (and its condition): a field list in brackets
   * makes a query; without one the name is a constant, or a field when dump
   * constants are off or the name is `null`.
   */
  function ParseProjection(p: Parser, s: string, sourceName: string, condition: Option<QueryNode>,
                           nextType: LexemType, nextLexem: string, endIdx: nat, nextEndIdx: nat)
    : (r: Result<(QueryValue, nat), SyntaxError>)
    requires endIdx <= |s| && nextEndIdx <= |s|
    ensures r.Ok? ==> r.value.1 <= |s| && (r.value.1 >= endIdx || r.value.1 >= nextEndIdx)
    ensures !(nextType == Delimiter && nextLexem == "[") ==>
      r == Ok((if p.allowDumpConstants && ToLower(sourceName) != NullField then Const(TextConst(sourceName))
               else Field(p.fieldOf(sourceName)), endIdx))
    ensures nextType == Delimiter && nextLexem == "[" && r.Ok? ==> r.value.0.SubQuery?
  {
    if nextType == Delimiter && nextLexem == "[" then
      var first :- Lex(s, nextEndIdx);
      var firstLexem :- GetLexemOf(s, nextEndIdx, first.1, first.0);
      if first.0 == Delimiter && firstLexem == "*" then
        var close :- Lex(s, first.1);
        if !(close.0 == Delimiter && GetLexem(s, first.1, close.1) == "]") then Err(InvalidSyntax(first.1))
        else ParseRecordRange(p, s, sourceName, condition, None, close.1)
      else
        var list :- FieldListText(s, first.1, firstLexem);
        ParseRecordRange(p, s, sourceName, condition, Some(Split(list.0, ',')), list.1)
    else
      Ok((if p.allowDumpConstants && ToLower(sourceName) != NullField then Const(TextConst(sourceName))
          else Field(p.fieldOf(sourceName)), endIdx))
  }

  /** A quoted constant, possibly typed by `:type` or `:type[]` after it. */
  function ParseQuoted(s: string, startIdx: nat, endIdx: nat): (r: Result<(QueryValue, nat), SyntaxError>)
    requires startIdx <= endIdx <= |s|
    ensures r.Ok? ==> endIdx <= r.value.1 <= |s|
    ensures r.Ok? ==> Unquote(GetLexem(s, startIdx, endIdx)).Ok?
    // an untyped constant is the unquoted text; a typed one has consumed its `:type`
    ensures r.Ok? ==>
      (r.value.1 == endIdx <==> r.value.0 == Const(TextConst(Unquote(GetLexem(s, startIdx, endIdx)).value)))
    // `"text":type` and `"text":type[]` are converted by the type name
    ensures QuotedTypeStart(s, startIdx, endIdx).Some? ==>
      var (constant, typeStart, typeEnd) := QuotedTypeStart(s, startIdx, endIdx).value;
      r == ParseTypeSuffix(s, constant, typeStart, typeEnd)
  {
    var constant :- Unquote(GetLexem(s, startIdx, endIdx));
    var colon :- Lex(s, endIdx);
    if !(colon.0 == Delimiter && GetLexem(s, endIdx, colon.1) == ":") then Ok((Const(TextConst(constant)), endIdx))
    else
      var typeLexem :- Lex(s, colon.1);
      if typeLexem.0 != Name then Ok((Const(TextConst(constant)), endIdx))
      else ParseTypeSuffix(s, constant, colon.1, typeLexem.1)
  }

  /**
   * The constant typed by the name `[typeStart, typeEnd)`: `type[]` when `[]`
   * follows the name, `type` otherwise (a `[` without `]` is left unread).
   */
  function ParseTypeSuffix(s: string, constant: string, typeStart: nat, typeEnd: nat): (r: Result<(QueryValue, nat), SyntaxError>)
    requires typeStart <= typeEnd <= |s|
    ensures r.Ok? ==> typeEnd <= r.value.1 <= |s|
    ensures r.Ok? ==> !(r.value.0.Const? && r.value.0.value.TextConst?)
    ensures Lex(s, typeEnd).Ok? && !(Lex(s, typeEnd).value.0 == Delimiter && GetLexem(s, typeEnd, Lex(s, typeEnd).value.1) == "[") ==>
      var v := ParseTypedConstant(GetLexem(s, typeStart, typeEnd), constant);
      && (v.Err? ==> r == Err(v.error))
      && (v.Ok? ==> r == Ok((v.value, typeEnd)))
    ensures Lex(s, typeEnd).Ok? && Lex(s, typeEnd).value.0 == Delimiter && GetLexem(s, typeEnd, Lex(s, typeEnd).value.1) == "["
            && Lex(s, Lex(s, typeEnd).value.1).Ok? ==>
      var openEnd := Lex(s, typeEnd).value.1;
      var close := Lex(s, openEnd).value;
      var isArray := close.0 == Delimiter && GetLexem(s, openEnd, close.1) == "]";
      var v := ParseTypedConstant(if isArray then GetLexem(s, typeStart, typeEnd) + "[]" else GetLexem(s, typeStart, typeEnd), constant);
      && (v.Err? ==> r == Err(v.error))
      && (v.Ok? ==> r == Ok((v.value, if isArray then close.1 else typeEnd)))
  {
    var typeName := GetLexem(s, typeStart, typeEnd);
    var open :- Lex(s, typeEnd);
    if !(open.0 == Delimiter && GetLexem(s, typeEnd, open.1) == "[") then
      var v :- ParseTypedConstant(typeName, constant);
      Ok((v, typeEnd))
    else
      var close :- Lex(s, open.1);
      if close.0 == Delimiter && GetLexem(s, open.1, close.1) == "]" then
        var v :- ParseTypedConstant(typeName + "[]", constant);
        Ok((v, close.1))
      else
        var v :- ParseTypedConstant(typeName, constant);
        Ok((v, typeEnd))
  }

  /**
   * The unquoted text of a quoted constant followed by `:` and a type name, and
   * the bounds of that name; `None` when no type follows.
   */
  function QuotedTypeStart(s: string, startIdx: nat, endIdx: nat): Option<(string, nat, nat)>
    requires startIdx <= endIdx <= |s|
  {
    var constant := Unquote(GetLexem(s, startIdx, endIdx));
    var colon := Lex(s, endIdx);
    if constant.Err? || colon.Err? then None
    else if !(colon.value.0 == Delimiter && GetLexem(s, endIdx, colon.value.1) == ":") then None
    else
      var typeLexem := Lex(s, colon.value.1);
      if typeLexem.Err? || typeLexem.value.0 != Name then None
      else Some((constant.value, colon.value.1, typeLexem.value.1))
  }

  /** `ParseInternal`: a value (constant, field or query) starting at `startIdx`, and the index past it. */
  function ParseInternal(p: Parser, s: string, startIdx: nat): (r: Result<(QueryValue, nat), SyntaxError>)
    requires startIdx <= |s|
    decreases |s| - startIdx, 1
    ensures r.Ok? ==> startIdx <= r.value.1 <= |s|
    ensures Lex(s, startIdx).Ok? && Lex(s, startIdx).value.0 == Constant ==>
      r == Ok((Const(TextConst(GetLexem(s, startIdx, Lex(s, startIdx).value.1))), Lex(s, startIdx).value.1))
    ensures Lex(s, startIdx).Ok? && (Lex(s, startIdx).value.0 == Delimiter || Lex(s, startIdx).value.0 == Stop) ==>
      r == Err(InvalidSyntax(Lex(s, startIdx).value.1))
    ensures Lex(s, startIdx).Ok? && Lex(s, startIdx).value.0 == QuotedConstant ==>
      r == ParseQuoted(s, startIdx, Lex(s, startIdx).value.1)
    // a name starts a query over that source, or stands for a field or constant
    ensures Lex(s, startIdx).Ok? && Lex(s, startIdx).value.0 == Name ==>
      r == ParseSource(p, s, GetLexem(s, startIdx, Lex(s, startIdx).value.1), Lex(s, startIdx).value.1)
  {
    var first :- Lex(s, startIdx);
    var lexem := GetLexem(s, startIdx, first.1);
    if first.0 == Constant then Ok((Const(TextConst(lexem)), first.1))
    else if first.0 == QuotedConstant then ParseQuoted(s, startIdx, first.1)
    else if first.0 == Name then ParseSource(p, s, lexem, first.1)
    else Err(InvalidSyntax(first.1))
  }

  /** A name lexeme ending at `endIdx`: a query over that source, or a constant or field. */
  function ParseSource(p: Parser, s: string, sourceName: string, endIdx: nat): (r: Result<(QueryValue, nat), SyntaxError>)
    requires 0 < endIdx <= |s|
    decreases |s| - endIdx + 1, 0
    ensures r.Ok? ==> endIdx <= r.value.1 <= |s|
    // without `(` after the name, the projection decides at once
    ensures Lex(s, endIdx).Ok? && !(Lex(s, endIdx).value.0 == Delimiter && GetLexem(s, endIdx, Lex(s, endIdx).value.1) == "(") ==>
      r == ParseProjection(p, s, sourceName, None, Lex(s, endIdx).value.0, GetLexem(s, endIdx, Lex(s, endIdx).value.1),
                           endIdx, Lex(s, endIdx).value.1)
  {
    var next :- Lex(s, endIdx);
    var nextLexem := GetLexem(s, endIdx, next.1);
    if next.0 == Delimiter && nextLexem == "(" then
      var group :- ParseConditionGroup(p, s, next.1);
      var close :- Lex(s, group.1);
      if !(close.0 == Delimiter && GetLexem(s, group.1, close.1) == ")") then Err(InvalidSyntax(group.1))
      else
        var after :- Lex(s, close.1);
        ParseProjection(p, s, sourceName, group.0, after.0, GetLexem(s, close.1, after.1), after.1, after.1)
    else
      ParseProjection(p, s, sourceName, None, next.0, nextLexem, endIdx, next.1)
  }

  /** `ParseNodeName`: an optional `<name>` right after an opening parenthesis. */
  function ParseNodeName(s: string, startIdx: nat): (r: Result<(Option<string>, nat), SyntaxError>)
    requires startIdx <= |s|
    ensures r.Ok? ==> startIdx <= r.value.1 <= |s|
    ensures r.Ok? && r.value.0.None? ==> r.value.1 == startIdx
  {
    var open :- Lex(s, startIdx);
    if !(open.0 == Delimiter && GetLexem(s, startIdx, open.1) == "<") then Ok((None, startIdx))
    else
      var name :- Lex(s, open.1);
      if name.0 != Name && name.0 != Constant && name.0 != QuotedConstant then Err(NodeNameExpected(open.1))
      else
        var close :- Lex(s, name.1);
        if !(close.0 == Delimiter && GetLexem(s, name.1, close.1) == ">") then Err(InvalidSyntax(name.1))
        else Ok((Some(GetLexem(s, open.1, name.1)), close.1))
  }

  /** A group every node of which has no children or exactly two. */
  predicate BinaryGroups(n: QueryNode)
  {
    match n
    case Cond(_, _, _) => true
    case Group(_, nodes) =>
      (|nodes| == 0 || |nodes| == 2) && forall k :: 0 <= k < |nodes| && nodes[k].Some? ==> BinaryGroups(nodes[k].value)
  }

  /**
   * `ParseConditionGroup`: a condition or a parenthesised group, followed
   * optionally by a group operator and the rest; chains nest to the right.
   */
  function ParseConditionGroup(p: Parser, s: string, startIdx: nat): (r: Result<(Option<QueryNode>, nat), SyntaxError>)
    requires startIdx <= |s|
    decreases |s| - startIdx, 4
    ensures r.Ok? ==> startIdx <= r.value.1 <= |s|
    ensures r.Ok? && r.value.0.Some? ==> BinaryGroups(r.value.0.value)
    ensures r.Ok? ==>
      var head := ParseGroupHead(p, s, startIdx);
      head.Ok? &&
      (r.value == head.value ||
       (r.value.0.Some? && r.value.0.value.Group? && |r.value.0.value.nodes| == 2 && r.value.0.value.nodes[0] == head.value.0))
    // the lexeme after the head decides: no group operator ends the group, one joins the head to the rest
    ensures ParseGroupHead(p, s, startIdx).Ok? && Lex(s, ParseGroupHead(p, s, startIdx).value.1).Ok? ==>
      var head := ParseGroupHead(p, s, startIdx).value;
      var op := Lex(s, head.1).value;
      var groupType := GetGroupType(op.0, s, head.1, op.1);
      && (groupType.Err? ==> r == Err(groupType.error))
      && (groupType.Ok? && groupType.value.None? ==> r == Ok(head))
      && (groupType.Ok? && groupType.value.Some? ==>
            var rest := ParseConditionGroup(p, s, groupType.value.value.1);
            && (rest.Err? ==> r == Err(rest.error))
            && (rest.Ok? ==> r == Ok((Some(Group(groupType.value.value.0, [head.0, rest.value.0])), rest.value.1))))
  {
    var head :- ParseGroupHead(p, s, startIdx);
    var op :- Lex(s, head.1);
    var groupType :- GetGroupType(op.0, s, head.1, op.1);
    if groupType.Some? then
      var rest :- ParseConditionGroup(p, s, groupType.value.1);
      Ok((Some(Group(groupType.value.0, [head.0, rest.0])), rest.1))
    else Ok(head)
  }

  /**
   * The operand of a group: `(`, an optional node name, an optional inner
   * group and `)`; or a single condition. A named empty group is an empty `And` group.
   */
  function ParseGroupHead(p: Parser, s: string, startIdx: nat): (r: Result<(Option<QueryNode>, nat), SyntaxError>)
    requires startIdx <= |s|
    decreases |s| - startIdx, 3
    ensures r.Ok? ==> startIdx <= r.value.1 <= |s|
    ensures r.Ok? && r.value.0.Some? ==> BinaryGroups(r.value.0.value)
  {
    var first :- Lex(s, startIdx);
    if first.0 == Delimiter && GetLexem(s, startIdx, first.1) == "(" then
      var nodeName :- ParseNodeName(s, first.1);
      var peek :- Lex(s, nodeName.1);
      var inner :-
        if peek.0 == Delimiter && GetLexem(s, nodeName.1, peek.1) == ")" then Ok((None, nodeName.1))
        else ParseConditionGroup(p, s, nodeName.1);
      var close :- Lex(s, inner.1);
      if close.0 == Delimiter && GetLexem(s, inner.1, close.1) == ")" then
        Ok((if nodeName.0.Some? && inner.0.None? then Some(Group(And, [])) else inner.0, close.1))
      else Err(InvalidSyntax(inner.1))
    else
      var condition :- ParseCondition(p, s, startIdx);
      Ok((Some(condition.0), condition.1))
  }

  /** The left operand of a condition: with dump constants on, a constant stands for the field of that name. */
  function LeftOperand(p: Parser, v: QueryValue): QueryValue
  {
    if p.allowDumpConstants && v.Const? then Field(p.fieldOf(ConstText(v.value))) else v
  }

  /** `ParseCondition`: `value operator value`. */
  function ParseCondition(p: Parser, s: string, startIdx: nat): (r: Result<(QueryNode, nat), SyntaxError>)
    requires startIdx <= |s|
    decreases |s| - startIdx, 2
    ensures r.Ok? ==> startIdx <= r.value.1 <= |s| && r.value.0.Cond?
    // the left operand is the first value read, a constant turned into a field when dump constants are on
    ensures r.Ok? ==> ParseInternal(p, s, startIdx).Ok?
    ensures r.Ok? && !(p.allowDumpConstants && ParseInternal(p, s, startIdx).value.0.Const?) ==>
      r.value.0.lhs == ParseInternal(p, s, startIdx).value.0
    ensures r.Ok? && p.allowDumpConstants ==> !r.value.0.lhs.Const?
    // the node is the operator between the two operands, with the comparison to `null` rewritten
    ensures r.Ok? ==>
      var left := ParseInternal(p, s, startIdx).value;
      && Lex(s, left.1).Ok?
      && var cnd := GetCondition(Lex(s, left.1).value.0, s, left.1, Lex(s, left.1).value.1);
         && cnd.Ok? && cnd.value.Some?
         && ParseInternal(p, s, cnd.value.value.1).Ok?
         && Ok(r.value.0) == NullRewrite(LeftOperand(p, left.0), cnd.value.value.0,
                                         ParseInternal(p, s, cnd.value.value.1).value.0, startIdx)
         && r.value.1 == ParseInternal(p, s, cnd.value.value.1).value.1
    // no operator after the left operand
    ensures ParseInternal(p, s, startIdx).Ok? && Lex(s, ParseInternal(p, s, startIdx).value.1).Ok? ==>
      var left := ParseInternal(p, s, startIdx).value;
      var cnd := GetCondition(Lex(s, left.1).value.0, s, left.1, Lex(s, left.1).value.1);
      cnd.Ok? && cnd.value.None? ==> r == Err(InvalidSyntax(startIdx))
  {
    var left :- ParseInternal(p, s, startIdx);
    var lhs := LeftOperand(p, left.0);
    var op :- Lex(s, left.1);
    var cnd :- GetCondition(op.0, s, left.1, op.1);
    if cnd.None? then Err(InvalidSyntax(startIdx))
    else
      var right :- ParseInternal(p, s, cnd.value.1);
      var node :- NullRewrite(lhs, cnd.value.0, right.0, startIdx);
      Ok((node, right.1))
  }

  /** `Parse`: the whole expression must be a query. */
  function Parse(p: Parser, relEx: string): (r: Result<Query, SyntaxError>)
    ensures r.Ok? ==> ParseInternal(p, relEx, 0).Ok? && ParseInternal(p, relEx, 0).value.0 == SubQuery(r.value)
    ensures ParseInternal(p, relEx, 0).Ok? && !ParseInternal(p, relEx, 0).value.0.SubQuery? ==> r == Err(NotAQuery)
  {
    var value :- ParseInternal(p, relEx, 0);
    if value.0.SubQuery? then Ok(value.0.query) else Err(NotAQuery)
  }

  /**
   * A name followed by a delimiter other than `(` and `[` is no query: it
   * stands for the field of that name, or for a constant when dump constants
   * are on (except for `null`), and ends where the name ends.
   */
  lemma NameOperand(p: Parser, s: string, i: nat, e: nat)
    requires i < e < |s| && Lex(s, i) == Ok((Name, e))
    requires Lex(s, e).Ok? && Lex(s, e).value.0 == Delimiter
    requires GetLexem(s, e, Lex(s, e).value.1) != "(" && GetLexem(s, e, Lex(s, e).value.1) != "["
    ensures var name := GetLexem(s, i, e);
      ParseInternal(p, s, i) ==
        Ok((if p.allowDumpConstants && ToLower(name) != NullField then Const(TextConst(name)) else Field(p.fieldOf(name)), e))
  {
  }

  /** A condition `name = constant` parses as one condition that ends with the constant. */
  lemma NameEqualsConstant(p: Parser, s: string, a: nat, b: nat, d: nat)
    requires a < b && b + 1 < d <= |s|
    requires Lex(s, a) == Ok((Name, b)) && Lex(s, b) == Ok((Delimiter, b + 1)) && s[b] == '='
    requires !IsDelimiter(s[b + 1]) && Lex(s, b + 1) == Ok((Constant, d))
    ensures ParseGroupHead(p, s, a).Ok? && ParseGroupHead(p, s, a).value.1 == d
  {
    NameEqualsConstantCondition(p, s, a, b, d);
  }

  /** The condition read by `NameEqualsConstant`. */
  lemma NameEqualsConstantCondition(p: Parser, s: string, a: nat, b: nat, d: nat)
    requires a < b && b + 1 < d <= |s|
    requires Lex(s, a) == Ok((Name, b)) && Lex(s, b) == Ok((Delimiter, b + 1)) && s[b] == '='
    requires !IsDelimiter(s[b + 1]) && Lex(s, b + 1) == Ok((Constant, d))
    ensures ParseCondition(p, s, a).Ok? && ParseCondition(p, s, a).value.1 == d
  {
    EqualsOperator(s, b);
    NameOperand(p, s, a, b);
    var right := Const(TextConst(GetLexem(s, b + 1, d)));
    assert ParseInternal(p, s, b + 1) == Ok((right, d));
    assert NullRewrite(LeftOperand(p, ParseInternal(p, s, a).value.0), {Equal}, right, a).Ok? by {
      assert !IsNullValue(right);
    }
  }

  /** A lone `=` is the `Equal` operator. */
  lemma EqualsOperator(s: string, b: nat)
    requires b + 1 < |s| && s[b] == '=' && !IsDelimiter(s[b + 1])
    ensures GetLexem(s, b, b + 1) == "="
    ensures GetCondition(Delimiter, s, b, b + 1) == Ok(Some(({Equal}, b + 1)))
  {
    SingleCharLexem(s, b);
    assert DelimiterRunEnd(s, b + 1) == b + 1;
  }

  /** A query whose condition group is closed by the last character of the input. */
  const ClosedAtEnd: string := "t(a=1)"

  /** Its words: the names `t` and `a` and the constant `1`, each ended by a delimiter. */
  lemma ClosedAtEndWords()
    ensures Lex(ClosedAtEnd, 0) == Ok((Name, 1)) && Lex(ClosedAtEnd, 2) == Ok((Name, 3))
    ensures Lex(ClosedAtEnd, 4) == Ok((Constant, 5))
  {
    var s := ClosedAtEnd;
    assert IsLetter(s[0]) && WordEnd(s, 1) == 1 by { assert IsDelimiter(s[1]); }
    LexName(s, 0);
    assert IsLetter(s[2]) && WordEnd(s, 3) == 3 by { assert IsDelimiter(s[3]); }
    LexName(s, 2);
    assert IsDigit(s[4]) && WordEnd(s, 5) == 5 by { assert IsDelimiter(s[5]); }
    LexConstant(s, 4);
  }

  /** Its delimiters: `(`, `=` and `)`. */
  lemma ClosedAtEndDelimiters()
    ensures Lex(ClosedAtEnd, 1) == Ok((Delimiter, 2)) && Lex(ClosedAtEnd, 3) == Ok((Delimiter, 4))
    ensures Lex(ClosedAtEnd, 5) == Ok((Delimiter, 6))
  {
    var s := ClosedAtEnd;
    assert IsDelimiter(s[1]) && IsDelimiter(s[3]) && IsDelimiter(s[5]);
    DelimiterStandsAlone(s, 1, 1, 1);
    DelimiterStandsAlone(s, 3, 3, 3);
    DelimiterStandsAlone(s, 5, 5, 5);
  }

  /**
   * Such a query fails: the group operator is looked for after `)`, where
   * `GetAllDelimiters` reads past the end of the input.
   */
  lemma ClosingParenthesisAtEnd(p: Parser)
    ensures Parse(p, ClosedAtEnd) == Err(IndexOutOfRange)
  {
    ClosedAtEndWords();
    ClosedAtEndDelimiters();
    NameEqualsConstant(p, ClosedAtEnd, 2, 3, 5);
    GroupClosedAtEndFails(p, ClosedAtEnd, 1, 5);
  }

  /**
   * Any query `name(...)` whose group is followed by a delimiter that ends the
   * input fails with `IndexOutOfRange`.
   */
  lemma GroupClosedAtEndFails(p: Parser, s: string, e: nat, j: nat)
    requires 0 < e < |s| && Lex(s, 0) == Ok((Name, e))
    requires Lex(s, e) == Ok((Delimiter, e + 1)) && s[e] == '('
    requires e + 1 <= j <= |s| && ParseGroupHead(p, s, e + 1).Ok? && ParseGroupHead(p, s, e + 1).value.1 == j
    requires Lex(s, j) == Ok((Delimiter, |s|))
    ensures Parse(p, s) == Err(IndexOutOfRange)
  {
    GroupHeadClosedAtEndFails(p, s, e + 1, j);
    SourceGroupFails(p, s, GetLexem(s, 0, e), e);
    assert ParseInternal(p, s, 0) == Err(IndexOutOfRange);
  }

  /** A source followed by `(` fails as its condition group fails. */
  lemma SourceGroupFails(p: Parser, s: string, name: string, e: nat)
    requires 0 < e < |s| && Lex(s, e) == Ok((Delimiter, e + 1)) && s[e] == '('
    requires ParseConditionGroup(p, s, e + 1).Err?
    ensures ParseSource(p, s, name, e) == Err(ParseConditionGroup(p, s, e + 1).error)
  {
    SingleCharLexem(s, e);
  }

  /** A group whose head is followed by a delimiter that ends the input fails with `IndexOutOfRange`. */
  lemma GroupHeadClosedAtEndFails(p: Parser, s: string, i: nat, j: nat)
    requires i <= j <= |s| && ParseGroupHead(p, s, i).Ok? && ParseGroupHead(p, s, i).value.1 == j
    requires Lex(s, j) == Ok((Delimiter, |s|))
    ensures ParseConditionGroup(p, s, i) == Err(IndexOutOfRange)
  {
    assert GetGroupType(Delimiter, s, j, |s|) == Err(IndexOutOfRange);
  }
}

=== FILE: strings.dfy ===
/** String helpers with .NET semantics: `String.Join` and `String.Split(char)`. */
module Strings {

  /** `String.Join(sep, parts)`. */
  function Join(sep: string, parts: seq<string>): (r: string)
    ensures |parts| == 0 ==> r == ""
    // the text starts with the first part, and the separator follows it when more parts come
    ensures |parts| > 0 ==> |parts[0]| <= |r| && r[..|parts[0]|] == parts[0]
    ensures |parts| > 1 ==> r[|parts[0]|..] == sep + Join(sep, parts[1..])
  {
    if |parts| == 0 then ""
    else if |parts| == 1 then parts[0]
    else parts[0] + sep + Join(sep, parts[1..])
  }

  /** `String.Split(c)`: the pieces between occurrences of `c`, empty pieces kept. */
  function Split(s: string, c: char): (r: seq<string>)
    ensures |r| >= 1
    ensures forall i :: 0 <= i < |r| ==> c !in r[i]
  {
    if |s| == 0 then [""]
    else
      var rest := Split(s[1..], c);
      if s[0] == c then [""] + rest
      else [[s[0]] + rest[0]] + rest[1..]
  }

  /** Joining the pieces of a split with the same separator gives the string back. */
  lemma {:induction false} JoinSplit(s: string, c: char)
    ensures Join([c], Split(s, c)) == s
  {
    if |s| > 0 {
      JoinSplit(s[1..], c);
      var rest := Split(s[1..], c);
      if s[0] != c {
        if |rest| > 1 {
          assert Join([c], [[s[0]] + rest[0]] + rest[1..])
              == [s[0]] + rest[0] + [c] + Join([c], rest[1..]);
          assert Join([c], rest) == rest[0] + [c] + Join([c], rest[1..]);
        }
      }
    }
  }

  /** Splitting a string that does not contain the separator yields the string alone. */
  lemma {:induction false} SplitAbsent(s: string, c: char)
    requires c !in s
    ensures Split(s, c) == [s]
  {
    if |s| > 0 {
      SplitAbsent(s[1..], c);
      assert [s[0]] + s[1..] == s;
    }
  }

  /** A separator after a piece free of it splits off exactly that piece. */
  lemma {:induction false} SplitAfterPiece(x: string, y: string, c: char)
    requires c !in x
    ensures Split(x + [c] + y, c) == [x] + Split(y, c)
  {
    var s := x + [c] + y;
    if |x| == 0 {
      assert s[1..] == y;
    } else {
      SplitAfterPiece(x[1..], y, c);
      assert s[1..] == x[1..] + [c] + y;
      assert [x[0]] + x[1..] == x;
    }
  }

  /** Splitting pieces joined with a separator none of them contains gives the pieces back. */
  lemma {:induction false} SplitJoin(parts: seq<string>, c: char)
    requires |parts| >= 1
    requires forall k :: 0 <= k < |parts| ==> c !in parts[k]
    ensures Split(Join([c], parts), c) == parts
  {
    if |parts| == 1 {
      SplitAbsent(parts[0], c);
    } else {
      SplitJoin(parts[1..], c);
      SplitAfterPiece(parts[0], Join([c], parts[1..]), c);
      assert [parts[0]] + parts[1..] == parts;
    }
  }
}

=== FILE: wrappers.dfy ===
/** Option and Result, used wherever the source returns null or throws. */
module Wrappers {

  /** `None` stands for a C# null reference. */
  datatype Option<+T> = None | Some(value: T)

  /** `Err` stands for an exception the source throws; `:-` propagates it. */
  datatype Result<+T, +E> = Ok(value: T) | Err(error: E) {
    predicate IsFailure() { Err? }

    function PropagateFailure<U>(): Result<U, E>
      requires Err?
    {
      Err(error)
    }

    function Extract(): T
      requires Ok?
    {
      value
    }
  }
}
